=== FILE: README.md ===
# Chat client core, modelled in Dafny

This project models the logic of a streaming chat client written in
TypeScript (Vue/Pinia stores, a React chat component and plain utility
classes). A user turn posts `{query, conversation_id, model_id?}` to a chat
endpoint and reads back `data: <json>` lines. Each record is a `tool_start`,
`chunk` or `tool_end` event. The client folds those records into an
assistant message: its text, its tool invocations, its charts and its
"thinking" panel flag. The model covers:

- the three streaming loops:
  - the React component's `handleSendMessage`;
  - the chat store's `sendMessageToAPI`;
  - `ChatAPI.sendMessage`.
- the chat store's history operations: save, load, delete, rename, add, update and toggle.
- the UI-preference store.
- the content parser for `<chart id=N>` placeholders.
- the markdown-it `<chart>` block rule.
- the text and date helpers.

Every operation is a pure function over immutable datatypes. The following
are parameters of the model rather than computed by it:

- the JSON parser and serialiser;
- fresh ids (`uuidv4`, `generateId`);
- clock readings (`Date.now`, `toISOString`);
- locale renderings (`toLocaleTimeString`, `toLocaleDateString`);
- the window width and the colour-scheme preference.

Modules, one per file:

| module | file | models |
|---|---|---|
| `Wrappers` | wrappers.dfy | `Option` |
| `Strings` | strings.dfy | JavaScript string primitives: trim, split/join on one character, ASCII case mapping, `toString`/`parseInt` on naturals |
| `Seqs` | seqs.dfy | `findIndex`, `splice(i, 1)` |
| `ChatTypes` | chat_types.dfy | `src/types/chat.ts` records, stream payloads, `a \|\| b` on strings, `Array.prototype.join` |
| `Stream` | stream.dfy | the shared line framing: `split('\n')`, the `data:` filter, `substring(5).trim()`, per-read processing |
| `ChatComponent` | chat_component.dfy | `ChatComponent.tsx`: the reducer inside `handleSendMessage`, the error and `finally` handling, `handleToggleThinking` |
| `ChatStore` | chat_store.dfy | `src/stores/chat.ts`: history and message actions |
| `StoreStream` | store_stream.dfy | `src/stores/chat.ts`: `sendMessageToAPI` and its stream loop |
| `ChatApi` | chat_api.dfy | `src/api/chat.ts` |
| `ContentParser` | content_parser.dfy | `src/utils/contentParser.ts` |
| `TextUtils` | text_utils.dfy | `src/utils/text.ts` |
| `ChartPlugin` | chart_plugin.dfy | `src/utils/markdownChartPlugin.ts` |
| `DateUtils` | date_utils.dfy | `src/utils/date.ts` |
| `UiStore` | ui_store.dfy | `src/stores/ui.ts` |

## Behaviour worth knowing

The three stream readers (component, store, API) differ from one another in
small ways, and the model keeps each one's own behaviour.

- **No line buffering.** None of the three loops keeps a partial line
  between reads: each read is split on its own. A record cut between two
  reads is lost, and its tail is dropped as a non-`data:` line
  (`Stream.SplitRecordLost`).
- **Missing chunk content.** For a `chunk` without `content` the store
  appends the text `undefined` (`StoreStream.ChunkTextsDiffer`), the
  component appends `''`, and the API makes no call.
- **A `null` record.** `JSON.parse` accepts the record `null`. The store
  and the API read its `.type` inside the per-line `try`, so the line is
  dropped (`Stream.NullLineDropped`). The component reads `.type` later,
  when React runs the queued updater outside any `try`; the read throws
  and, with no error boundary, React removes the whole tree
  (`ChatComponent.SendMessageView`, `ChatComponent.NullRecordSplitsClients`).
- **Tool name field.** The component takes `name`, else `tool`.
  `ChatAPI.sendMessage` reads only `tool`, and the store stores the bare
  `tool` value (`ChatApi.ToolNamesAgree`).
- **Charts from `tool_end`.** Only the component collects charts from
  `tool_end`. The store and the API ignore that event.
- **Failure notice.** On a transport error only the component replaces the
  text with a failure notice. The store sets `errorMessage` instead and
  keeps the partial text.
- **Final loading flag.** The store leaves the placeholder loading when the
  stream fails after it was pushed (see Findings); the component always
  clears it.
- **Content without a tag.** `parseMessageContent` on content with no tag
  returns the content trimmed, because the trailing-text branch runs first.
  The untrimmed whole-content fallback is reached only for whitespace-only
  content (`ContentParser.ParseWithoutTags`).

## Model

| member | source | states |
|---|---|---|
| ChatTypes.TextOr | vite-project/src/stores/chat.ts:205 | `a \|\| fallback` on a string: the fallback unless the value is present and non-empty |
| ChatTypes.Serialize | vite-project/ChatComponent.tsx:215 | `JSON.stringify` is the given serialiser, except that `''` serialises to the fixed two-quote literal |
| ChatTypes.JoinElements | vite-project/src/api/chat.ts:83-84 | `join` of no element is empty and of one element is that element's text |
| ChatTypes.CountUsers | vite-project/src/stores/chat.ts:234 | counts user messages; zero exactly when no message is from the user |
| Stream.BlankTestSubsumed | vite-project/src/stores/chat.ts:195 | the blank-line test is implied by the `data:` prefix test, so a line is used exactly when it starts with `data:` |
| Stream.LinePayload | vite-project/ChatComponent.tsx:201-205 | a line yields one payload exactly when it is a data line whose trimmed remainder parses and is not `null`; a `null` record yields none |
| Stream.NullLineDropped | vite-project/src/stores/chat.ts:196-200 | a `null` record, whose `.type` read throws inside the per-line `try`, is dropped whatever the parser makes of it, without disturbing its neighbours |
| Stream.NullRead | vite-project/src/api/chat.ts:77-81 | a read holding only `data: null` holds a `null` record and yields no payload |
| Stream.LinePayloadsAppend | vite-project/ChatComponent.tsx:199-238 | lines are processed in order: the payloads of concatenated line lists concatenate |
| Stream.DroppedLineIsolated | vite-project/ChatComponent.tsx:202-237 | a skipped or unparseable line contributes nothing and does not disturb its neighbours |
| Stream.ParsedLineKept | vite-project/ChatComponent.tsx:204-205 | a parsed line contributes exactly its payload, in place |
| Stream.PayloadsAppend | vite-project/src/api/chat.ts:68-100 | reads are framed independently: the payloads of a response concatenate read by read |
| Stream.SplitRecordLost | vite-project/src/api/chat.ts:72-76 | a record delivered whole parses, but the same record cut after `data` across two reads yields nothing |
| Stream.SuffixDropped | vite-project/src/api/chat.ts:76 | the tail of a cut record, starting with `:`, is dropped |
| Stream.OneLineRead | vite-project/src/api/chat.ts:72-79 | a read holding one line yields what that line yields |
| ChatComponent.ToolFor | vite-project/ChatComponent.tsx:211-217 | the tool name is `name`, else `tool`, else `Unknown Tool`; the input is the serialised `input \|\| ''`; the reasoning is `reasoning \|\| ''` |
| ChatComponent.ApplyEvent | vite-project/ChatComponent.tsx:207-232 | `tool_start` appends a tool and expands; `chunk` appends `content \|\| ''`; `tool_end` with a chart appends it; any other record changes nothing; id, role, loading flag and stamp are kept |
| ChatComponent.Reduce | vite-project/ChatComponent.tsx:194-239 | the fold keeps the placeholder's id, role, loading flag and stamp, and only extends its text; the rest is `ChatComponent.ReduceSpec` |
| ChatComponent.ReduceSpec | vite-project/ChatComponent.tsx:194-239 | after a stream: the text is the initial text plus every chunk in order; tools and charts are appended in order; the flag is on iff some `tool_start` arrived, otherwise unchanged |
| ChatComponent.ExpandFlagNeverCleared | vite-project/ChatComponent.tsx:218 | once the thinking flag is on, no record turns it off |
| ChatComponent.UpdateMessages | vite-project/ChatComponent.tsx:207-233 | the updater changes only messages carrying the placeholder id and applies the event to them |
| ChatComponent.RunEventsIsolated | vite-project/ChatComponent.tsx:207-233 | a whole stream changes only the placeholder; every other message is untouched |
| ChatComponent.ShowError | vite-project/ChatComponent.tsx:243 | on a non-abort failure only the placeholder's text is replaced by the notice |
| ChatComponent.StopLoading | vite-project/ChatComponent.tsx:247 | `finally` clears the loading flag of the placeholder only |
| ChatComponent.TurnShape | vite-project/ChatComponent.tsx:151-170 | a turn appends the user message and the placeholder after the earlier messages, which stay as they were |
| ChatComponent.BlankInputIgnored | vite-project/ChatComponent.tsx:146 | whitespace-only input leaves the state unchanged |
| ChatComponent.SendOutcome | vite-project/ChatComponent.tsx:145-248 | a non-blank send appends exactly two messages; the assistant message holds the fold of the received records, is not loading, and shows the notice iff the failure was not an abort |
| ChatComponent.TurnState | vite-project/ChatComponent.tsx:151-248 | after a turn the box is cleared, nothing is loading, two messages follow the earlier ones, and the assistant message holds the fold or the notice |
| ChatComponent.SendMessageView | vite-project/ChatComponent.tsx:204-210 | a non-blank send unmounts the component exactly when the accepted stream holds a `null` record, whose `.type` is read outside the `try`; every other send ends in the state `HandleSendMessage` gives |
| ChatComponent.NullRecordSplitsClients | vite-project/ChatComponent.tsx:204-235 | on the same read `data: null` the store and the API get no payload while a non-blank turn unmounts the component |
| ChatComponent.HandleSendMessage | vite-project/ChatComponent.tsx:145-248 | the conversation id is kept; non-blank input clears the box, ends not loading and adds two messages; `BlankInputIgnored` and `SendOutcome` give the rest |
| ChatComponent.SettledFields | vite-project/ChatComponent.tsx:159-248 | from the empty placeholder, the final message's text, tools, charts and flag are those the records carried, or the notice on a hard failure |
| ChatComponent.HandleToggleThinking | vite-project/ChatComponent.tsx:251-253 | flips the flag of the messages with the id and leaves the others |
| ChatComponent.ToggleTwice | vite-project/ChatComponent.tsx:251-253 | toggling twice restores every displayed flag, and restores the list when the flags are defined |
| ChatStore.TruncateText | vite-project/src/stores/chat.ts:42-44 | text that fits is kept; longer text keeps its first `maxLength` characters followed by `...` |
| ChatStore.GenerateChatTitle | vite-project/src/stores/chat.ts:90-97 | `New Chat` with no user message; otherwise the first user message truncated to 50 |
| ChatStore.GetLastMessage | vite-project/src/stores/chat.ts:99-103 | `No messages` for an empty chat, otherwise the last message truncated to 60 |
| ChatStore.FindChat | vite-project/src/stores/chat.ts:303 | `findIndex` on the chat id: an index of a matching chat, none iff no chat matches |
| ChatStore.SavedMessage | vite-project/src/stores/chat.ts:307-314 | a saved message keeps id, role and text, gets `tools \|\| []` and `thinkingExpanded \|\| false`, keeps a present stamp or takes the clock, and drops charts and loading |
| ChatStore.LoadedMessage | vite-project/src/stores/chat.ts:287-292 | a loaded message keeps its fields, with loading false, `tools \|\| []` and `thinkingExpanded \|\| false` |
| ChatStore.ChatData | vite-project/src/stores/chat.ts:304-318 | the saved chat carries the current id, the current title or a generated one, each message in order as `SavedMessage` normalises it, the conversation id or a fresh one, the clock as `updatedAt`, and as `createdAt` the existing entry's value or, for a new id, the clock |
| ChatStore.SaveCurrentChat | vite-project/src/stores/chat.ts:295-338 | the guard (no id, no messages, or saving) leaves the state alone; saving changes only the history and the title |
| ChatStore.SaveUpsert | vite-project/src/stores/chat.ts:303-329 | a new id is prepended with `createdAt` = now; an existing id is replaced in place, keeping `createdAt`, and the other entries are unchanged |
| ChatStore.SaveKeepsIdsUnique | vite-project/src/stores/chat.ts:320-326 | saving keeps the history's ids distinct |
| ChatStore.SaveLoadRoundTrip | vite-project/src/stores/chat.ts:287-314 | a save then a load gives the message back with its flags normalised, and saving it again reproduces the saved form |
| ChatStore.ResetConversation | vite-project/src/stores/chat.ts:133-136 | a fresh conversation id and no messages; every other field kept |
| ChatStore.StartNewChat | vite-project/src/stores/chat.ts:266-276 | the history is what saving the current chat leaves; then a fresh chat id, empty title, no error, no messages and a fresh conversation id, every other field unchanged |
| ChatStore.StartNewChatKeepsWork | vite-project/src/stores/chat.ts:268-270 | starting a new chat keeps the chat in progress in the history |
| ChatStore.LoadChat | vite-project/src/stores/chat.ts:278-293 | the history is what saving the current chat leaves; the loaded chat becomes current with its title, its conversation id or a fresh one, and every message loaded; every other field unchanged |
| ChatStore.LoadIdempotent | vite-project/src/stores/chat.ts:287-292 | loading an already loaded message changes nothing |
| ChatStore.DeleteChat | vite-project/src/stores/chat.ts:342-353 | an absent id is a no-op; deleting a chat that is not current removes exactly that entry |
| ChatStore.DeleteCurrentChatReinserted | vite-project/src/stores/chat.ts:342-353 | deleting the current chat while it has messages leaves it at the front of the history again |
| ChatStore.DeleteChatCorrected | vite-project/src/stores/chat.ts:342-353 | the intended deletion removes exactly the matching entry in every case |
| ChatStore.DeleteCorrectedRemoves | vite-project/src/stores/chat.ts:342-353 | with distinct ids, no chat with the id remains, the ids stay distinct, and the history shrinks by one |
| ChatStore.RenameChat | vite-project/src/stores/chat.ts:355-367 | an absent id is a no-op; otherwise only that chat's title and `updatedAt` change, and the current title follows for the current chat |
| ChatStore.NewMessage | vite-project/src/stores/chat.ts:370-376 | the new message has the draft's fields, `tools \|\| []`, `thinkingExpanded \|\| false`, the fresh id and the stamp |
| ChatStore.AddMessage | vite-project/src/stores/chat.ts:369-389 | the new message is appended and only the messages and the title may change; an existing title is kept |
| ChatStore.FirstUserMessageNamesChat | vite-project/src/stores/chat.ts:381-383 | the first user message of an untitled chat names it after its text truncated to 50 |
| ChatStore.PatchLaws | vite-project/src/stores/chat.ts:394 | a spread with an empty update is the identity, the same update twice equals once, and updated fields win |
| ChatStore.ApplyPatch | vite-project/src/stores/chat.ts:394 | `{ ...message, ...updates }`; specified by `ChatStore.PatchLaws` |
| ChatStore.UpdateMessage | vite-project/src/stores/chat.ts:391-396 | only the first message with the id is merged with the update; an absent id is a no-op |
| ChatStore.ToggleThinking | vite-project/src/stores/chat.ts:398-402 | flips the flag of the message at the index; an index out of range is a no-op |
| ChatStore.ToggleThinkingTwice | vite-project/src/stores/chat.ts:398-402 | toggling twice restores the displayed flag, and the list itself when the flag was defined |
| ChatStore.ToggleThinkingUndefined | vite-project/src/stores/chat.ts:400 | an undefined flag toggled twice becomes `false`, not undefined |
| ChatStore.CancelRequest | vite-project/src/stores/chat.ts:255-263 | without a controller nothing changes; with one, only the first loading message stops loading |
| ChatStore.DashesToSpaces | vite-project/src/stores/chat.ts:412-421 | every `-` becomes a space and nothing else changes |
| ChatStore.CapitalizeWords | vite-project/src/stores/chat.ts:412 | exactly the word characters not preceded by a word character are upper-cased |
| ChatStore.GenerateQuickQuestion | vite-project/src/stores/chat.ts:404-427 | the question starts with the stem and ends with `?`, and is just the stem and `?` iff no selection is made |
| ChatStore.QuickQuestionProjectOnly | vite-project/src/stores/chat.ts:407-409 | a project type alone gives the stem, ` for <type> projects` and `?` |
| ChatStore.QuickQuestionStateOnly | vite-project/src/stores/chat.ts:411-414 | a state alone gives ` in ` and the state with dashes as spaces and each word capitalised |
| ChatStore.QuickQuestionCodeOnly | vite-project/src/stores/chat.ts:416-418 | a code alone gives ` according to ` and the code upper-cased |
| ChatStore.QuickQuestionSiteOnly | vite-project/src/stores/chat.ts:420-423 | a site type alone gives ` for <type> sites` with dashes as spaces |
| ChatStore.QuickQuestionOrder | vite-project/src/stores/chat.ts:404-427 | with every selection made, the clauses follow in the order project, state, code, site |
| StoreStream.ChunkPiece | vite-project/src/stores/chat.ts:222 | `+=` of an absent content appends the text `undefined` |
| StoreStream.StoreInput | vite-project/src/stores/chat.ts:202-204 | an array input is joined with `", "`; any other defined input is serialised; an absent one stays undefined |
| StoreStream.StoreTool | vite-project/src/stores/chat.ts:201-215 | the store's tool has the bare `tool` as its name, the store's input, and `reasoning \|\| ''` |
| StoreStream.StoreEvent | vite-project/src/stores/chat.ts:200-224 | `tool_start` appends a tool and expands only on the first; `chunk` appends its piece; other records change nothing |
| StoreStream.StoreToolsNonEmpty | vite-project/src/stores/chat.ts:207-215 | the store holds a tool exactly when some record is a `tool_start` |
| StoreStream.StoreReduce | vite-project/src/stores/chat.ts:187-229 | the loop keeps the placeholder's id, role, loading flag, charts and stamp, and only extends its text; the rest is `StoreStream.StoreReduceSpec` |
| StoreStream.StoreReduceSpec | vite-project/src/stores/chat.ts:187-229 | after the loop, the text is every chunk piece in order and the tools are appended in order; the flag is set when a tool reaches a message that had none, and is unchanged otherwise |
| StoreStream.ChunkTextsAgree | vite-project/src/stores/chat.ts:222 | the store's text equals the component's whenever every chunk has content |
| StoreStream.ChunkTextsDiffer | vite-project/src/stores/chat.ts:222 | a chunk without content gives `undefined` in the store and nothing in the component |
| StoreStream.StoreRequest | vite-project/src/stores/chat.ts:148-155 | the body carries the query and conversation id, and `model_id` iff a model is selected |
| StoreStream.Started | vite-project/src/stores/chat.ts:140-145 | a missing conversation id is replaced by a fresh one and the messages are cleared; the controller is set; every other field kept |
| StoreStream.SentRequest | vite-project/src/stores/chat.ts:148-155 | the request goes to the current or fresh conversation, with `model_id` iff a model is selected |
| StoreStream.Fail | vite-project/src/stores/chat.ts:241-247 | an abort leaves the state alone; any other error sets `Error: <message>` |
| StoreStream.Complete | vite-project/src/stores/chat.ts:231-239 | a completed stream clears the placeholder's loading flag and keeps the error text |
| StoreStream.NameIfFirst | vite-project/src/stores/chat.ts:234-236 | an untitled chat with exactly one user message is named after it; a title is never replaced |
| StoreStream.EarlyFailure | vite-project/src/stores/chat.ts:167-247 | a rejected fetch, a missing body or a bad status pushes no message and reports the cause unless aborted |
| StoreStream.Respond | vite-project/src/stores/chat.ts:170-247 | an accepted response appends one placeholder holding the fold, loading iff the stream did not finish |
| StoreStream.Settle | vite-project/src/stores/chat.ts:248-252 | `finally` clears the loading, typing and controller flags only |
| StoreStream.SendMessageToAPI | vite-project/src/stores/chat.ts:139-253 | every outcome leaves the store idle (not loading, not typing, no controller) with the current or fresh conversation id; the cases are `SendEarlyFailure` and `SendPlaceholderLifecycle` |
| StoreStream.SendEarlyFailure | vite-project/src/stores/chat.ts:157-247 | without body and ok status no placeholder is pushed, and the error text names the cause |
| StoreStream.SendPlaceholderLifecycle | vite-project/src/stores/chat.ts:170-253 | once accepted, exactly one placeholder is appended and holds the fold, but it stops loading only when the stream completes |
| StoreStream.CorrectedSendClearsPlaceholder | vite-project/src/stores/chat.ts:231-252 | with the intended `finally`, the placeholder never stays loading |
| StoreStream.SendMessageToAPICorrected | vite-project/src/stores/chat.ts:139-253 | the corrected request also leaves the store idle with the current or fresh conversation id; `CorrectedSendClearsPlaceholder` states the cleared placeholder |
| ChatApi.ApiTool | vite-project/src/api/chat.ts:81-92 | the name is `tool \|\| 'Unknown Tool'`; an array input is joined with `", "`, otherwise `JSON.stringify(input \|\| '')`; the reasoning is `reasoning \|\| ''` |
| ChatApi.Dispatch | vite-project/src/api/chat.ts:81-95 | a `tool_start` makes one `onToolStart` call; a `chunk` with non-empty content makes one `onChunk` call; anything else makes none |
| ChatApi.SendMessage | vite-project/src/api/chat.ts:45-104 | a rejection, a missing body or a bad status makes no call and rejects with its message; otherwise the callbacks follow the records and the promise resolves iff the stream finished |
| ChatApi.DispatchAppend | vite-project/src/api/chat.ts:68-100 | callbacks are made in record order across reads |
| ChatApi.NoEmptyChunkCallback | vite-project/src/api/chat.ts:93-94 | no `onChunk` call carries empty text |
| ChatApi.ApiChunksMatchComponent | vite-project/src/api/chat.ts:93-94 | the text a caller gathers from `onChunk` equals the component's accumulated text |
| ChatApi.ToolInputsAgree | vite-project/src/api/chat.ts:83-85 | the API's tool input matches the component's on non-arrays and the store's on arrays |
| ChatApi.ToolNamesAgree | vite-project/src/api/chat.ts:82 | the API's tool name matches the component's iff the record has no `name` that differs |
| ChatApi.CreateRequest | vite-project/src/api/chat.ts:136-147 | the request carries the query and id, with `model_id` iff a non-empty model is given |
| ChatApi.StoreRequestIsCreateRequest | vite-project/src/api/chat.ts:136-147 | the store's request is `createRequest` with the selected model |
| ChatApi.CreateMessage | vite-project/src/api/chat.ts:109-116 | the draft has the role, `user` by default, and the text, empty tools and a collapsed panel |
| ChatApi.CreatedMessageAdded | vite-project/src/api/chat.ts:109-116 | a created draft added to the store keeps its empty tools and collapsed panel |
| ChatApi.CreateLoadingMessage | vite-project/src/api/chat.ts:121-131 | an empty, loading assistant message with empty tools and a stamp |
| ChatApi.LoadingMessageIsPlaceholder | vite-project/src/api/chat.ts:121-131 | the loading message is the store's placeholder with a stamp |
| ContentParser.SkipSpaces | vite-project/src/utils/contentParser.ts:22 | `\s*`: the end of the whitespace run |
| ContentParser.SkipDigits | vite-project/src/utils/contentParser.ts:22 | `\d+`: the end of the digit run |
| ContentParser.MatchAt | vite-project/src/utils/contentParser.ts:22 | a match found at a position starts there and ends inside the text; `MatchAtSound` and `MatchAtComplete` tie it to the pattern |
| ContentParser.MatchAtSound | vite-project/src/utils/contentParser.ts:22 | a match found at a position satisfies the pattern `<chart\s+id\s*=\s*(\d+)\s*>`, case-insensitive |
| ContentParser.MatchAtComplete | vite-project/src/utils/contentParser.ts:22 | every occurrence of the pattern is found by the matcher, with the same fields |
| ContentParser.NextMatch | vite-project/src/utils/contentParser.ts:27 | a match `exec` returns lies at or after `lastIndex` and inside the text; `NextMatchSpec` says it is the leftmost |
| ContentParser.NextMatchSpec | vite-project/src/utils/contentParser.ts:27 | `exec` from `lastIndex` returns the leftmost pattern match at or after it, or none when there is none |
| ContentParser.Matches | vite-project/src/utils/contentParser.ts:27-50 | the visited matches are in order, do not overlap, and lie between the start position and the end of the text |
| ContentParser.MatchesSpec | vite-project/src/utils/contentParser.ts:27-50 | the loop visits exactly the matches successive `exec` calls return, none skipped: the first is the leftmost from the start, each next is the leftmost after the previous one's end, and none remains after the last |
| ContentParser.MatchesSound | vite-project/src/utils/contentParser.ts:27-50 | every visited match satisfies the pattern, in order without overlap, and there is none iff `exec` finds nothing |
| ContentParser.MatchesChained | vite-project/src/utils/contentParser.ts:27-50 | each visited match is what `exec` returns from the previous match's end, and `exec` finds nothing after the last |
| ContentParser.ScanChained | vite-project/src/utils/contentParser.ts:27-50 | the scan of any positional matcher lists its successive leftmost hits, and no hit follows the last |
| ContentParser.MarkdownPiece | vite-project/src/utils/contentParser.ts:32-61 | a slice yields a markdown segment, trimmed and non-empty, iff it is not blank |
| ContentParser.ParseMessageContent | vite-project/src/utils/contentParser.ts:16-72 | empty content gives no segments, and any other content at least one |
| ContentParser.Build | vite-project/src/utils/contentParser.ts:27-61 | the segment loop; specified by `ContentParser.BuildLayout` and `ContentParser.BuildShape` |
| ContentParser.BuildShape | vite-project/src/utils/contentParser.ts:27-61 | the loop emits one chart segment per match in order, trimmed non-empty markdown, and no two markdown segments in a row |
| ContentParser.ParseShape | vite-project/src/utils/contentParser.ts:16-72 | the chart ids are the match values in order; no two markdown segments touch; for non-blank content every markdown segment is trimmed |
| ContentParser.BuildLayout | vite-project/src/utils/contentParser.ts:27-61 | the loop's output is exactly: the text before the first match, chart 0, the text between matches 0 and 1, chart 1, ..., the text after the last match; each text is dropped when blank and trimmed otherwise |
| ContentParser.ParseIsBuild | vite-project/src/utils/contentParser.ts:63-71 | with a tag or non-blank text the loop's segments are returned as they are; the whole-content fallback is not taken |
| ContentParser.ParseLayout | vite-project/src/utils/contentParser.ts:16-72 | content with a tag or with non-blank text parses to that exact layout of the matches found from the start |
| ContentParser.BuildMarkdownTexts | vite-project/src/utils/contentParser.ts:32-61 | the markdown texts, in order, are the non-blank stretches outside the matches, trimmed |
| ContentParser.ParseMarkdownTexts | vite-project/src/utils/contentParser.ts:16-72 | the markdown texts of parsed content are its non-blank stretches outside the tags, trimmed; blank content without a tag is returned as is, or as nothing when empty |
| ContentParser.ParseWithoutTags | vite-project/src/utils/contentParser.ts:53-69 | without a tag, non-blank content gives one trimmed markdown segment and blank content is kept as is |
| ContentParser.Dedup | vite-project/src/utils/contentParser.ts:84-86 | the values of the input without repeats, and every value is kept |
| ContentParser.DedupOrder | vite-project/src/utils/contentParser.ts:82-87 | values appear in the order of their first occurrence |
| ContentParser.GetReferencedChartIds | vite-project/src/utils/contentParser.ts:77-90 | the distinct ids of all matches, each once |
| ContentParser.HasChartPlaceholders | vite-project/src/utils/contentParser.ts:95-98 | holds iff the pattern matches at some position |
| ContentParser.PlaceholdersIffIds | vite-project/src/utils/contentParser.ts:95-98 | `hasChartPlaceholders` holds iff some id is referenced |
| ContentParser.KeptIndices | vite-project/src/utils/contentParser.ts:110-115 | the indices kept, ascending, are exactly those whose global id `offset + k + 1` is not referenced |
| ContentParser.GetUnreferencedCharts | vite-project/src/utils/contentParser.ts:104-118 | no charts give none; otherwise the charts at the kept indices, in order |
| TextUtils.PrefixClamped | vite-project/src/utils/text.ts:11 | `substring(0, end)` clamps a negative end to 0 and a long end to the length |
| TextUtils.Truncate | vite-project/src/utils/text.ts:9-12 | text that fits is kept; otherwise the result is a prefix followed by the suffix, of length `max(maxLength, suffix length)` |
| TextUtils.TruncateFits | vite-project/src/utils/text.ts:9-12 | with a suffix that fits, the result fits |
| TextUtils.TruncateIdempotent | vite-project/src/utils/text.ts:9-12 | with a suffix that fits, truncating twice equals truncating once |
| TextUtils.TruncationsAgree | vite-project/src/utils/text.ts:9-12 | the store's `truncateText(t, n)` equals `truncate(t, n + 3)` except when the text is 1 to 3 characters too long |
| TextUtils.Capitalize | vite-project/src/utils/text.ts:42-44 | only the first character is upper-cased |
| TextUtils.CapitalizeIdempotent | vite-project/src/utils/text.ts:42-44 | capitalising twice equals capitalising once |
| TextUtils.KebabToTitle | vite-project/src/utils/text.ts:49-54 | `kebabToTitle`; specified by `TextUtils.KebabToTitleCharwise` |
| TextUtils.KebabToTitleCharwise | vite-project/src/utils/text.ts:49-54 | same length; each `-` becomes a space and each character after the start or a `-` is upper-cased |
| TextUtils.KebabToTitleParts | vite-project/src/utils/text.ts:49-54 | for input without spaces, the title splits on spaces back into the capitalised parts |
| TextUtils.Filter | vite-project/src/utils/text.ts:63 | removing a class leaves only kept characters of the input, and text with nothing to remove is unchanged |
| TextUtils.CollapseRuns | vite-project/src/utils/text.ts:64 | after collapsing, class characters are the replacement and no two are adjacent |
| TextUtils.CollapseFixedPoint | vite-project/src/utils/text.ts:64 | collapsing already collapsed text changes nothing |
| TextUtils.NormalizeForSearch | vite-project/src/utils/text.ts:59-65 | the result holds only lower-case word characters and spaces, never two spaces in a row |
| TextUtils.NormalizeTwice | vite-project/src/utils/text.ts:59-65 | normalising again only trims |
| TextUtils.NormalizeFixedPoint | vite-project/src/utils/text.ts:59-65 | normalised, trimmed text is a fixed point |
| TextUtils.NormalizeNotIdempotent | vite-project/src/utils/text.ts:59-65 | `"a !"` normalises to `"a "` and then to `"a"` |
| TextUtils.DropLeadingDashes | vite-project/src/utils/text.ts:119 | `^-+` leaves a suffix that does not start with a dash, and leaves text without a leading dash unchanged |
| TextUtils.DropTrailingDashes | vite-project/src/utils/text.ts:119 | `-+$` leaves a prefix that does not end with a dash, and leaves text without a trailing dash unchanged |
| TextUtils.Slugify | vite-project/src/utils/text.ts:113-120 | every result is lower-case letters, digits and single inner dashes, with no dash at either end |
| TextUtils.SlugFixedPoint | vite-project/src/utils/text.ts:113-120 | a slug slugifies to itself |
| TextUtils.SlugifyIdempotent | vite-project/src/utils/text.ts:113-120 | slugifying twice equals slugifying once |
| TextUtils.FirstSentence | vite-project/src/utils/text.ts:72-73 | the longest prefix without `.`, `!` or `?` |
| TextUtils.ExtractPreview | vite-project/src/utils/text.ts:70-81 | a non-empty first sentence that fits is returned trimmed; with room for the suffix the result fits |
| TextUtils.SplitSpaceRuns | vite-project/src/utils/text.ts:87 | `split(/\s+/)`: no piece holds whitespace, the last is empty iff the text is empty or ends in whitespace, and the non-empty pieces are as many as the runs of non-whitespace |
| TextUtils.WordCount | vite-project/src/utils/text.ts:86-88 | the word count is the number of maximal non-whitespace runs |
| TextUtils.RunsOfTrim | vite-project/src/utils/text.ts:87 | trimming does not change the number of runs |
| TextUtils.IsNotEmpty | vite-project/src/utils/text.ts:93-95 | holds iff some character is not whitespace |
| TextUtils.WordCountPositiveIffNotEmpty | vite-project/src/utils/text.ts:86-95 | some word is counted iff `isNotEmpty` holds |
| ChartPlugin.FindLine | vite-project/src/utils/markdownChartPlugin.ts:29-45 | the first line in the range that passes the test, or none |
| ChartPlugin.HeadText | vite-project/src/utils/markdownChartPlugin.ts:36-37 | the start line contributes nothing iff the text after `<chart>` is blank |
| ChartPlugin.ScanLines | vite-project/src/utils/markdownChartPlugin.ts:24-45 | the loop finds a closing line iff one exists after the start, stops after the first, and has gathered the text before it |
| ChartPlugin.ChartId | vite-project/src/utils/markdownChartPlugin.ts:5-7 | ids start with `chart-` |
| ChartPlugin.ChartRule | vite-project/src/utils/markdownChartPlugin.ts:15-61 | the rule matches iff the line opens with `<chart>` and a closing line follows; a decline or a silent probe changes nothing |
| ChartPlugin.ChartRuleAccepts | vite-project/src/utils/markdownChartPlugin.ts:47-60 | an accepted block pushes exactly one `chart` token with the next id, the trimmed text and the map `[start, close + 1]`, and resumes after the closing line |
| ChartPlugin.OneLineChartDeclined | vite-project/src/utils/markdownChartPlugin.ts:29-47 | a block closed only on its own start line is declined |
| ChartPlugin.RenderIds | vite-project/src/utils/markdownChartPlugin.ts:5-51 | successive ids use successive counter values |
| ChartPlugin.ChartIdFields | vite-project/src/utils/markdownChartPlugin.ts:6 | an id splits on `-` into `chart`, the clock and the counter |
| ChartPlugin.ChartIdsDistinct | vite-project/src/utils/markdownChartPlugin.ts:4-7 | ids with different counter values differ, whatever the clock |
| ChartPlugin.RenderIdsDistinct | vite-project/src/utils/markdownChartPlugin.ts:4-12 | between resets, the ids are pairwise distinct |
| ChartPlugin.Nows | vite-project/src/utils/markdownChartPlugin.ts:6 | the clock reading of each rule call, in call order |
| ChartPlugin.InvokePushesNextId | vite-project/src/utils/markdownChartPlugin.ts:50-57 | an accepted call advances the counter by one and pushes one token whose `info` is the id built from the call's clock and the new counter |
| ChartPlugin.RunRuleTokens | vite-project/src/utils/markdownChartPlugin.ts:4-61 | for any rule that pushes the next id on each accepted call, a run of accepted calls advances the counter by their number, keeps the earlier tokens and pushes one token per call carrying the id of its clock and counter value |
| ChartPlugin.RunRuleIds | vite-project/src/utils/markdownChartPlugin.ts:4-61 | a run of accepted `<chart>` blocks pushes one token per block, and their `info` values are the ids `RenderIds` lists for the blocks' clock readings |
| ChartPlugin.PushedIdsDistinct | vite-project/src/utils/markdownChartPlugin.ts:4-61 | when ids with different counters differ, the tokens a run pushes carry pairwise distinct `info` values |
| ChartPlugin.RunRuleIdsDistinct | vite-project/src/utils/markdownChartPlugin.ts:4-61 | the chart tokens a run of accepted blocks pushes carry pairwise distinct ids |
| DateUtils.Distance | vite-project/src/utils/date.ts:12 | `Math.abs(now - date)` |
| DateUtils.Classify | vite-project/src/utils/date.ts:13-31 | the branch cascade; specified by `DateUtils.ClassifyBands` |
| DateUtils.ClassifyBands | vite-project/src/utils/date.ts:13-31 | each branch is a band of distances (under a minute, an hour, a day, two days, a week, the rest), and its count is the floored quotient |
| DateUtils.TimeOfDayUnreachable | vite-project/src/utils/date.ts:21-24 | the `diffDays === 0` branch is never taken |
| DateUtils.FormatRelativeSymmetric | vite-project/src/utils/date.ts:12 | a date as far ahead reads the same as one as far behind |
| DateUtils.FormatRelative | vite-project/src/utils/date.ts:9-32 | `formatRelative`; specified by `FormatRelativeSymmetric`, `FormatRelativeMinutes`, `FormatRelativeHours` and `FormatRelativeDays` |
| DateUtils.FormatRelativeMinutes | vite-project/src/utils/date.ts:17-20 | under a minute gives `Just now`; 1 to 59 minutes gives `m minute(s) ago`, singular iff under two minutes |
| DateUtils.FormatRelativeHours | vite-project/src/utils/date.ts:21-22 | 1 to 23 hours gives `h hour(s) ago` |
| DateUtils.FormatRelativeDays | vite-project/src/utils/date.ts:25-31 | one day gives `Yesterday`; 2 to 6 days give `n days ago`; a week or more gives the locale date |
| DateUtils.PadStart | vite-project/src/utils/date.ts:58 | `padStart` puts fill characters in front up to the length and keeps the text at the end |
| DateUtils.Pad | vite-project/src/utils/date.ts:58 | `pad`; specified by `DateUtils.PadRoundTrip` |
| DateUtils.PadRoundTrip | vite-project/src/utils/date.ts:58 | below 100, `pad` gives two digits that parse back to the number; from 100 on, the plain number |
| DateUtils.FormatForFilename | vite-project/src/utils/date.ts:57-61 | `formatForFilename`; specified by `DateUtils.FilenameRoundTrip` |
| DateUtils.FilenameRoundTrip | vite-project/src/utils/date.ts:57-61 | a `Y-MM-DD_HH-mm-ss` name parses back to the date's fields, with the month shifted from 0-based to 1-based |
| UiStore.SaveUIState | vite-project/src/stores/ui.ts:92-102 | saving writes the five preferences and changes nothing else |
| UiStore.LoadUIState | vite-project/src/stores/ui.ts:104-124 | a saved snapshot replaces the five preferences; the mobile flag and storage are untouched |
| UiStore.SaveLoadRoundTrip | vite-project/src/stores/ui.ts:92-121 | a save then a load restores the saved preferences and leaves the mobile flag alone |
| UiStore.LoadWithoutSnapshot | vite-project/src/stores/ui.ts:105-113 | with nothing stored, loading gives the defaults |
| UiStore.ToggleSidebar | vite-project/src/stores/ui.ts:48-51 | flips only the sidebar flag and saves |
| UiStore.CloseSidebar | vite-project/src/stores/ui.ts:53-56 | closes the sidebar only and saves |
| UiStore.OpenSidebar | vite-project/src/stores/ui.ts:58-61 | opens the sidebar only and saves |
| UiStore.SetTheme | vite-project/src/stores/ui.ts:63-67 | sets only the theme and saves |
| UiStore.ToggleCompactMode | vite-project/src/stores/ui.ts:69-72 | flips only compact mode and saves |
| UiStore.ToggleShowThinking | vite-project/src/stores/ui.ts:74-77 | flips only the thinking display and saves |
| UiStore.SetLastActiveChat | vite-project/src/stores/ui.ts:79-82 | sets only the last active chat and saves |
| UiStore.TogglesAreInvolutions | vite-project/src/stores/ui.ts:48-77 | each toggle applied twice gives back the saved state |
| UiStore.CloseOpenIdempotent | vite-project/src/stores/ui.ts:53-61 | closing or opening twice equals once; opening after closing restores an open sidebar |
| UiStore.UpdateMobileState | vite-project/src/stores/ui.ts:36-45 | the mobile flag is `width < 768`; the sidebar closes iff it was open and a desktop layout turned mobile; nothing is saved |
| UiStore.UpdateMobileNeverOpens | vite-project/src/stores/ui.ts:36-45 | the resize handler never opens the sidebar, leaves it alone while mobile, and is idempotent at a fixed width |
| UiStore.MobileCloseNotPersisted | vite-project/src/stores/ui.ts:36-121 | a sidebar closed by the resize handler comes back open after a reload |
| UiStore.HandleChatNavigation | vite-project/src/stores/ui.ts:30-89 | on a mobile layout navigation closes and saves; otherwise it is a no-op |
| UiStore.ShouldAutoCloseSidebar | vite-project/src/stores/ui.ts:30-33 | `shouldAutoCloseSidebar`; specified by `UiStore.NavigationClosesIffMobile` |
| UiStore.NavigationClosesIffMobile | vite-project/src/stores/ui.ts:85-89 | after navigation the sidebar is closed iff the layout is mobile or it was closed |
| UiStore.EffectiveTheme | vite-project/src/stores/ui.ts:23-28 | never `system`; the theme itself unless it is `system`, then dark iff the system prefers dark |
| UiStore.Initialize | vite-project/src/stores/ui.ts:142-144 | after initialising, the mobile flag reflects the width and storage is unchanged |
| UiStore.InitializeRestores | vite-project/src/stores/ui.ts:104-144 | on a desktop width, a fresh store comes up with the saved preferences or the defaults |
| UiStore.InitializeOnMobileCloses | vite-project/src/stores/ui.ts:36-144 | on a mobile width, a fresh store comes up with the sidebar closed and the other preferences restored |

## Left out

- Network, streams and decoding: `fetch`, `ReadableStream` readers, `TextDecoder` and `AbortController`. A response is a datatype: rejected (aborted or not), or responded with its body flag, ok flag, status, the decoded reads and how the reader ended.
- JSON: `JSON.parse` and `JSON.stringify` are function parameters. Only `JSON.stringify('')` is fixed.
- ChatTypes.Json: numbers are integers, so a fractional number such as the element of an array input `[0.5]` cannot be represented, and an element's text uses the integer's decimal form rather than JavaScript's number formatting.
- ChatComponent.SendMessageView: once the updater throws, the component is gone, so the model gives no state for it. It does not say whether React applied the updaters queued before the `null` record before it removed the tree.
- ChatTypes.Payload: the fields `type`, `name`, `tool`, `reasoning`, `content` and `artifacts_data.chart_svg` are a string or absent. A `null`, number, boolean or object in one of them is not modelled: the store would append it as text (`"null"`, `"5"`) where the model's absent field appends `undefined`, and the component's `|| ''` would map `null`, `0` and `false` to `''`.
- ChatStore.ChatData: one clock reading `now` stands for the separate `new Date().toISOString()` calls of `saveCurrentChat` (vite-project/src/stores/chat.ts:313, 316, 317), so a new chat gets `createdAt == updatedAt` and every unstamped message the same stamp; the source reads the clock each time and promises neither.
- Storage: `localStorage` and `src/utils/storage.ts`. The chat history is an in-memory sequence. The UI snapshot is the `stored` field. `ChatStorage.loadUIState` is taken to return the stored snapshot or the defaults it is given.
- Framework and timers: React/Vue reactivity, rendering, `debounce`, `setTimeout`. `addMessage`'s debounced save is not modelled, and the store's `isThinking` ref is never written.
- Fresh values: ids, `uuidv4`, clock readings and `Math.random` are parameters.
- Locale formatting: `formatChatTime`, `isToday`, `isThisWeek`, the store's duplicate `formatDateRelative`. In `formatRelative`, the locale time and date strings are opaque inputs.
- Dates: invalid dates and the `NaN` they produce. Distances are integer milliseconds.
- `formatFileSize` uses floating point (`Math.log`, `toFixed`).
- Browser UI plumbing: `applyTheme`, `matchMedia` listeners, window resize listeners, `cleanup`, and the markdown-it renderer with `escapeHtml`.
- The proxy handler, the vite configuration, the router and the sample chats that `initialize` inserts.
- Strings are sequences of characters, so lengths count characters rather than UTF-16 code units.
- Case mapping and `\w`/`\s` cover ASCII only. `\s` also covers the common Unicode spaces listed in `Strings.IsSpace`.
- ContentParser.ParseMessageContent: `parseInt` of a very long digit run loses precision in JavaScript; the model parses exactly.
- ChartPlugin.ChartRule: markdown-it's block state is reduced to the current line and the token list. The lines are given with their indentation already removed (`bMarks + tShift`).
- ChartPlugin.RenderIds: `chartCounter` is reset only when the plugin is registered, not on each render, so ids are distinct only between registrations.
- ChatStore.DeleteCorrectedRemoves: stated for histories whose ids are distinct, which every save keeps (`ChatStore.SaveKeepsIdsUnique`).
- TextUtils.KebabToTitleParts: stated only for input without spaces; a space in the input would split the title further.
- DateUtils.FilenameRoundTrip: stated for non-negative years and in-range fields, as a `Date` reports them.

## Findings

| source | as written | input that shows it | evidently intended | confidence | as-written member | corrected member |
|---|---|---|---|---|---|---|
| vite-project/src/stores/chat.ts:342-353 | deleting the current chat calls `startNewChat`, which first saves the current chat and re-inserts the deleted chat at the front of the history | history `[A]`, current chat `A` with one message, `deleteChat(A)`: the history is `[A]` again | the deleted chat stays deleted and a new empty chat begins | not executed | ChatStore.DeleteCurrentChatReinserted | ChatStore.DeleteChatCorrected |
| vite-project/src/stores/chat.ts:231-252 | the placeholder's `isLoading` is cleared only after the stream completes; a read that fails mid-stream reaches `finally`, which clears the store flags but not the message's | an accepted response whose reader fails with a non-abort error after one chunk: the store is idle but the placeholder still has `isLoading: true` | every turn ends with a non-loading message, as in the React component's `finally` | not executed | StoreStream.SendPlaceholderLifecycle | StoreStream.CorrectedSendClearsPlaceholder |

=== FILE: chart_plugin.dfy ===
/** The markdown-it `chart` block rule (`src/utils/markdownChartPlugin.ts`)
    over the lines of the source, each already stripped of its indentation,
    and the `generateChartId` counter. */
module ChartPlugin {
  import opened Wrappers
  import opened Strings

  const OpenTag: string := "<chart>"
  const CloseTag: string := "</chart>"
  const IdPrefix: string := "chart-"

  /** The token the rule pushes: type `chart`, tag `div`, nesting 0. */
  datatype Token = Token(kind: string, tag: string, nesting: int, info: string, content: string, mapStart: nat, mapEnd: nat)

  /** The parts of markdown-it's block state the rule reads and writes. */
  datatype BlockState = BlockState(line: nat, tokens: seq<Token>)

  /** What the rule returns, the block state after it, and the id counter. */
  datatype RuleOutcome = RuleOutcome(matched: bool, state: BlockState, counter: nat)

  /** The start line begins with `<chart>` exactly (at least 7 characters). */
  predicate OpensChart(line: string) {
    |line| >= |OpenTag| && line[..|OpenTag|] == OpenTag
  }

  predicate IsClosing(line: string) {
    Trim(line) == CloseTag
  }

  /** The first line in `[i, end)` that passes `p`. */
  function FindLine(lines: seq<string>, i: nat, end: nat, p: string -> bool): (r: Option<nat>)
    requires end <= |lines|
    ensures r.Some? ==> i <= r.value < end && p(lines[r.value])
    ensures r.Some? ==> forall k :: i <= k < r.value ==> !p(lines[k])
    ensures r.None? ==> forall k :: i <= k < end ==> !p(lines[k])
    decreases end - i
  {
    if i >= end then None
    else if p(lines[i]) then Some(i)
    else FindLine(lines, i + 1, end, p)
  }

  /** A range without a passing line, extended by a line that does not
      pass, still has none. */
  lemma {:induction false} FindLineExtend(lines: seq<string>, i: nat, j: nat, p: string -> bool)
    requires i <= j < |lines| && (i == j || FindLine(lines, i, j, p).None?) && !p(lines[j])
    ensures FindLine(lines, i, j + 1, p).None?
    decreases j - i
  {
    if i < j {
      FindLineExtend(lines, i + 1, j, p);
    }
  }

  /** The closing line of a block opened at `start`: never `start` itself. */
  function FirstClosing(lines: seq<string>, start: nat, end: nat): Option<nat>
    requires end <= |lines|
  {
    FindLine(lines, start + 1, end, IsClosing)
  }

  /** What the start line contributes: the text after `<chart>`, trimmed,
      with a newline, when it is not blank. */
  function HeadText(line: string): (r: string)
    ensures r == "" <==> AllSpace(if |line| >= |OpenTag| then line[|OpenTag|..] else "")
  {
    var after := Trim(if |line| >= |OpenTag| then line[|OpenTag|..] else "");
    if after != "" then after + "\n" else ""
  }

  /** The text gathered from lines `start` up to (not including) `upTo`:
      `head` of the start line, then every other line followed by a newline. */
  function Gather(lines: seq<string>, start: nat, upTo: nat, head: string -> string): string
    requires start <= upTo <= |lines|
    decreases upTo - start
  {
    if upTo == start then ""
    else if upTo == start + 1 then head(lines[start])
    else Gather(lines, start, upTo - 1, head) + lines[upTo - 1] + "\n"
  }

  /** The chart text of a block whose closing line is `upTo`. */
  function Collected(lines: seq<string>, start: nat, upTo: nat): string
    requires start <= upTo <= |lines|
  {
    Gather(lines, start, upTo, HeadText)
  }

  /** The loop of the rule, over the start-line reading `head` and the
      closing test `closes`: scans from the start line for the first closing
      line before `end`, gathering the content on the way. */
  method ScanLines(lines: seq<string>, start: nat, end: nat, head: string -> string, closes: string -> bool)
    returns (found: bool, nextLine: nat, content: string)
    requires start < |lines| && end <= |lines|
    ensures found <==> FindLine(lines, start + 1, end, closes).Some?
    ensures found ==> nextLine == FindLine(lines, start + 1, end, closes).value + 1
    ensures found ==> content == Gather(lines, start, nextLine - 1, head)
    ensures !found ==> nextLine == start
  {
    found := false;
    nextLine := start;
    content := "";
    var i := start;
    while i < end
      invariant start <= i && (i <= end || i == start)
      invariant !found && nextLine == start
      invariant content == Gather(lines, start, i, head)
      invariant i <= start + 1 || FindLine(lines, start + 1, i, closes).None?
      decreases end - i
    {
      if i == start {
        content := content + head(lines[i]);
      } else if closes(lines[i]) {
        found := true;
        nextLine := i + 1;
        break;
      } else {
        content := content + lines[i] + "\n";
        FindLineExtend(lines, start + 1, i, closes);
      }
      i := i + 1;
    }
  }

  /** `generateChartId`: the counter incremented, then used with the clock. */
  function ChartId(now: nat, counter: nat): (id: string)
    ensures IdPrefix <= id
  {
    IdPrefix + NatToString(now) + "-" + NatToString(counter)
  }

  /** The rule: declines without an opening tag or without a closing line;
      in silent mode it only reports the match; otherwise it pushes one
      token, moves past the closing line and advances the counter. */
  function ChartRule(lines: seq<string>, start: nat, end: nat, silent: bool, st: BlockState, counter: nat, now: nat): (r: RuleOutcome)
    requires start < |lines| && end <= |lines|
    ensures r.matched <==> OpensChart(lines[start]) && FirstClosing(lines, start, end).Some?
    ensures !r.matched || silent ==> r.state == st && r.counter == counter
  {
    if !OpensChart(lines[start]) then RuleOutcome(false, st, counter)
    else
      match FirstClosing(lines, start, end)
      case None => RuleOutcome(false, st, counter)
      case Some(close) =>
        if silent then RuleOutcome(true, st, counter)
        else
          var token := Token("chart", "div", 0, ChartId(now, counter + 1), Trim(Collected(lines, start, close)), start, close + 1);
          RuleOutcome(true, BlockState(close + 1, st.tokens + [token]), counter + 1)
  }

  /** A non-silent match pushes exactly one `chart` token, mapped from the
      start line to just past the earliest closing line, holding the
      collected text trimmed and the next id, and resumes after that line. */
  lemma ChartRuleAccepts(lines: seq<string>, start: nat, end: nat, st: BlockState, counter: nat, now: nat)
    requires start < |lines| && end <= |lines|
    requires OpensChart(lines[start]) && FirstClosing(lines, start, end).Some?
    ensures var r := ChartRule(lines, start, end, false, st, counter, now);
      var close := FirstClosing(lines, start, end).value;
      && r.state.line == close + 1
      && start + 1 < r.state.line <= end
      && (forall k :: start < k < close ==> !IsClosing(lines[k]))
      && r.counter == counter + 1
      && |r.state.tokens| == |st.tokens| + 1
      && r.state.tokens[..|st.tokens|] == st.tokens
      && r.state.tokens[|st.tokens|]
         == Token("chart", "div", 0, ChartId(now, counter + 1), Trim(Collected(lines, start, close)), start, close + 1)
  {
    var close := FirstClosing(lines, start, end).value;
    var token := Token("chart", "div", 0, ChartId(now, counter + 1), Trim(Collected(lines, start, close)), start, close + 1);
    assert (st.tokens + [token])[..|st.tokens|] == st.tokens;
  }

  /** A block whose only closing tag is on its own start line, as in
      `<chart>…</chart>` on one line, is not accepted. */
  lemma OneLineChartDeclined(lines: seq<string>, start: nat, end: nat, silent: bool, st: BlockState, counter: nat, now: nat)
    requires start < |lines| && end <= |lines|
    requires forall k :: start < k < end ==> !IsClosing(lines[k])
    ensures !ChartRule(lines, start, end, silent, st, counter, now).matched
  {
  }

  /** The ids of `n` successive accepted blocks after the counter stood at
      `counter`, each stamped with its own clock reading. This is the
      reference the rule is checked against: `RunRuleIds` proves that running
      the rule pushes exactly these ids. */
  function RenderIds(nows: seq<nat>, counter: nat): (ids: seq<string>)
    ensures |ids| == |nows|
    ensures forall k :: 0 <= k < |nows| ==> ids[k] == ChartId(nows[k], counter + k + 1)
  {
    seq(|nows|, k requires 0 <= k < |nows| => ChartId(nows[k], counter + k + 1))
  }

  /** An id splits back into its clock reading and its counter. */
  lemma ChartIdFields(now: nat, counter: nat)
    ensures Split(ChartId(now, counter), '-') == ["chart", NatToString(now), NatToString(counter)]
  {
    var parts := ["chart", NatToString(now), NatToString(counter)];
    ChartIdIsJoin(now, counter);
    DigitsHaveNoDash(parts[1]);
    DigitsHaveNoDash(parts[2]);
    assert '-' !in parts[0];
    SplitJoin(parts, '-');
  }

  lemma ChartIdIsJoin(now: nat, counter: nat)
    ensures ChartId(now, counter) == Join(["chart", NatToString(now), NatToString(counter)], "-")
  {
    JoinThree("chart", NatToString(now), NatToString(counter), "-");
    assert IdPrefix == "chart" + "-";
  }

  lemma DigitsHaveNoDash(s: string)
    requires forall k :: 0 <= k < |s| ==> IsDigit(s[k])
    ensures '-' !in s
  {
    assert forall k :: 0 <= k < |s| ==> s[k] != '-';
  }

  /** Ids with different counter values differ, whatever the clock says. */
  lemma ChartIdsDistinct(now1: nat, c1: nat, now2: nat, c2: nat)
    requires c1 != c2
    ensures ChartId(now1, c1) != ChartId(now2, c2)
  {
    ChartIdFields(now1, c1);
    ChartIdFields(now2, c2);
    if ChartId(now1, c1) == ChartId(now2, c2) {
      NatToStringInjective(c1, c2);
    }
  }

  /** Between resets the ids of one render are pairwise distinct. */
  lemma RenderIdsDistinct(nows: seq<nat>, counter: nat)
    ensures forall j, k :: 0 <= j < k < |nows| ==> RenderIds(nows, counter)[j] != RenderIds(nows, counter)[k]
  {
    var ids := RenderIds(nows, counter);
    forall j, k | 0 <= j < k < |nows|
      ensures ids[j] != ids[k]
    {
      ChartIdsDistinct(nows[j], counter + j + 1, nows[k], counter + k + 1);
    }
  }
  /** One invocation of the rule: the source lines, the start and end lines,
      and the clock reading `generateChartId` takes. */
  datatype Call = Call(lines: seq<string>, start: nat, end: nat, now: nat)

  /** The rule accepts this invocation: an opening tag and a closing line. */
  predicate Accepts(c: Call) {
    c.start < |c.lines| && c.end <= |c.lines|
    && OpensChart(c.lines[c.start]) && FirstClosing(c.lines, c.start, c.end).Some?
  }

  function Nows(calls: seq<Call>): (nows: seq<nat>)
    ensures |nows| == |calls| && forall k :: 0 <= k < |calls| ==> nows[k] == calls[k].now
  {
    seq(|calls|, k requires 0 <= k < |calls| => calls[k].now)
  }

  /** One non-silent invocation of the rule on the state and counter the
      previous one left; lines outside the source are declined. */
  function Invoke(c: Call, st: BlockState, counter: nat): RuleOutcome {
    if c.start < |c.lines| && c.end <= |c.lines| then ChartRule(c.lines, c.start, c.end, false, st, counter, c.now)
    else RuleOutcome(false, st, counter)
  }

  /** The first `i` invocations one after another, through `step`, each
      starting from the token list and counter the previous one left. */
  function RunRule(step: (Call, BlockState, nat) -> RuleOutcome, calls: seq<Call>, i: nat, st: BlockState, counter: nat): RuleOutcome
    requires i <= |calls|
  {
    if i == 0 then RuleOutcome(true, st, counter)
    else
      var before := RunRule(step, calls, i - 1, st, counter);
      step(calls[i - 1], before.state, before.counter)
  }

  /** On a block `ok` admits, `step` pushes one token carrying the next id
      and advances the counter by one. */
  ghost predicate PushesNextId(step: (Call, BlockState, nat) -> RuleOutcome, ok: Call -> bool, id: (nat, nat) -> string) {
    forall c: Call, st: BlockState, counter: nat {:trigger step(c, st, counter)} :: ok(c) ==>
      var o := step(c, st, counter);
      && o.counter == counter + 1
      && |o.state.tokens| == |st.tokens| + 1
      && o.state.tokens[..|st.tokens|] == st.tokens
      && o.state.tokens[|st.tokens|].info == id(c.now, counter + 1)
  }

  /** The rule itself pushes the next id on every accepted block. */
  lemma InvokePushesNextId()
    ensures PushesNextId(Invoke, Accepts, ChartId)
  {
    forall c: Call, st: BlockState, counter: nat | Accepts(c)
      ensures var o := Invoke(c, st, counter);
        && o.counter == counter + 1
        && |o.state.tokens| == |st.tokens| + 1
        && o.state.tokens[..|st.tokens|] == st.tokens
        && o.state.tokens[|st.tokens|].info == ChartId(c.now, counter + 1)
    {
      ChartRuleAccepts(c.lines, c.start, c.end, st, counter, c.now);
    }
  }

  /** Accepted blocks run through the rule push one token each, in order,
      and their ids are the successive ids `RenderIds` lists; the counter
      advances by one per block. */
  lemma RunRuleIds(calls: seq<Call>, st: BlockState, counter: nat)
    requires forall k :: 0 <= k < |calls| ==> Accepts(calls[k])
    ensures var r := RunRule(Invoke, calls, |calls|, st, counter);
      && r.counter == counter + |calls|
      && |r.state.tokens| == |st.tokens| + |calls|
      && r.state.tokens[..|st.tokens|] == st.tokens
      && forall k :: 0 <= k < |calls| ==> r.state.tokens[|st.tokens| + k].info == RenderIds(Nows(calls), counter)[k]
  {
    InvokePushesNextId();
    RunRuleTokens(Invoke, Accepts, ChartId, calls, |calls|, st, counter);
  }

  /** For any step that pushes the next id, after the first `i` blocks
      block `k` holds the counter value `counter + k + 1` and its own clock
      reading, after the tokens that were there before. */
  lemma {:induction false} RunRuleTokens(step: (Call, BlockState, nat) -> RuleOutcome, ok: Call -> bool, id: (nat, nat) -> string, calls: seq<Call>, i: nat, st: BlockState, counter: nat)
    requires PushesNextId(step, ok, id)
    requires i <= |calls| && forall k :: 0 <= k < |calls| ==> ok(calls[k])
    ensures var r := RunRule(step, calls, i, st, counter);
      && r.counter == counter + i
      && |r.state.tokens| == |st.tokens| + i
      && r.state.tokens[..|st.tokens|] == st.tokens
      && forall k :: 0 <= k < i ==> r.state.tokens[|st.tokens| + k].info == id(calls[k].now, counter + k + 1)
  {
    if i > 0 {
      RunRuleTokens(step, ok, id, calls, i - 1, st, counter);
      var before := RunRule(step, calls, i - 1, st, counter);
      assert ok(calls[i - 1]);
      var o := step(calls[i - 1], before.state, before.counter);
      var bt := before.state.tokens;
      var rt := o.state.tokens;
      var n := |st.tokens|;
      assert rt[..n] == bt[..n] by {
        assert rt[..n] == rt[..|bt|][..n];
      }
      forall k | 0 <= k < i
        ensures rt[n + k].info == id(calls[k].now, counter + k + 1)
      {
        if k < i - 1 {
          assert rt[n + k] == bt[n + k];
        }
      }
    }
  }

  /** The tokens pushed by successive accepted blocks carry pairwise
      distinct ids. */
  lemma RunRuleIdsDistinct(calls: seq<Call>, st: BlockState, counter: nat)
    requires forall k :: 0 <= k < |calls| ==> Accepts(calls[k])
    ensures var ts := RunRule(Invoke, calls, |calls|, st, counter).state.tokens;
      forall j, k :: |st.tokens| <= j < k < |ts| ==> ts[j].info != ts[k].info
  {
    InvokePushesNextId();
    forall a: nat, b: nat, c1: nat, c2: nat | c1 != c2
      ensures ChartId(a, c1) != ChartId(b, c2)
    {
      ChartIdsDistinct(a, c1, b, c2);
    }
    PushedIdsDistinct(Invoke, Accepts, ChartId, calls, st, counter);
  }

  /** For any step that pushes the next id, where ids with different
      counter values differ, the pushed tokens' ids are pairwise distinct. */
  lemma PushedIdsDistinct(step: (Call, BlockState, nat) -> RuleOutcome, ok: Call -> bool, id: (nat, nat) -> string,
                          calls: seq<Call>, st: BlockState, counter: nat)
    requires PushesNextId(step, ok, id)
    requires forall a: nat, b: nat, c1: nat, c2: nat :: c1 != c2 ==> id(a, c1) != id(b, c2)
    requires forall k :: 0 <= k < |calls| ==> ok(calls[k])
    ensures var ts := RunRule(step, calls, |calls|, st, counter).state.tokens;
      forall j, k :: |st.tokens| <= j < k < |ts| ==> ts[j].info != ts[k].info
  {
    var ts := RunRule(step, calls, |calls|, st, counter).state.tokens;
    var n := |st.tokens|;
    RunRuleTokens(step, ok, id, calls, |calls|, st, counter);
    forall j, k | n <= j < k < |ts|
      ensures ts[j].info != ts[k].info
    {
      var x := j - n;
      var y := k - n;
      assert ts[j].info == id(calls[x].now, counter + x + 1) by {
        assert ts[n + x] == ts[j];
      }
      assert ts[k].info == id(calls[y].now, counter + y + 1) by {
        assert ts[n + y] == ts[k];
      }
    }
  }
}

=== FILE: chat_api.dfy ===
/** The API client (`src/api/chat.ts`): `ChatAPI.sendMessage`, which turns the
    stream into `onToolStart`/`onChunk` callbacks, and the request and
    message constructors. The callbacks are modelled as the sequence of calls
    made, in order. */
module ChatApi {
  import opened Wrappers
  import opened Strings
  import opened ChatTypes
  import opened Stream
  import opened Seqs
  import ChatComponent
  import StoreStream
  import ChatStore

  /** One callback invocation. */
  datatype Callback = ToolStarted(tool: Tool) | ChunkReceived(content: string)

  /** The tool handed to `onToolStart`: `tool || 'Unknown Tool'` (the `name`
      field is not read), an array input joined with `", "`, any other input
      as `JSON.stringify(input || '')`, and `reasoning || ''`. */
  function ApiTool(p: Payload, stringify: Json -> string): (t: Tool)
    ensures t.name == Some(TextOr(p.tool, ChatComponent.UnknownTool))
    ensures p.input.JArray? ==> t.input == Some(JoinElements(p.input.items, ", "))
    ensures !p.input.JArray? && Falsy(p.input) ==> t.input == Some(EmptyStringJson)
    ensures !p.input.JArray? && !Falsy(p.input) ==> t.input == Some(Serialize(stringify, p.input))
    ensures t.reasoning == TextOr(p.reasoning, "")
  {
    var input :=
      if p.input.JArray? then JoinElements(p.input.items, ", ")
      else Serialize(stringify, if Falsy(p.input) then JString("") else p.input);
    Tool(Some(TextOr(p.tool, ChatComponent.UnknownTool)), Some(input), TextOr(p.reasoning, ""))
  }

  /** The callbacks one record causes: a `tool_start` calls `onToolStart`; a
      `chunk` with non-empty content calls `onChunk`; anything else nothing. */
  function Dispatch(p: Payload, stringify: Json -> string): (cs: seq<Callback>)
    ensures |cs| <= 1
    ensures IsToolStart(p) <==> |cs| == 1 && cs[0].ToolStarted?
    ensures IsChunk(p) && Present(p.content) <==> |cs| == 1 && cs[0].ChunkReceived?
    ensures |cs| == 1 && cs[0].ToolStarted? ==> cs[0].tool == ApiTool(p, stringify)
    ensures |cs| == 1 && cs[0].ChunkReceived? ==> cs[0].content == p.content.value
  {
    if IsToolStart(p) then [ToolStarted(ApiTool(p, stringify))]
    else if IsChunk(p) && Present(p.content) then [ChunkReceived(p.content.value)]
    else []
  }

  /** The callbacks of a sequence of records, in record order. */
  function DispatchAll(ps: seq<Payload>, stringify: Json -> string): seq<Callback>
    decreases |ps|
  {
    if |ps| == 0 then []
    else DispatchAll(ps[..|ps| - 1], stringify) + Dispatch(ps[|ps| - 1], stringify)
  }

  /** What `sendMessage` did: the callbacks made and, when the promise
      rejected, the error's message. */
  datatype ApiOutcome = ApiOutcome(callbacks: seq<Callback>, thrown: Option<string>)

  /** `sendMessage`: no callback before the body and status checks pass; then
      one pass over the stream; a failed read rejects after the callbacks
      already made. */
  function SendMessage(x: Exchange, parse: string -> Option<Payload>, stringify: Json -> string): (r: ApiOutcome)
    ensures x.Rejected? ==> r == ApiOutcome([], Some(x.message))
    ensures x.Responded? && !x.hasBody ==> r == ApiOutcome([], Some("No response body"))
    ensures x.Responded? && x.hasBody && !x.ok ==> r == ApiOutcome([], Some("API Error: " + IntToString(x.status)))
    ensures x.Responded? && x.hasBody && x.ok ==>
      && r.callbacks == DispatchAll(Payloads(x.received, parse), stringify)
      && (r.thrown.None? <==> x.end.Finished?)
  {
    match x
    case Rejected(_, message) => ApiOutcome([], Some(message))
    case Responded(hasBody, ok, status, received, end) =>
      if !hasBody then ApiOutcome([], Some("No response body"))
      else if !ok then ApiOutcome([], Some("API Error: " + IntToString(status)))
      else
        var cs := DispatchAll(Payloads(received, parse), stringify);
        match end
        case Finished => ApiOutcome(cs, None)
        case Interrupted(_, message) => ApiOutcome(cs, Some(message))
  }

  /** Dispatch is in order across any split of the records, so callbacks
      follow the reads and, within a read, the lines. */
  lemma {:induction false} DispatchAppend(a: seq<Payload>, b: seq<Payload>, stringify: Json -> string)
    ensures DispatchAll(a + b, stringify) == DispatchAll(a, stringify) + DispatchAll(b, stringify)
    decreases |b|
  {
    if |b| == 0 {
      assert a + b == a;
    } else {
      var b' := b[..|b| - 1];
      assert (a + b)[..|a + b| - 1] == a + b';
      DispatchAppend(a, b', stringify);
    }
  }

  /** The text of the chunk callbacks, in order. */
  function ChunkTexts(cs: seq<Callback>): string
    decreases |cs|
  {
    if |cs| == 0 then ""
    else ChunkTexts(cs[..|cs| - 1]) + (if cs[|cs| - 1].ChunkReceived? then cs[|cs| - 1].content else "")
  }

  lemma {:induction false} ChunkTextsAppend(a: seq<Callback>, b: seq<Callback>)
    ensures ChunkTexts(a + b) == ChunkTexts(a) + ChunkTexts(b)
    decreases |b|
  {
    if |b| == 0 {
      assert a + b == a;
    } else {
      var b' := b[..|b| - 1];
      assert (a + b)[..|a + b| - 1] == a + b';
      ChunkTextsAppend(a, b');
      var last := b[|b| - 1];
      AppendAssoc(ChunkTexts(a), ChunkTexts(b'), if last.ChunkReceived? then last.content else "");
    }
  }

  /** No `onChunk` call carries empty text. */
  lemma {:induction false} NoEmptyChunkCallback(ps: seq<Payload>, stringify: Json -> string)
    ensures forall i :: 0 <= i < |DispatchAll(ps, stringify)| && DispatchAll(ps, stringify)[i].ChunkReceived? ==>
      DispatchAll(ps, stringify)[i].content != ""
    decreases |ps|
  {
    if |ps| > 0 {
      NoEmptyChunkCallback(ps[..|ps| - 1], stringify);
    }
  }

  /** The text a caller accumulates from `onChunk` equals the component's
      accumulated text: skipping empty chunks and appending `''` for them
      agree. */
  lemma {:induction false} ApiChunksMatchComponent(ps: seq<Payload>, stringify: Json -> string)
    ensures ChunkTexts(DispatchAll(ps, stringify)) == ChatComponent.ChunkText(ps)
    decreases |ps|
  {
    if |ps| > 0 {
      var init := ps[..|ps| - 1];
      ApiChunksMatchComponent(init, stringify);
      var d := Dispatch(ps[|ps| - 1], stringify);
      ChunkTextsAppend(DispatchAll(init, stringify), d);
      assert d == [] || d[..0] == [];
    }
  }

  /** The API's tool input agrees with the component's on every non-array
      input, and with the store's on every array. */
  lemma ToolInputsAgree(p: Payload, stringify: Json -> string)
    ensures !p.input.JArray? ==> ApiTool(p, stringify).input == ChatComponent.ToolFor(p, stringify).input
    ensures p.input.JArray? ==> ApiTool(p, stringify).input == StoreStream.StoreInput(p.input, stringify)
  {
  }

  /** The API's tool name agrees with the component's exactly when the
      record has no `name` to prefer. */
  lemma ToolNamesAgree(p: Payload, stringify: Json -> string)
    ensures !Present(p.name) ==> ApiTool(p, stringify).name == ChatComponent.ToolFor(p, stringify).name
    ensures Present(p.name) && p.name.value != TextOr(p.tool, ChatComponent.UnknownTool) ==>
      ApiTool(p, stringify).name != ChatComponent.ToolFor(p, stringify).name
  {
  }

  /** `createRequest`: `model_id` is set exactly when a non-empty model is
      given. */
  function CreateRequest(query: string, conversationId: string, modelId: Option<string>): (r: ChatRequest)
    ensures r.query == query && r.conversationId == conversationId
    ensures r.modelId.Some? <==> Present(modelId)
    ensures r.modelId.Some? ==> r.modelId == modelId
  {
    ChatRequest(query, conversationId, if Present(modelId) then modelId else None)
  }

  /** The store builds the same request as `createRequest` given the
      selected model. */
  lemma StoreRequestIsCreateRequest(query: string, conversationId: string, selectedModel: string)
    ensures StoreStream.StoreRequest(query, conversationId, selectedModel)
         == CreateRequest(query, conversationId, Some(selectedModel))
  {
  }

  /** `createMessage(content, role = 'user')`: empty tools, collapsed. */
  function CreateMessage(content: string, role: Role := User): (d: Draft)
    ensures d.role == role && d.content == content
    ensures d.tools == Some([]) && d.thinkingExpanded == Some(false)
    ensures d.charts == None && d.isLoading == None
  {
    Draft(role, content, Some([]), None, Some(false), None)
  }

  /** A created message, added to the store, keeps its empty tools and
      collapsed state and gains the id and stamp. */
  lemma CreatedMessageAdded(content: string, role: Role, id: string, now: string)
    ensures ChatStore.NewMessage(CreateMessage(content, role), id, now)
         == Message(id, role, content, Some([]), None, Some(false), None, Some(now))
  {
  }

  /** `createLoadingMessage(id)`: an empty, loading assistant message. */
  function CreateLoadingMessage(id: string, now: string): (m: Message)
    ensures m.id == id && m.role == Assistant && m.content == "" && m.isLoading == Some(true)
    ensures m.tools == Some([]) && m.thinkingExpanded == Some(false) && m.timestamp == Some(now)
    ensures m.charts == None
  {
    Message(id, Assistant, "", Some([]), None, Some(false), Some(true), Some(now))
  }

  /** The loading message is the store's placeholder, stamped. */
  lemma LoadingMessageIsPlaceholder(id: string, now: string)
    ensures CreateLoadingMessage(id, now) == StoreStream.Placeholder(id).(timestamp := Some(now))
  {
  }
}

=== FILE: chat_component.dfy ===
/** The React chat component (`ChatComponent.tsx`): its stream reducer inside
    `handleSendMessage`, the error/abort/finally handling around it, and
    `handleToggleThinking`. Each state update is modelled as a pure map over
    the message list. */
module ChatComponent {
  import opened Wrappers
  import opened Strings
  import opened ChatTypes
  import opened Stream
  import opened Seqs

  const UnknownTool: string := "Unknown Tool"
  const ErrorNotice: string := "Sorry, an error occurred."

  /** The tool a `tool_start` record appends: `name || tool || 'Unknown Tool'`,
      `JSON.stringify(input || '')` (an array is serialised, never joined),
      and `reasoning || ''`. */
  function ToolFor(p: Payload, stringify: Json -> string): (t: Tool)
    ensures t.name.Some? && t.input.Some?
    ensures Present(p.name) ==> t.name.value == p.name.value
    ensures !Present(p.name) && Present(p.tool) ==> t.name.value == p.tool.value
    ensures !Present(p.name) && !Present(p.tool) ==> t.name.value == UnknownTool
    ensures Falsy(p.input) ==> t.input.value == EmptyStringJson
    ensures !Falsy(p.input) ==> t.input.value == Serialize(stringify, p.input)
    ensures Present(p.reasoning) ==> t.reasoning == p.reasoning.value
    ensures !Present(p.reasoning) ==> t.reasoning == ""
  {
    Tool(
      Some(TextOr(p.name, TextOr(p.tool, UnknownTool))),
      Some(Serialize(stringify, if Falsy(p.input) then JString("") else p.input)),
      TextOr(p.reasoning, ""))
  }

  /** The per-record update of the placeholder (the `switch` on the record's
      type). Records of any other type leave the message as it is. */
  function ApplyEvent(m: Message, p: Payload, stringify: Json -> string): (r: Message)
    ensures r.id == m.id && r.role == m.role && r.isLoading == m.isLoading && r.timestamp == m.timestamp
    ensures IsToolStart(p) ==> r == m.(tools := Some(ToolsOf(m) + [ToolFor(p, stringify)]), thinkingExpanded := Some(true))
    ensures IsChunk(p) ==> r == m.(content := m.content + TextOr(p.content, ""))
    ensures IsToolEnd(p) && Present(p.chartSvg) ==> r == m.(charts := Some(ChartsOf(m) + [p.chartSvg.value]))
    ensures IsToolEnd(p) && !Present(p.chartSvg) ==> r == m
    ensures !IsToolStart(p) && !IsChunk(p) && !IsToolEnd(p) ==> r == m
  {
    if IsToolStart(p) then
      m.(tools := Some(ToolsOf(m) + [ToolFor(p, stringify)]), thinkingExpanded := Some(true))
    else if IsChunk(p) then
      m.(content := m.content + TextOr(p.content, ""))
    else if IsToolEnd(p) && Present(p.chartSvg) then
      m.(charts := Some(ChartsOf(m) + [p.chartSvg.value]))
    else m
  }

  /** The placeholder after a sequence of records, in arrival order. */
  function Reduce(m: Message, ps: seq<Payload>, stringify: Json -> string): (r: Message)
    ensures r.id == m.id && r.role == m.role && r.isLoading == m.isLoading && r.timestamp == m.timestamp
    ensures m.content <= r.content
    decreases |ps|
  {
    if |ps| == 0 then m
    else ApplyEvent(Reduce(m, ps[..|ps| - 1], stringify), ps[|ps| - 1], stringify)
  }

  // Reference accumulations, each independent of the message record.

  /** The text the `chunk` records carry, `content || ''` each, in order. */
  function ChunkText(ps: seq<Payload>): string
    decreases |ps|
  {
    if |ps| == 0 then ""
    else ChunkText(ps[..|ps| - 1]) + (if IsChunk(ps[|ps| - 1]) then TextOr(ps[|ps| - 1].content, "") else "")
  }

  /** The tools the `tool_start` records describe, in order. */
  function StartedTools(ps: seq<Payload>, stringify: Json -> string): seq<Tool>
    decreases |ps|
  {
    if |ps| == 0 then []
    else StartedTools(ps[..|ps| - 1], stringify) + (if IsToolStart(ps[|ps| - 1]) then [ToolFor(ps[|ps| - 1], stringify)] else [])
  }

  /** The non-empty `artifacts_data.chart_svg` values of the `tool_end` records. */
  function EndedCharts(ps: seq<Payload>): seq<string>
    decreases |ps|
  {
    if |ps| == 0 then []
    else EndedCharts(ps[..|ps| - 1]) + (if IsToolEnd(ps[|ps| - 1]) && Present(ps[|ps| - 1].chartSvg) then [ps[|ps| - 1].chartSvg.value] else [])
  }

  /** What the fold does to each field: text is the initial text followed by
      every chunk's content in arrival order; tools and charts are appended
      in order; the expand flag is forced on by any `tool_start` and never
      switched off; identity, role, loading flag and timestamp are kept. */
  predicate Folded(m: Message, ps: seq<Payload>, stringify: Json -> string, r: Message) {
    && r.id == m.id && r.role == m.role && r.isLoading == m.isLoading && r.timestamp == m.timestamp
    && r.content == m.content + ChunkText(ps)
    && ToolsOf(r) == ToolsOf(m) + StartedTools(ps, stringify)
    && ChartsOf(r) == ChartsOf(m) + EndedCharts(ps)
    && (HasToolStart(ps) ==> r.thinkingExpanded == Some(true))
    && (!HasToolStart(ps) ==> r.thinkingExpanded == m.thinkingExpanded)
    && (m.tools.Some? ==> r.tools.Some?)
    && (m.charts.Some? ==> r.charts.Some?)
  }

  lemma {:induction false} ReduceSpec(m: Message, ps: seq<Payload>, stringify: Json -> string)
    ensures Folded(m, ps, stringify, Reduce(m, ps, stringify))
    decreases |ps|
  {
    if |ps| > 0 {
      ReduceSpec(m, ps[..|ps| - 1], stringify);
      ReduceStep(m, ps, stringify);
    }
  }

  /** One more record keeps the fold's description. */
  lemma ReduceStep(m: Message, ps: seq<Payload>, stringify: Json -> string)
    requires |ps| > 0
    requires Folded(m, ps[..|ps| - 1], stringify, Reduce(m, ps[..|ps| - 1], stringify))
    ensures Folded(m, ps, stringify, Reduce(m, ps, stringify))
  {
    var init, p := ps[..|ps| - 1], ps[|ps| - 1];
    var r0 := Reduce(m, init, stringify);
    var r := Reduce(m, ps, stringify);
    assert r == ApplyEvent(r0, p, stringify);
    HasToolStartLast(ps);
    var chunk := if IsChunk(p) then TextOr(p.content, "") else "";
    assert ChunkText(ps) == ChunkText(init) + chunk;
    assert r.content == r0.content + chunk;
    AppendAssoc(m.content, ChunkText(init), chunk);
    var tool := if IsToolStart(p) then [ToolFor(p, stringify)] else [];
    assert StartedTools(ps, stringify) == StartedTools(init, stringify) + tool;
    assert ToolsOf(r) == ToolsOf(r0) + tool;
    AppendAssoc(ToolsOf(m), StartedTools(init, stringify), tool);
    var chart := if IsToolEnd(p) && Present(p.chartSvg) then [p.chartSvg.value] else [];
    assert EndedCharts(ps) == EndedCharts(init) + chart;
    assert ChartsOf(r) == ChartsOf(r0) + chart;
    AppendAssoc(ChartsOf(m), EndedCharts(init), chart);
  }

  lemma HasToolStartLast(ps: seq<Payload>)
    requires |ps| > 0
    ensures HasToolStart(ps) <==> HasToolStart(ps[..|ps| - 1]) || IsToolStart(ps[|ps| - 1])
  {
    var init := ps[..|ps| - 1];
    if HasToolStart(init) {
      var i :| 0 <= i < |init| && IsToolStart(init[i]);
      assert ps[i] == init[i];
    }
    if HasToolStart(ps) && !IsToolStart(ps[|ps| - 1]) {
      var i :| 0 <= i < |ps| && IsToolStart(ps[i]);
      assert init[i] == ps[i];
    }
  }

  /** The expand flag is one-way: once on, no record turns it off. */
  lemma ExpandFlagNeverCleared(m: Message, ps: seq<Payload>, stringify: Json -> string)
    requires IsSet(m.thinkingExpanded)
    ensures IsSet(Reduce(m, ps, stringify).thinkingExpanded)
  {
    ReduceSpec(m, ps, stringify);
  }

  /** The `setMessages` updater for one record: only messages carrying the
      placeholder's id are touched. A `null` record, on which the updater's
      `.type` read throws, never gets here (see `SendMessageView`). */
  function UpdateMessages(ms: seq<Message>, id: string, p: Payload, stringify: Json -> string): (r: seq<Message>)
    ensures |r| == |ms|
    ensures forall i :: 0 <= i < |ms| && ms[i].id != id ==> r[i] == ms[i]
    ensures forall i :: 0 <= i < |ms| && ms[i].id == id ==> r[i] == ApplyEvent(ms[i], p, stringify)
  {
    seq(|ms|, i requires 0 <= i < |ms| => if ms[i].id == id then ApplyEvent(ms[i], p, stringify) else ms[i])
  }

  /** The message list after a sequence of records. */
  function RunEvents(ms: seq<Message>, id: string, ps: seq<Payload>, stringify: Json -> string): (r: seq<Message>)
    ensures |r| == |ms|
    decreases |ps|
  {
    if |ps| == 0 then ms
    else UpdateMessages(RunEvents(ms, id, ps[..|ps| - 1], stringify), id, ps[|ps| - 1], stringify)
  }

  /** Isolation: a whole stream changes only the placeholder, and the
      placeholder ends as the fold of the stream over it. */
  lemma {:induction false} RunEventsIsolated(ms: seq<Message>, id: string, ps: seq<Payload>, stringify: Json -> string)
    ensures var r := RunEvents(ms, id, ps, stringify);
      && |r| == |ms|
      && (forall i :: 0 <= i < |ms| && ms[i].id != id ==> r[i] == ms[i])
      && (forall i :: 0 <= i < |ms| && ms[i].id == id ==> r[i] == Reduce(ms[i], ps, stringify))
    decreases |ps|
  {
    if |ps| > 0 {
      var init := ps[..|ps| - 1];
      RunEventsIsolated(ms, id, init, stringify);
    }
  }

  /** `{...msg, content: "Sorry, an error occurred."}` on the placeholder. */
  function ShowError(ms: seq<Message>, id: string): (r: seq<Message>)
    ensures |r| == |ms|
    ensures forall i :: 0 <= i < |ms| ==> r[i] == (if ms[i].id == id then ms[i].(content := ErrorNotice) else ms[i])
  {
    seq(|ms|, i requires 0 <= i < |ms| => if ms[i].id == id then ms[i].(content := ErrorNotice) else ms[i])
  }

  /** `{...msg, isLoading: false}` on the placeholder (the `finally` block). */
  function StopLoading(ms: seq<Message>, id: string): (r: seq<Message>)
    ensures |r| == |ms|
    ensures forall i :: 0 <= i < |ms| ==> r[i] == (if ms[i].id == id then ms[i].(isLoading := Some(false)) else ms[i])
  {
    seq(|ms|, i requires 0 <= i < |ms| => if ms[i].id == id then ms[i].(isLoading := Some(false)) else ms[i])
  }

  datatype ComponentState = ComponentState(
    messages: seq<Message>,
    inputMessage: string,
    isLoading: bool,
    conversationId: string)

  /** The records the placeholder receives: none unless the response has a
      body and an ok status. */
  function Received(x: Exchange, parse: string -> Option<Payload>): seq<Payload> {
    match x
    case Rejected(_, _) => []
    case Responded(hasBody, ok, _, received, _) =>
      if hasBody && ok then Payloads(received, parse) else []
  }

  /** Whether the `catch` block sees an error other than an `AbortError`:
      a rejected `fetch`, a missing body, a non-ok status, or a failed read. */
  predicate FailsHard(x: Exchange) {
    match x
    case Rejected(aborted, _) => !aborted
    case Responded(hasBody, ok, _, _, end) =>
      !hasBody || !ok || (end.Interrupted? && !end.aborted)
  }

  /** The message list of one non-blank turn: the user message and the
      placeholder appended, the stream folded into the placeholder, its text
      overwritten when `failed`, and its loading flag cleared. */
  function Turn(ms: seq<Message>, user: Message, placeholder: Message, ps: seq<Payload>, failed: bool, stringify: Json -> string): seq<Message> {
    var streamed := RunEvents(ms + [user, placeholder], placeholder.id, ps, stringify);
    var settled := if failed then ShowError(streamed, placeholder.id) else streamed;
    StopLoading(settled, placeholder.id)
  }

  /** `handleSendMessage`: ignores whitespace-only input; otherwise runs one
      turn. `userId`, `assistantId` and the two stamps are the fresh
      `uuidv4()` and `toISOString()` values. */
  function HandleSendMessage(
    st: ComponentState, text: string,
    userId: string, assistantId: string, userStamp: string, assistantStamp: string,
    x: Exchange, parse: string -> Option<Payload>, stringify: Json -> string): (r: ComponentState)
    ensures r.conversationId == st.conversationId
    ensures Trim(text) != "" ==> r.inputMessage == "" && !r.isLoading && |r.messages| == |st.messages| + 2
  {
    if Trim(text) == "" then st
    else
      var user := Message(userId, User, text, None, None, None, None, Some(userStamp));
      var placeholder := Message(assistantId, Assistant, "", Some([]), Some([]), Some(false), Some(true), Some(assistantStamp));
      ComponentState(Turn(st.messages, user, placeholder, Received(x, parse), FailsHard(x), stringify), "", false, st.conversationId)
  }

  /** Whether the stream hands the updater a `null` record. `JSON.parse`
      accepts it inside the per-line `try`, but `.type` is read later, when
      React runs the queued updater, outside any `try` of the component. */
  predicate MeetsNullRecord(x: Exchange) {
    x.Responded? && x.hasBody && x.ok && HasNullRecord(x.received)
  }

  /** What is left on screen after a send: the component's state, or nothing
      when an updater threw and React, with no error boundary above the
      component, removed the whole tree. */
  datatype View = Mounted(state: ComponentState) | Unmounted

  /** `handleSendMessage` including the `null` record: a non-blank turn whose
      stream holds one unmounts the component; any other send behaves as
      `HandleSendMessage`. */
  function SendMessageView(
    st: ComponentState, text: string,
    userId: string, assistantId: string, userStamp: string, assistantStamp: string,
    x: Exchange, parse: string -> Option<Payload>, stringify: Json -> string): (r: View)
    ensures r.Unmounted? <==> Trim(text) != "" && MeetsNullRecord(x)
    ensures r.Mounted? ==> r.state == HandleSendMessage(st, text, userId, assistantId, userStamp, assistantStamp, x, parse, stringify)
  {
    if Trim(text) != "" && MeetsNullRecord(x) then Unmounted
    else Mounted(HandleSendMessage(st, text, userId, assistantId, userStamp, assistantStamp, x, parse, stringify))
  }

  /** The clients part ways on a `null` record: the store and the API, which
      read records through `Payloads`, skip the line, while a turn that meets
      it unmounts the component. */
  lemma NullRecordSplitsClients(
    st: ComponentState, text: string, userId: string, assistantId: string, userStamp: string, assistantStamp: string,
    parse: string -> Option<Payload>, stringify: Json -> string)
    ensures Payloads(["data: null"], parse) == []
    requires Trim(text) != ""
    ensures SendMessageView(st, text, userId, assistantId, userStamp, assistantStamp,
              Responded(true, true, 200, ["data: null"], Finished), parse, stringify) == Unmounted
  {
    NullRead(parse);
    var x := Responded(true, true, 200, ["data: null"], Finished);
    assert MeetsNullRecord(x);
    var v := SendMessageView(st, text, userId, assistantId, userStamp, assistantStamp, x, parse, stringify);
    assert v.Unmounted?;
  }

  predicate FreshId(ms: seq<Message>, id: string) {
    forall i :: 0 <= i < |ms| ==> ms[i].id != id
  }

  /** The placeholder as a turn leaves it. */
  function Settled(placeholder: Message, ps: seq<Payload>, failed: bool, stringify: Json -> string): Message {
    var folded := Reduce(placeholder, ps, stringify);
    (if failed then folded.(content := ErrorNotice) else folded).(isLoading := Some(false))
  }

  /** A turn appends exactly two messages and leaves the earlier ones as they
      were; only the placeholder is changed by the stream. */
  lemma TurnShape(ms: seq<Message>, user: Message, placeholder: Message, ps: seq<Payload>, failed: bool, stringify: Json -> string)
    requires FreshId(ms, placeholder.id) && user.id != placeholder.id
    ensures var r := Turn(ms, user, placeholder, ps, failed, stringify);
      && |r| == |ms| + 2
      && r[..|ms|] == ms
      && r[|ms|] == user
      && r[|ms| + 1] == Settled(placeholder, ps, failed, stringify)
  {
    var n := |ms|;
    var id := placeholder.id;
    var ms0 := ms + [user, placeholder];
    assert ms0[n] == user && ms0[n + 1] == placeholder;
    RunEventsIsolated(ms0, id, ps, stringify);
    var streamed := RunEvents(ms0, id, ps, stringify);
    var r := Turn(ms, user, placeholder, ps, failed, stringify);
    forall i | 0 <= i < n
      ensures r[i] == ms[i]
    {
      assert ms0[i] == ms[i];
    }
    assert r[..n] == ms;
  }

  /** Whitespace-only input is a no-op. */
  lemma BlankInputIgnored(
    st: ComponentState, text: string,
    userId: string, assistantId: string, userStamp: string, assistantStamp: string,
    x: Exchange, parse: string -> Option<Payload>, stringify: Json -> string)
    requires AllSpace(text)
    ensures HandleSendMessage(st, text, userId, assistantId, userStamp, assistantStamp, x, parse, stringify) == st
  {
  }

  /** A turn appends the user's message and then the assistant's, leaves the
      earlier messages untouched, and ends not loading with an empty input
      box. The assistant message, in every outcome, is no longer loading and
      holds the streamed tools, charts and expand flag, and the streamed
      text unless a non-abort failure replaced it with the fixed notice: an
      abort keeps the partial text. */
  lemma SendOutcome(
    st: ComponentState, text: string,
    userId: string, assistantId: string, userStamp: string, assistantStamp: string,
    x: Exchange, parse: string -> Option<Payload>, stringify: Json -> string)
    requires FreshId(st.messages, assistantId) && userId != assistantId
    requires !AllSpace(text)
    ensures var r := HandleSendMessage(st, text, userId, assistantId, userStamp, assistantStamp, x, parse, stringify);
      var n := |st.messages|;
      var ps := Received(x, parse);
      && |r.messages| == n + 2
      && r.messages[..n] == st.messages
      && r.messages[n] == Message(userId, User, text, None, None, None, None, Some(userStamp))
      && !r.isLoading && r.inputMessage == ""
      && r.messages[n + 1].id == assistantId
      && r.messages[n + 1].role == Assistant
      && r.messages[n + 1].isLoading == Some(false)
      && r.messages[n + 1].content == (if FailsHard(x) then ErrorNotice else ChunkText(ps))
      && r.messages[n + 1].tools == Some(StartedTools(ps, stringify))
      && r.messages[n + 1].charts == Some(EndedCharts(ps))
      && r.messages[n + 1].thinkingExpanded == Some(HasToolStart(ps))
  {
    SendRunsTurn(st, text, userId, assistantId, userStamp, assistantStamp, x, parse, stringify);
    TurnState(st, HandleSendMessage(st, text, userId, assistantId, userStamp, assistantStamp, x, parse, stringify),
              text, userId, assistantId, userStamp, assistantStamp, Received(x, parse), FailsHard(x), stringify);
  }

  /** The state a turn leaves, field by field. */
  lemma TurnState(
    st: ComponentState, r: ComponentState, text: string,
    userId: string, assistantId: string, userStamp: string, assistantStamp: string,
    ps: seq<Payload>, failed: bool, stringify: Json -> string)
    requires FreshId(st.messages, assistantId) && userId != assistantId
    requires r == ComponentState(
           Turn(st.messages,
                Message(userId, User, text, None, None, None, None, Some(userStamp)),
                Message(assistantId, Assistant, "", Some([]), Some([]), Some(false), Some(true), Some(assistantStamp)),
                ps, failed, stringify),
           "", false, st.conversationId)
    ensures var n := |st.messages|;
      && |r.messages| == n + 2
      && r.messages[..n] == st.messages
      && r.messages[n] == Message(userId, User, text, None, None, None, None, Some(userStamp))
      && !r.isLoading && r.inputMessage == ""
      && r.messages[n + 1].id == assistantId
      && r.messages[n + 1].role == Assistant
      && r.messages[n + 1].isLoading == Some(false)
      && r.messages[n + 1].content == (if failed then ErrorNotice else ChunkText(ps))
      && r.messages[n + 1].tools == Some(StartedTools(ps, stringify))
      && r.messages[n + 1].charts == Some(EndedCharts(ps))
      && r.messages[n + 1].thinkingExpanded == Some(HasToolStart(ps))
  {
    var user := Message(userId, User, text, None, None, None, None, Some(userStamp));
    var placeholder := Message(assistantId, Assistant, "", Some([]), Some([]), Some(false), Some(true), Some(assistantStamp));
    TurnOutcome(st.messages, user, placeholder, ps, failed, stringify);
  }

  /** Non-blank input runs one turn with a fresh user message and a fresh
      placeholder. */
  lemma SendRunsTurn(
    st: ComponentState, text: string,
    userId: string, assistantId: string, userStamp: string, assistantStamp: string,
    x: Exchange, parse: string -> Option<Payload>, stringify: Json -> string)
    requires !AllSpace(text)
    ensures HandleSendMessage(st, text, userId, assistantId, userStamp, assistantStamp, x, parse, stringify)
      == ComponentState(
           Turn(st.messages,
                Message(userId, User, text, None, None, None, None, Some(userStamp)),
                Message(assistantId, Assistant, "", Some([]), Some([]), Some(false), Some(true), Some(assistantStamp)),
                Received(x, parse), FailsHard(x), stringify),
           "", false, st.conversationId)
  {
    assert Trim(text) != "";
  }

  /** The message list a turn leaves, field by field for the placeholder. */
  lemma TurnOutcome(ms: seq<Message>, user: Message, placeholder: Message, ps: seq<Payload>, failed: bool, stringify: Json -> string)
    requires FreshId(ms, placeholder.id) && user.id != placeholder.id
    requires placeholder.content == "" && placeholder.tools == Some([]) && placeholder.charts == Some([])
    requires placeholder.thinkingExpanded == Some(false)
    ensures var r := Turn(ms, user, placeholder, ps, failed, stringify);
      var n := |ms|;
      && |r| == n + 2 && r[..n] == ms && r[n] == user
      && r[n + 1].id == placeholder.id && r[n + 1].role == placeholder.role
      && r[n + 1].isLoading == Some(false)
      && r[n + 1].content == (if failed then ErrorNotice else ChunkText(ps))
      && r[n + 1].tools == Some(StartedTools(ps, stringify))
      && r[n + 1].charts == Some(EndedCharts(ps))
      && r[n + 1].thinkingExpanded == Some(HasToolStart(ps))
  {
    TurnShape(ms, user, placeholder, ps, failed, stringify);
    SettledFields(placeholder, ps, failed, stringify);
  }

  lemma SettledFields(placeholder: Message, ps: seq<Payload>, failed: bool, stringify: Json -> string)
    requires placeholder.content == "" && placeholder.tools == Some([]) && placeholder.charts == Some([])
    requires placeholder.thinkingExpanded == Some(false)
    ensures var a := Settled(placeholder, ps, failed, stringify);
      && a.id == placeholder.id && a.role == placeholder.role
      && a.isLoading == Some(false)
      && a.content == (if failed then ErrorNotice else ChunkText(ps))
      && a.tools == Some(StartedTools(ps, stringify))
      && a.charts == Some(EndedCharts(ps))
      && a.thinkingExpanded == Some(HasToolStart(ps))
  {
    ReduceSpec(placeholder, ps, stringify);
    var folded := Reduce(placeholder, ps, stringify);
    assert ToolsOf(placeholder) == [] && ChartsOf(placeholder) == [];
    assert ToolsOf(folded) == StartedTools(ps, stringify);
    assert ChartsOf(folded) == EndedCharts(ps);
    assert folded.tools == Some(ToolsOf(folded));
    assert folded.charts == Some(ChartsOf(folded));
  }

  /** `handleToggleThinking`: flips the expand flag of the messages carrying
      `id` (`!undefined` is `true`). */
  function HandleToggleThinking(ms: seq<Message>, id: string): (r: seq<Message>)
    ensures |r| == |ms|
    ensures forall i :: 0 <= i < |ms| && ms[i].id != id ==> r[i] == ms[i]
    ensures forall i :: 0 <= i < |ms| && ms[i].id == id ==>
      r[i] == ms[i].(thinkingExpanded := Some(!IsSet(ms[i].thinkingExpanded)))
  {
    seq(|ms|, i requires 0 <= i < |ms| =>
      if ms[i].id == id then ms[i].(thinkingExpanded := Some(!IsSet(ms[i].thinkingExpanded))) else ms[i])
  }

  /** Toggling twice restores every flag as displayed, and restores the
      message list exactly when the targeted flags were defined. */
  lemma ToggleTwice(ms: seq<Message>, id: string)
    ensures var r := HandleToggleThinking(HandleToggleThinking(ms, id), id);
      && |r| == |ms|
      && (forall i :: 0 <= i < |ms| ==> IsSet(r[i].thinkingExpanded) == IsSet(ms[i].thinkingExpanded))
      && ((forall i :: 0 <= i < |ms| && ms[i].id == id ==> ms[i].thinkingExpanded.Some?) ==> r == ms)
  {
    var t := HandleToggleThinking(ms, id);
    var r := HandleToggleThinking(t, id);
    if forall i :: 0 <= i < |ms| && ms[i].id == id ==> ms[i].thinkingExpanded.Some? {
      forall i | 0 <= i < |ms|
        ensures r[i] == ms[i]
      {
        if ms[i].id == id {
          var b := ms[i].thinkingExpanded.value;
          assert t[i] == ms[i].(thinkingExpanded := Some(!b));
          assert r[i] == t[i].(thinkingExpanded := Some(b));
        }
      }
    }
  }
}

=== FILE: chat_store.dfy ===
/** The chat store's history and message operations (`src/stores/chat.ts`):
    each action is a transition function on the store's state record. Fresh
    ids (`generateId`, `uuidv4`) and clock readings (`toISOString`) are
    parameters. */
module ChatStore {
  import opened Wrappers
  import opened Strings
  import opened ChatTypes
  import opened Seqs

  const NewChatTitle: string := "New Chat"
  const NoMessages: string := "No messages"
  const Ellipsis: string := "..."
  const TitleLength: nat := 50
  const PreviewLength: nat := 60

  /** The store's refs. `hasController` stands for `abortController !== null`;
      `isThinking` is never written by any action and is left out. */
  datatype StoreState = StoreState(
    messages: seq<Message>,
    chatHistory: seq<Chat>,
    currentChatId: Option<string>,
    currentChatTitle: string,
    isLoading: bool,
    isTyping: bool,
    errorMessage: string,
    hasController: bool,
    selectedModel: string,
    selectedState: string,
    selectedCode: string,
    selectedProjectType: string,
    selectedSiteType: string,
    conversationId: Option<string>,
    isSaving: bool)

  /** `utils.truncateText`: the first `maxLength` characters and `...` when
      the text is longer. */
  function TruncateText(text: string, maxLength: nat): (r: string)
    ensures |r| <= maxLength + |Ellipsis|
    ensures |text| <= maxLength ==> r == text
    ensures |text| > maxLength ==> |r| == maxLength + |Ellipsis| && r[..maxLength] == text[..maxLength] && r[maxLength..] == Ellipsis
  {
    if |text| > maxLength then text[..maxLength] + Ellipsis else text
  }

  /** `generateChatTitle`: the first user message's text, truncated to 50. */
  function GenerateChatTitle(ms: seq<Message>): (r: string)
    ensures (forall i :: 0 <= i < |ms| ==> ms[i].role != User) ==> r == NewChatTitle
    ensures forall i :: 0 <= i < |ms| && ms[i].role == User && (forall j :: 0 <= j < i ==> ms[j].role != User) ==>
      r == TruncateText(ms[i].content, TitleLength)
  {
    match FindFirst(ms, (m: Message) => m.role == User)
    case None => NewChatTitle
    case Some(i) => TruncateText(ms[i].content, TitleLength)
  }

  /** `getLastMessage`: a preview of the chat's last message. */
  function GetLastMessage(chat: Chat): (r: string)
    ensures |chat.messages| == 0 ==> r == NoMessages
    ensures |chat.messages| > 0 ==> r == TruncateText(chat.messages[|chat.messages| - 1].content, PreviewLength)
  {
    if |chat.messages| == 0 then NoMessages
    else TruncateText(chat.messages[|chat.messages| - 1].content, PreviewLength)
  }

  /** No two chats of the history share an id. */
  predicate UniqueChatIds(h: seq<Chat>) {
    forall i, j :: 0 <= i < j < |h| ==> h[i].id != h[j].id
  }

  predicate HasChat(h: seq<Chat>, id: string) {
    exists i :: 0 <= i < |h| && h[i].id == id
  }

  function FindChat(h: seq<Chat>, id: string): (r: Option<nat>)
    ensures r.Some? ==> r.value < |h| && h[r.value].id == id
    ensures r.None? <==> !HasChat(h, id)
  {
    FindFirst(h, (c: Chat) => c.id == id)
  }

  /** A message as `saveCurrentChat` stores it: the fields it copies, with
      `tools || []`, `thinkingExpanded || false` and `timestamp || now`;
      charts and the loading flag are not saved. */
  function SavedMessage(m: Message, now: string): (r: Message)
    ensures r.id == m.id && r.role == m.role && r.content == m.content
    ensures r.tools == Some(ToolsOf(m)) && r.charts == None && r.isLoading == None
    ensures r.thinkingExpanded == Some(IsSet(m.thinkingExpanded))
    ensures Present(m.timestamp) ==> r.timestamp == m.timestamp
    ensures !Present(m.timestamp) ==> r.timestamp == Some(now)
  {
    Message(m.id, m.role, m.content, Some(ToolsOf(m)), None, Some(IsSet(m.thinkingExpanded)), None,
      Some(TextOr(m.timestamp, now)))
  }

  /** The message map in `loadChat`: `isLoading` false, `tools || []`,
      `thinkingExpanded || false`, every other field kept. */
  function LoadedMessage(m: Message): (r: Message)
    ensures r.id == m.id && r.role == m.role && r.content == m.content
    ensures r.charts == m.charts && r.timestamp == m.timestamp
    ensures r.isLoading == Some(false) && r.tools == Some(ToolsOf(m))
    ensures r.thinkingExpanded == Some(IsSet(m.thinkingExpanded))
  {
    m.(isLoading := Some(false), tools := Some(ToolsOf(m)), thinkingExpanded := Some(IsSet(m.thinkingExpanded)))
  }

  function MapMessages(ms: seq<Message>, f: Message -> Message): (r: seq<Message>)
    ensures |r| == |ms| && forall i :: 0 <= i < |ms| ==> r[i] == f(ms[i])
  {
    seq(|ms|, i requires 0 <= i < |ms| => f(ms[i]))
  }

  /** Whether `saveCurrentChat` gets past its guard: a current id, some
      messages, and no save in progress. */
  predicate SaveProceeds(st: StoreState) {
    Present(st.currentChatId) && |st.messages| > 0 && !st.isSaving
  }

  /** The chat record `saveCurrentChat` writes. */
  function ChatData(st: StoreState, now: string, uuid: string): (c: Chat)
    requires SaveProceeds(st)
    ensures c.id == st.currentChatId.value
    ensures st.currentChatTitle != "" ==> c.title == st.currentChatTitle
    ensures st.currentChatTitle == "" ==> c.title == GenerateChatTitle(st.messages)
    ensures |c.messages| == |st.messages|
    ensures forall i :: 0 <= i < |st.messages| ==> c.messages[i] == SavedMessage(st.messages[i], now)
    ensures c.conversationId == TextOr(st.conversationId, uuid)
    ensures FindChat(st.chatHistory, c.id).None? ==> c.createdAt == now
    ensures FindChat(st.chatHistory, c.id).Some? ==> c.createdAt == st.chatHistory[FindChat(st.chatHistory, c.id).value].createdAt
    ensures c.updatedAt == now
  {
    var idx := FindChat(st.chatHistory, st.currentChatId.value);
    Chat(
      st.currentChatId.value,
      if st.currentChatTitle != "" then st.currentChatTitle else GenerateChatTitle(st.messages),
      MapMessages(st.messages, (m: Message) => SavedMessage(m, now)),
      TextOr(st.conversationId, uuid),
      if idx.None? then now else st.chatHistory[idx.value].createdAt,
      now)
  }

  /** `saveCurrentChat`: an upsert of the current chat into the history. A
      new id goes to the front; an existing one is replaced in place. The
      current title becomes the saved title. `isSaving` is set and cleared
      within the call. */
  function SaveCurrentChat(st: StoreState, now: string, uuid: string): (r: StoreState)
    ensures !SaveProceeds(st) ==> r == st
    ensures r == st.(chatHistory := r.chatHistory, currentChatTitle := r.currentChatTitle)
  {
    if !SaveProceeds(st) then st
    else
      var c := ChatData(st, now, uuid);
      var h := match FindChat(st.chatHistory, c.id)
        case None => [c] + st.chatHistory
        case Some(i) => st.chatHistory[i := c];
      st.(chatHistory := h, currentChatTitle := c.title)
  }

  /** The upsert: with a new id the history gains the chat at the front and
      keeps the rest in order; with an existing id only that entry changes,
      in place, keeping its `createdAt`. Either way it grows by at most one
      and the saved chat carries the current id. */
  lemma SaveUpsert(st: StoreState, now: string, uuid: string)
    requires SaveProceeds(st)
    ensures var r := SaveCurrentChat(st, now, uuid);
      var h := st.chatHistory;
      var id := st.currentChatId.value;
      && |h| <= |r.chatHistory| <= |h| + 1
      && HasChat(r.chatHistory, id)
      && r.currentChatTitle == ChatData(st, now, uuid).title
      && (!HasChat(h, id) ==> r.chatHistory == [ChatData(st, now, uuid)] + h && r.chatHistory[0].createdAt == now)
      && (HasChat(h, id) ==>
            var i := FindChat(h, id).value;
            && |r.chatHistory| == |h|
            && r.chatHistory[i] == ChatData(st, now, uuid)
            && r.chatHistory[i].createdAt == h[i].createdAt
            && (forall j :: 0 <= j < |h| && j != i ==> r.chatHistory[j] == h[j]))
  {
    var r := SaveCurrentChat(st, now, uuid);
    var id := st.currentChatId.value;
    if !HasChat(st.chatHistory, id) {
      assert r.chatHistory[0].id == id;
    } else {
      var i := FindChat(st.chatHistory, id).value;
      assert r.chatHistory[i].id == id;
    }
  }

  /** Saving keeps the history's ids distinct. */
  lemma SaveKeepsIdsUnique(st: StoreState, now: string, uuid: string)
    requires UniqueChatIds(st.chatHistory)
    ensures UniqueChatIds(SaveCurrentChat(st, now, uuid).chatHistory)
  {
    if SaveProceeds(st) {
      var h := st.chatHistory;
      var id := st.currentChatId.value;
      var r := SaveCurrentChat(st, now, uuid).chatHistory;
      if !HasChat(h, id) {
        forall i, j | 0 <= i < j < |r|
          ensures r[i].id != r[j].id
        {
          if i == 0 {
            assert r[j] == h[j - 1];
          } else {
            assert r[i] == h[i - 1] && r[j] == h[j - 1];
          }
        }
      }
    }
  }

  /** Saving a chat and loading its messages back gives each message with
      its flags normalised, its timestamp filled in, and no charts; saving
      those loaded messages again reproduces the saved ones. */
  lemma SaveLoadRoundTrip(m: Message, now: string, later: string)
    requires now != ""
    ensures var back := LoadedMessage(SavedMessage(m, now));
      && back.id == m.id && back.role == m.role && back.content == m.content
      && back.tools == Some(ToolsOf(m)) && back.charts == None && back.isLoading == Some(false)
      && back.thinkingExpanded == Some(IsSet(m.thinkingExpanded))
      && (Present(m.timestamp) ==> back.timestamp == m.timestamp)
      && SavedMessage(back, later) == SavedMessage(m, now)
  {
    var saved := SavedMessage(m, now);
    var back := LoadedMessage(saved);
    assert Present(back.timestamp);
    assert ToolsOf(back) == ToolsOf(m);
  }

  /** `resetConversation`: a fresh conversation id and no messages. */
  function ResetConversation(st: StoreState, uuid: string): (r: StoreState)
    ensures r.messages == [] && r.conversationId == Some(uuid)
    ensures r.chatHistory == st.chatHistory && r.currentChatId == st.currentChatId
    ensures r == st.(messages := r.messages, conversationId := r.conversationId)
  {
    st.(conversationId := Some(uuid), messages := [])
  }

  /** The part of `startNewChat` after its save: a fresh chat id, no title, a
      reset conversation and no error. */
  function BeginChat(st: StoreState, freshId: string, uuid: string): (r: StoreState)
    ensures r.currentChatId == Some(freshId) && r.currentChatTitle == "" && r.errorMessage == ""
    ensures r.messages == [] && r.conversationId == Some(uuid)
    ensures r.chatHistory == st.chatHistory
  {
    ResetConversation(st.(currentChatId := Some(freshId), currentChatTitle := ""), uuid).(errorMessage := "")
  }

  /** `startNewChat`: saves the current chat when it has an id and messages,
      then begins a new one. */
  function StartNewChat(st: StoreState, freshId: string, uuid: string, now: string, saveUuid: string): (r: StoreState)
    ensures r.currentChatId == Some(freshId) && r.currentChatTitle == "" && r.errorMessage == ""
    ensures r.messages == [] && r.conversationId == Some(uuid)
    ensures r.chatHistory == SaveCurrentChat(st, now, saveUuid).chatHistory
    ensures !SaveProceeds(st) ==> r.chatHistory == st.chatHistory
    ensures r == st.(chatHistory := r.chatHistory, currentChatId := r.currentChatId, currentChatTitle := r.currentChatTitle,
                     messages := r.messages, conversationId := r.conversationId, errorMessage := r.errorMessage)
  {
    var saved := if Present(st.currentChatId) && |st.messages| > 0 then SaveCurrentChat(st, now, saveUuid) else st;
    BeginChat(saved, freshId, uuid)
  }

  /** Starting a new chat does not lose the one in progress: it is in the
      history afterwards. */
  lemma StartNewChatKeepsWork(st: StoreState, freshId: string, uuid: string, now: string, saveUuid: string)
    requires SaveProceeds(st)
    ensures HasChat(StartNewChat(st, freshId, uuid, now, saveUuid).chatHistory, st.currentChatId.value)
  {
    SaveUpsert(st, now, saveUuid);
  }

  /** `loadChat`: saves the current chat when it has an id and messages, then
      makes `chat` current with its messages normalised. */
  function LoadChat(st: StoreState, chat: Chat, now: string, saveUuid: string, uuid: string): (r: StoreState)
    ensures r.currentChatId == Some(chat.id) && r.currentChatTitle == chat.title
    ensures r.conversationId == Some(if chat.conversationId != "" then chat.conversationId else uuid)
    ensures |r.messages| == |chat.messages|
    ensures forall i :: 0 <= i < |chat.messages| ==> r.messages[i] == LoadedMessage(chat.messages[i])
    ensures r.chatHistory == SaveCurrentChat(st, now, saveUuid).chatHistory
    ensures !SaveProceeds(st) ==> r.chatHistory == st.chatHistory
    ensures r == st.(chatHistory := r.chatHistory, currentChatId := r.currentChatId, currentChatTitle := r.currentChatTitle,
                     messages := r.messages, conversationId := r.conversationId)
  {
    var saved := if Present(st.currentChatId) && |st.messages| > 0 then SaveCurrentChat(st, now, saveUuid) else st;
    saved.(
      currentChatId := Some(chat.id),
      currentChatTitle := chat.title,
      conversationId := Some(TextOr(Some(chat.conversationId), uuid)),
      messages := MapMessages(chat.messages, LoadedMessage))
  }

  /** Loading is idempotent on messages: loading an already loaded chat
      changes none of them. */
  lemma LoadIdempotent(m: Message)
    ensures LoadedMessage(LoadedMessage(m)) == LoadedMessage(m)
  {
    assert ToolsOf(LoadedMessage(m)) == ToolsOf(m);
  }

  /** `deleteChat` as written: removes the chat; when it was the current one,
      starts a new chat, and that start first saves the current chat. */
  function DeleteChat(st: StoreState, chatId: string, freshId: string, uuid: string, now: string, saveUuid: string): (r: StoreState)
    ensures !HasChat(st.chatHistory, chatId) ==> r == st
    ensures HasChat(st.chatHistory, chatId) && st.currentChatId != Some(chatId) ==>
      r == st.(chatHistory := RemoveAt(st.chatHistory, FindChat(st.chatHistory, chatId).value))
  {
    match FindChat(st.chatHistory, chatId)
    case None => st
    case Some(i) =>
      var removed := st.(chatHistory := RemoveAt(st.chatHistory, i));
      if st.currentChatId == Some(chatId) then StartNewChat(removed, freshId, uuid, now, saveUuid) else removed
  }

  /** Deleting the current chat while it has messages puts it straight back:
      the save inside `startNewChat` re-inserts it at the front. */
  lemma DeleteCurrentChatReinserted(st: StoreState, chatId: string, freshId: string, uuid: string, now: string, saveUuid: string)
    requires UniqueChatIds(st.chatHistory) && HasChat(st.chatHistory, chatId)
    requires st.currentChatId == Some(chatId) && chatId != ""
    requires |st.messages| > 0 && !st.isSaving
    ensures var r := DeleteChat(st, chatId, freshId, uuid, now, saveUuid);
      |r.chatHistory| == |st.chatHistory| && r.chatHistory[0].id == chatId
  {
    var i := FindChat(st.chatHistory, chatId).value;
    var removed := st.(chatHistory := RemoveAt(st.chatHistory, i));
    forall k | 0 <= k < |removed.chatHistory|
      ensures removed.chatHistory[k].id != chatId
    {
      if k < i {
        assert removed.chatHistory[k] == st.chatHistory[k];
      } else {
        assert removed.chatHistory[k] == st.chatHistory[k + 1];
      }
    }
    assert SaveProceeds(removed);
    SaveUpsert(removed, now, saveUuid);
  }

  /** `deleteChat` with the evident intent: when the deleted chat was the
      current one, begin a new chat without saving the deleted one again. */
  function DeleteChatCorrected(st: StoreState, chatId: string, freshId: string, uuid: string): (r: StoreState)
    ensures !HasChat(st.chatHistory, chatId) ==> r == st
    ensures HasChat(st.chatHistory, chatId) ==>
      r.chatHistory == RemoveAt(st.chatHistory, FindChat(st.chatHistory, chatId).value)
  {
    match FindChat(st.chatHistory, chatId)
    case None => st
    case Some(i) =>
      var removed := st.(chatHistory := RemoveAt(st.chatHistory, i));
      if st.currentChatId == Some(chatId) then BeginChat(removed, freshId, uuid) else removed
  }

  /** With distinct ids, the corrected deletion leaves no chat with that id,
      keeps every other chat in order, and keeps the ids distinct. */
  lemma DeleteCorrectedRemoves(st: StoreState, chatId: string, freshId: string, uuid: string)
    requires UniqueChatIds(st.chatHistory)
    ensures var r := DeleteChatCorrected(st, chatId, freshId, uuid);
      && !HasChat(r.chatHistory, chatId)
      && UniqueChatIds(r.chatHistory)
      && (HasChat(st.chatHistory, chatId) ==> |r.chatHistory| == |st.chatHistory| - 1)
  {
    var h := st.chatHistory;
    var r := DeleteChatCorrected(st, chatId, freshId, uuid).chatHistory;
    if HasChat(h, chatId) {
      var i := FindChat(h, chatId).value;
      forall k | 0 <= k < |r|
        ensures r[k].id != chatId
      {
        if k < i {
          assert r[k] == h[k];
        } else {
          assert r[k] == h[k + 1];
        }
      }
      forall a, b | 0 <= a < b < |r|
        ensures r[a].id != r[b].id
      {
        var a' := if a < i then a else a + 1;
        var b' := if b < i then b else b + 1;
        assert r[a] == h[a'] && r[b] == h[b'];
      }
    }
  }

  /** `renameChat`: the matching chat gets the new title and `updatedAt`; the
      current title follows when it is the current chat. */
  function RenameChat(st: StoreState, chatId: string, newTitle: string, now: string): (r: StoreState)
    ensures !HasChat(st.chatHistory, chatId) ==> r == st
    ensures |r.chatHistory| == |st.chatHistory|
    ensures r.messages == st.messages && r.currentChatId == st.currentChatId
    ensures HasChat(st.chatHistory, chatId) ==>
      var i := FindChat(st.chatHistory, chatId).value;
      && r.chatHistory[i] == st.chatHistory[i].(title := newTitle, updatedAt := now)
      && (forall j :: 0 <= j < |st.chatHistory| && j != i ==> r.chatHistory[j] == st.chatHistory[j])
      && r.currentChatTitle == (if st.currentChatId == Some(chatId) then newTitle else st.currentChatTitle)
  {
    match FindChat(st.chatHistory, chatId)
    case None => st
    case Some(i) =>
      var h := st.chatHistory[i := st.chatHistory[i].(title := newTitle, updatedAt := now)];
      st.(chatHistory := h, currentChatTitle := if st.currentChatId == Some(chatId) then newTitle else st.currentChatTitle)
  }

  /** The message `addMessage` builds from a draft: the draft's fields with
      `tools || []` and `thinkingExpanded || false`, a fresh id and a stamp. */
  function NewMessage(d: Draft, id: string, now: string): (m: Message)
    ensures m.id == id && m.timestamp == Some(now)
    ensures m.role == d.role && m.content == d.content && m.charts == d.charts && m.isLoading == d.isLoading
    ensures m.tools == Some(d.tools.GetOr([])) && m.thinkingExpanded == Some(IsSet(d.thinkingExpanded))
  {
    Message(id, d.role, d.content, Some(d.tools.GetOr([])), d.charts, Some(IsSet(d.thinkingExpanded)), d.isLoading, Some(now))
  }

  /** `addMessage`: appends the new message and names an untitled chat after
      its first user message. The debounced save is left out. */
  function AddMessage(st: StoreState, d: Draft, id: string, now: string): (r: (StoreState, Message))
    ensures r.1 == NewMessage(d, id, now)
    ensures r.0.messages == st.messages + [r.1]
    ensures r.0 == st.(messages := r.0.messages, currentChatTitle := r.0.currentChatTitle)
    ensures st.currentChatTitle != "" ==> r.0.currentChatTitle == st.currentChatTitle
  {
    var m := NewMessage(d, id, now);
    var ms := st.messages + [m];
    var titled := st.currentChatTitle == "" && d.role == User && CountUsers(ms) == 1;
    (st.(messages := ms, currentChatTitle := if titled then GenerateChatTitle(ms) else st.currentChatTitle), m)
  }

  /** The first user message of an untitled chat names it. */
  lemma FirstUserMessageNamesChat(st: StoreState, d: Draft, id: string, now: string)
    requires st.currentChatTitle == "" && d.role == User
    requires forall i :: 0 <= i < |st.messages| ==> st.messages[i].role != User
    ensures AddMessage(st, d, id, now).0.currentChatTitle == TruncateText(d.content, TitleLength)
  {
    var ms := st.messages + [NewMessage(d, id, now)];
    assert ms[|st.messages|].role == User;
    assert CountUsers(st.messages) == 0;
    assert ms[..|ms| - 1] == st.messages;
  }

  /** `Partial<ChatMessage>`: each field either absent from the update or
      given; the optional fields can be given as `undefined` (`Some(None)`). */
  datatype Patch = Patch(
    id: Option<string>,
    role: Option<Role>,
    content: Option<string>,
    tools: Option<Option<seq<Tool>>>,
    charts: Option<Option<seq<string>>>,
    thinkingExpanded: Option<Option<bool>>,
    isLoading: Option<Option<bool>>,
    timestamp: Option<Option<string>>)

  const EmptyPatch: Patch := Patch(None, None, None, None, None, None, None, None)

  /** `{ ...m, ...u }`. */
  function ApplyPatch(m: Message, u: Patch): Message {
    Message(
      u.id.GetOr(m.id), u.role.GetOr(m.role), u.content.GetOr(m.content),
      u.tools.GetOr(m.tools), u.charts.GetOr(m.charts),
      u.thinkingExpanded.GetOr(m.thinkingExpanded), u.isLoading.GetOr(m.isLoading),
      u.timestamp.GetOr(m.timestamp))
  }

  /** A spread of an update keeps every field the update leaves out, shows
      every field it gives, and applying the same update twice is applying it
      once. */
  lemma PatchLaws(m: Message, u: Patch)
    ensures ApplyPatch(m, EmptyPatch) == m
    ensures ApplyPatch(ApplyPatch(m, u), u) == ApplyPatch(m, u)
    ensures u.content.Some? ==> ApplyPatch(m, u).content == u.content.value
    ensures u.content.None? ==> ApplyPatch(m, u).content == m.content
    ensures u.isLoading.Some? ==> ApplyPatch(m, u).isLoading == u.isLoading.value
    ensures u.isLoading.None? ==> ApplyPatch(m, u).isLoading == m.isLoading
  {
  }

  /** `updateMessage`: the first message with the id is merged with the
      update; nothing else changes, and an unknown id changes nothing. */
  function UpdateMessage(ms: seq<Message>, messageId: string, u: Patch): (r: seq<Message>)
    ensures |r| == |ms|
    ensures (forall i :: 0 <= i < |ms| ==> ms[i].id != messageId) ==> r == ms
    ensures forall i :: 0 <= i < |ms| && ms[i].id == messageId && (forall j :: 0 <= j < i ==> ms[j].id != messageId) ==>
      r[i] == ApplyPatch(ms[i], u) && forall j :: 0 <= j < |ms| && j != i ==> r[j] == ms[j]
  {
    match FindFirst(ms, (m: Message) => m.id == messageId)
    case None => ms
    case Some(i) => ms[i := ApplyPatch(ms[i], u)]
  }

  /** `toggleThinking(index)`: flips the flag of the message at `index`
      (`!undefined` is `true`); an index outside the list is a no-op. */
  function ToggleThinking(ms: seq<Message>, index: int): (r: seq<Message>)
    ensures |r| == |ms|
    ensures !(0 <= index < |ms|) ==> r == ms
    ensures 0 <= index < |ms| ==>
      && r[index] == ms[index].(thinkingExpanded := Some(!IsSet(ms[index].thinkingExpanded)))
      && (forall j :: 0 <= j < |ms| && j != index ==> r[j] == ms[j])
  {
    if 0 <= index < |ms| then ms[index := ms[index].(thinkingExpanded := Some(!IsSet(ms[index].thinkingExpanded)))]
    else ms
  }

  /** Toggling twice restores the displayed flag, and restores the list
      exactly when that flag was defined. */
  lemma ToggleThinkingTwice(ms: seq<Message>, index: int)
    ensures var r := ToggleThinking(ToggleThinking(ms, index), index);
      && |r| == |ms|
      && (forall i :: 0 <= i < |ms| ==> IsSet(r[i].thinkingExpanded) == IsSet(ms[i].thinkingExpanded))
      && (!(0 <= index < |ms|) || ms[index].thinkingExpanded.Some? ==> r == ms)
  {
    var t := ToggleThinking(ms, index);
    var r := ToggleThinking(t, index);
    if 0 <= index < |ms| && ms[index].thinkingExpanded.Some? {
      var b := ms[index].thinkingExpanded.value;
      assert r[index] == ms[index];
      assert r == ms;
    }
  }

  /** `toggleThinking` on an undefined flag then again leaves it `false`,
      not undefined. */
  lemma ToggleThinkingUndefined(ms: seq<Message>, index: int)
    requires 0 <= index < |ms| && ms[index].thinkingExpanded.None?
    ensures ToggleThinking(ToggleThinking(ms, index), index)[index].thinkingExpanded == Some(false)
  {
  }

  /** `cancelRequest`: with a controller, clears the loading flag of the
      first loading message; without one, does nothing. */
  function CancelRequest(st: StoreState): (r: StoreState)
    ensures !st.hasController ==> r == st
    ensures r == st.(messages := r.messages)
    ensures |r.messages| == |st.messages|
    ensures forall i :: 0 <= i < |st.messages| && (!st.hasController || !IsSet(st.messages[i].isLoading)) ==> r.messages[i] == st.messages[i]
    ensures st.hasController ==>
      forall i :: (0 <= i < |st.messages| && IsSet(st.messages[i].isLoading)
                   && (forall j :: 0 <= j < i ==> !IsSet(st.messages[j].isLoading))) ==>
        && r.messages[i] == st.messages[i].(isLoading := Some(false))
        && (forall j :: 0 <= j < |st.messages| && j != i ==> r.messages[j] == st.messages[j])
  {
    if !st.hasController then st
    else
      match FindFirst(st.messages, (m: Message) => IsSet(m.isLoading))
      case None => st
      case Some(i) => st.(messages := st.messages[i := st.messages[i].(isLoading := Some(false))])
  }

  /** `replace(/-/g, ' ')`. */
  function DashesToSpaces(s: string): (r: string)
    ensures |r| == |s| && '-' !in r
    ensures forall i :: 0 <= i < |s| ==> r[i] == (if s[i] == '-' then ' ' else s[i])
  {
    seq(|s|, i requires 0 <= i < |s| => if s[i] == '-' then ' ' else s[i])
  }

  /** Whether a `\b\w` match starts at `i`: a word character not preceded by
      one. */
  predicate WordStart(s: string, i: int)
    requires 0 <= i < |s|
  {
    IsWordChar(s[i]) && (i == 0 || !IsWordChar(s[i - 1]))
  }

  /** `replace(/\b\w/g, l => l.toUpperCase())`. */
  function CapitalizeWords(s: string): (r: string)
    ensures |r| == |s|
    ensures forall i :: 0 <= i < |s| && WordStart(s, i) ==> r[i] == UpperChar(s[i])
    ensures forall i :: 0 <= i < |s| && !WordStart(s, i) ==> r[i] == s[i]
  {
    seq(|s|, i requires 0 <= i < |s| => if WordStart(s, i) then UpperChar(s[i]) else s[i])
  }

  const QuestionStem: string := "What are the building regulations"

  /** `generateQuickQuestion`: the stem, one clause per non-empty selection
      in a fixed order, and a question mark. */
  function GenerateQuickQuestion(st: StoreState): (r: string)
    ensures StartsWith(r, QuestionStem) && |r| > |QuestionStem| && r[|r| - 1] == '?'
    ensures r == QuestionStem + "?" <==>
      st.selectedProjectType == "" && st.selectedState == "" && st.selectedCode == "" && st.selectedSiteType == ""
  {
    var project := if st.selectedProjectType != "" then " for " + st.selectedProjectType + " projects" else "";
    var state := if st.selectedState != "" then " in " + CapitalizeWords(DashesToSpaces(st.selectedState)) else "";
    var code := if st.selectedCode != "" then " according to " + Upper(st.selectedCode) else "";
    var site := if st.selectedSiteType != "" then " for " + DashesToSpaces(st.selectedSiteType) + " sites" else "";
    var clauses := project + state + code + site;
    assert |clauses| == |project| + |state| + |code| + |site|;
    var r := QuestionStem + clauses + "?";
    assert r[..|QuestionStem|] == QuestionStem;
    r
  }
  /** Only a project type selected: the question asks about such projects. */
  lemma QuickQuestionProjectOnly(st: StoreState)
    requires st.selectedProjectType != "" && st.selectedState == "" && st.selectedCode == "" && st.selectedSiteType == ""
    ensures GenerateQuickQuestion(st) == QuestionStem + " for " + st.selectedProjectType + " projects?"
  {
  }

  /** Only a state selected: its name with dashes as spaces and each word
      capitalised. */
  lemma QuickQuestionStateOnly(st: StoreState)
    requires st.selectedProjectType == "" && st.selectedState != "" && st.selectedCode == "" && st.selectedSiteType == ""
    ensures GenerateQuickQuestion(st) == QuestionStem + " in " + CapitalizeWords(DashesToSpaces(st.selectedState)) + "?"
  {
    var state := " in " + CapitalizeWords(DashesToSpaces(st.selectedState));
    assert GenerateQuickQuestion(st) == QuestionStem + ("" + state + "" + "") + "?";
    assert "" + state + "" + "" == state;
  }

  /** Only a code selected: the code upper-cased. */
  lemma QuickQuestionCodeOnly(st: StoreState)
    requires st.selectedProjectType == "" && st.selectedState == "" && st.selectedCode != "" && st.selectedSiteType == ""
    ensures GenerateQuickQuestion(st) == QuestionStem + " according to " + Upper(st.selectedCode) + "?"
  {
  }

  /** Only a site type selected: its name with dashes as spaces. */
  lemma QuickQuestionSiteOnly(st: StoreState)
    requires st.selectedProjectType == "" && st.selectedState == "" && st.selectedCode == "" && st.selectedSiteType != ""
    ensures GenerateQuickQuestion(st) == QuestionStem + " for " + DashesToSpaces(st.selectedSiteType) + " sites?"
  {
  }

  /** With every selection made the clauses appear in the order project,
      state, code, site. */
  lemma QuickQuestionOrder(st: StoreState)
    requires st.selectedProjectType != "" && st.selectedState != "" && st.selectedCode != "" && st.selectedSiteType != ""
    ensures GenerateQuickQuestion(st) ==
      QuestionStem + " for " + st.selectedProjectType + " projects"
      + " in " + CapitalizeWords(DashesToSpaces(st.selectedState))
      + " according to " + Upper(st.selectedCode)
      + " for " + DashesToSpaces(st.selectedSiteType) + " sites?"
  {
    var project := " for " + st.selectedProjectType + " projects";
    var state := " in " + CapitalizeWords(DashesToSpaces(st.selectedState));
    var code := " according to " + Upper(st.selectedCode);
    var site := " for " + DashesToSpaces(st.selectedSiteType) + " sites";
    assert GenerateQuickQuestion(st) == QuestionStem + (project + state + code + site) + "?";
  }
}

=== FILE: chat_types.dfy ===
/** The records the chat client passes around (`src/types/chat.ts`), the
    decoded stream payload, and the JavaScript coercions the reducers apply to
    payload fields. A missing optional field of a TypeScript record is `None`. */
module ChatTypes {
  import opened Wrappers
  import opened Strings

  datatype Role = User | Assistant | System

  /** A value as `JSON.parse` produces it; `JUndefined` stands for an absent
      key. An object keeps its members in order. Numbers are integers (see
      README, "Left out"). */
  datatype Json =
    | JUndefined
    | JNull
    | JBool(b: bool)
    | JNumber(n: int)
    | JString(s: string)
    | JArray(items: seq<Json>)
    | JObject(members: seq<(string, Json)>)

  /** The values JavaScript treats as false in `x || y`. */
  predicate Falsy(v: Json) {
    v == JUndefined || v == JNull || v == JBool(false) || v == JNumber(0) || v == JString("")
  }

  /** `a || fallback` for a string-typed field: an absent or empty string
      yields the fallback. */
  function TextOr(a: Option<string>, fallback: string): (r: string)
    ensures r == fallback || (a == Some(r) && r != "")
    ensures a.Some? && a.value != "" ==> r == a.value
    ensures r == "" ==> fallback == ""
  {
    if a.Some? && a.value != "" then a.value else fallback
  }

  /** Whether a string-typed field is truthy. */
  predicate Present(a: Option<string>) {
    a.Some? && a.value != ""
  }

  /** `JSON.stringify('')`, the one serialisation the model fixes. */
  const EmptyStringJson: string := "\"\""

  /** `JSON.stringify(v)` for a defined value: the serialiser itself is a
      parameter, except for the empty string. */
  function Serialize(stringify: Json -> string, v: Json): (r: string)
    ensures v == JString("") ==> r == EmptyStringJson
    ensures v != JString("") ==> r == stringify(v)
  {
    if v == JString("") then EmptyStringJson else stringify(v)
  }

  /** The text `Array.prototype.join` uses for one element: `undefined` and
      `null` become the empty string, nested arrays are joined with `,`. */
  function ElementText(v: Json): string
    decreases v
  {
    match v
    case JUndefined => ""
    case JNull => ""
    case JBool(b) => if b then "true" else "false"
    case JNumber(n) => IntToString(n)
    case JString(s) => s
    case JArray(items) => Join(seq(|items|, i requires 0 <= i < |items| => ElementText(items[i])), ",")
    case JObject(_) => "[object Object]"
  }

  /** `items.join(sep)`. */
  function JoinElements(items: seq<Json>, sep: string): (r: string)
    ensures |items| == 1 ==> r == ElementText(items[0])
    ensures |items| == 0 ==> r == ""
  {
    Join(seq(|items|, i requires 0 <= i < |items| => ElementText(items[i])), sep)
  }

  /** One decoded stream record: the fields the three loops read. `chartSvg`
      is `artifacts_data?.chart_svg`. */
  datatype Payload = Payload(
    kind: Option<string>,
    name: Option<string>,
    tool: Option<string>,
    input: Json,
    reasoning: Option<string>,
    content: Option<string>,
    chartSvg: Option<string>)

  const ToolStartKind: string := "tool_start"
  const ChunkKind: string := "chunk"
  const ToolEndKind: string := "tool_end"

  predicate IsToolStart(p: Payload) { p.kind == Some(ToolStartKind) }
  predicate IsChunk(p: Payload) { p.kind == Some(ChunkKind) }
  predicate IsToolEnd(p: Payload) { p.kind == Some(ToolEndKind) }

  /** Whether some record of the stream is a `tool_start`. */
  predicate HasToolStart(ps: seq<Payload>) {
    exists i :: 0 <= i < |ps| && IsToolStart(ps[i])
  }

  /** `ChatTool`; the store can leave `name` and `input` undefined. */
  datatype Tool = Tool(name: Option<string>, input: Option<string>, reasoning: string)

  /** `ChatMessage`. */
  datatype Message = Message(
    id: string,
    role: Role,
    content: string,
    tools: Option<seq<Tool>>,
    charts: Option<seq<string>>,
    thinkingExpanded: Option<bool>,
    isLoading: Option<bool>,
    timestamp: Option<string>)

  /** `Omit<ChatMessage, 'id' | 'timestamp'>`, the argument of `addMessage`. */
  datatype Draft = Draft(
    role: Role,
    content: string,
    tools: Option<seq<Tool>>,
    charts: Option<seq<string>>,
    thinkingExpanded: Option<bool>,
    isLoading: Option<bool>)

  /** `Chat`, one entry of the saved history. */
  datatype Chat = Chat(
    id: string,
    title: string,
    messages: seq<Message>,
    conversationId: string,
    createdAt: string,
    updatedAt: string)

  /** `ChatRequest`, the body posted to the chat endpoint. */
  datatype ChatRequest = ChatRequest(query: string, conversationId: string, modelId: Option<string>)

  /** `m.tools || []`. */
  function ToolsOf(m: Message): seq<Tool> {
    m.tools.GetOr([])
  }

  /** `m.charts || []`. */
  function ChartsOf(m: Message): seq<string> {
    m.charts.GetOr([])
  }

  /** Truthiness of an optional boolean flag. */
  predicate IsSet(flag: Option<bool>) {
    flag == Some(true)
  }

  function CountUsers(ms: seq<Message>): (n: nat)
    ensures n <= |ms|
    ensures n == 0 <==> forall i :: 0 <= i < |ms| ==> ms[i].role != User
  {
    if |ms| == 0 then 0
    else CountUsers(ms[..|ms| - 1]) + (if ms[|ms| - 1].role == User then 1 else 0)
  }
}

=== FILE: content_parser.dfy ===
/** The chart-placeholder segmenter (`src/utils/contentParser.ts`). The
    pattern `/<chart\s+id\s*=\s*(\d+)\s*>/gi` is matched by hand: each of its
    quantifiers is followed by a character its class excludes, so greedy
    scanning finds the one match possible at a position, and the global
    search takes the leftmost match at or after the previous match's end. */
module ContentParser {
  import opened Wrappers
  import opened Strings

  const ChartWord: string := "<chart"
  const IdWord: string := "id"

  /** The case-insensitive literal `lit` (lower-case ASCII) at `i`. */
  predicate LitAt(s: string, i: nat, lit: string) {
    i + |lit| <= |s| && forall k :: 0 <= k < |lit| ==> LowerChar(s[i + k]) == lit[k]
  }

  predicate SpacesBetween(s: string, i: nat, j: nat)
    requires i <= j <= |s|
  {
    forall k :: i <= k < j ==> IsSpace(s[k])
  }

  /** The first index at or after `i` that is not whitespace. */
  function SkipSpaces(s: string, i: nat): (j: nat)
    requires i <= |s|
    ensures i <= j <= |s| && SpacesBetween(s, i, j)
    ensures j < |s| ==> !IsSpace(s[j])
    decreases |s| - i
  {
    if i < |s| && IsSpace(s[i]) then SkipSpaces(s, i + 1) else i
  }

  /** The first index at or after `i` that is not a decimal digit. */
  function SkipDigits(s: string, i: nat): (j: nat)
    requires i <= |s|
    ensures i <= j <= |s| && forall k :: i <= k < j ==> IsDigit(s[k])
    ensures j < |s| ==> !IsDigit(s[j])
    decreases |s| - i
  {
    if i < |s| && IsDigit(s[i]) then SkipDigits(s, i + 1) else i
  }

  /** One match: where it starts, where `id`, `=`, the digits and `>` are,
      and the decimal value of the digits. */
  datatype Tag = Tag(start: nat, idAt: nat, eqAt: nat, digitsStart: nat, digitsEnd: nat, gtAt: nat, value: nat) {
    function End(): nat { gtAt + 1 }
  }

  /** The pattern, read off directly: `t` describes a match in `s`. */
  predicate PatternAt(s: string, t: Tag) {
    && LitAt(s, t.start, ChartWord)
    && t.start + |ChartWord| < t.idAt <= |s| && SpacesBetween(s, t.start + |ChartWord|, t.idAt)
    && LitAt(s, t.idAt, IdWord)
    && t.idAt + |IdWord| <= t.eqAt < |s| && SpacesBetween(s, t.idAt + |IdWord|, t.eqAt) && s[t.eqAt] == '='
    && t.eqAt + 1 <= t.digitsStart < t.digitsEnd <= |s| && SpacesBetween(s, t.eqAt + 1, t.digitsStart)
    && AllDigits(s[t.digitsStart..t.digitsEnd])
    && t.digitsEnd <= t.gtAt < |s| && SpacesBetween(s, t.digitsEnd, t.gtAt) && s[t.gtAt] == '>'
    && t.value == DigitsValue(s[t.digitsStart..t.digitsEnd])
  }

  /** The match starting at `p`, if any. That it is a match of the pattern
      is `MatchAtSound`; that it finds every match is `MatchAtComplete`. */
  function MatchAt(s: string, p: nat): (r: Option<Tag>)
    ensures r.Some? ==> r.value.start == p && p < r.value.End() <= |s|
  {
    if !LitAt(s, p, ChartWord) then None
    else
      var b := SkipSpaces(s, p + |ChartWord|);
      if b == p + |ChartWord| || !LitAt(s, b, IdWord) then None
      else
        var c := SkipSpaces(s, b + |IdWord|);
        if c == |s| || s[c] != '=' then None
        else
          var d := SkipSpaces(s, c + 1);
          var e := SkipDigits(s, d);
          if e == d then None
          else
            var f := SkipSpaces(s, e);
            if f == |s| || s[f] != '>' then None
            else Some(Tag(p, b, c, d, e, f, DigitsValue(s[d..e])))
  }

  /** What the hand matcher finds is a match of the pattern. */
  lemma MatchAtSound(s: string, p: nat)
    ensures MatchAt(s, p).Some? ==> PatternAt(s, MatchAt(s, p).value)
  {
    if MatchAt(s, p).Some? {
      var t := MatchAt(s, p).value;
      assert AllDigits(s[t.digitsStart..t.digitsEnd]);
    }
  }

  lemma SkipSpacesExact(s: string, i: nat, j: nat)
    requires i <= j <= |s| && SpacesBetween(s, i, j)
    requires j < |s| ==> !IsSpace(s[j])
    ensures SkipSpaces(s, i) == j
  {
  }

  lemma SkipDigitsExact(s: string, i: nat, j: nat)
    requires i <= j <= |s| && forall k :: i <= k < j ==> IsDigit(s[k])
    requires j < |s| ==> !IsDigit(s[j])
    ensures SkipDigits(s, i) == j
  {
  }

  /** The hand matcher finds exactly the matches the pattern describes. */
  lemma MatchAtComplete(s: string, t: Tag)
    requires PatternAt(s, t)
    ensures MatchAt(s, t.start) == Some(t)
  {
    HeadPositions(s, t);
    DigitPositions(s, t);
    var p := t.start;
    var b, c, d, e, f := t.idAt, t.eqAt, t.digitsStart, t.digitsEnd, t.gtAt;
    assert Tag(p, b, c, d, e, f, DigitsValue(s[d..e])) == t;
    MatchAtSteps(s, p, b, c, d, e, f);
  }

  /** Scanning a match's head lands on `id` and then on `=`. */
  lemma HeadPositions(s: string, t: Tag)
    requires PatternAt(s, t)
    ensures SkipSpaces(s, t.start + |ChartWord|) == t.idAt
    ensures SkipSpaces(s, t.idAt + |IdWord|) == t.eqAt
  {
    assert LowerChar(s[t.idAt + 0]) == IdWord[0];
    assert !IsSpace(s[t.idAt]);
    SkipSpacesExact(s, t.start + |ChartWord|, t.idAt);
    SkipSpacesExact(s, t.idAt + |IdWord|, t.eqAt);
  }

  /** Scanning a match's value lands on its digits and then on `>`. */
  lemma DigitPositions(s: string, t: Tag)
    requires PatternAt(s, t)
    ensures SkipSpaces(s, t.eqAt + 1) == t.digitsStart
    ensures SkipDigits(s, t.digitsStart) == t.digitsEnd
    ensures SkipSpaces(s, t.digitsEnd) == t.gtAt
  {
    var digits := s[t.digitsStart..t.digitsEnd];
    assert IsDigit(s[t.digitsStart]) by {
      assert digits[0] == s[t.digitsStart];
    }
    SkipSpacesExact(s, t.eqAt + 1, t.digitsStart);
    forall k | t.digitsStart <= k < t.digitsEnd
      ensures IsDigit(s[k])
    {
      assert digits[k - t.digitsStart] == s[k];
    }
    assert !IsDigit(s[t.digitsEnd]) by {
      if t.digitsEnd < t.gtAt {
        assert IsSpace(s[t.digitsEnd]);
      }
    }
    SkipDigitsExact(s, t.digitsStart, t.digitsEnd);
    SkipSpacesExact(s, t.digitsEnd, t.gtAt);
  }

  lemma MatchAtSteps(s: string, p: nat, b: nat, c: nat, d: nat, e: nat, f: nat)
    requires LitAt(s, p, ChartWord) && SkipSpaces(s, p + |ChartWord|) == b && b != p + |ChartWord| && LitAt(s, b, IdWord)
    requires SkipSpaces(s, b + |IdWord|) == c && c < |s| && s[c] == '='
    requires SkipSpaces(s, c + 1) == d && SkipDigits(s, d) == e && e != d
    requires SkipSpaces(s, e) == f && f < |s| && s[f] == '>'
    ensures MatchAt(s, p) == Some(Tag(p, b, c, d, e, f, DigitsValue(s[d..e])))
  {
  }

  /** A matcher over the positions of a text of length `n`: a hit at `q`
      starts at `q` and ends after it, within the text. */
  ghost predicate Positional(m: nat -> Option<Tag>, n: nat) {
    forall q: nat :: m(q).Some? ==> m(q).value.start == q && q < m(q).value.End() <= n
  }

  /** The leftmost hit of `m` at or after `from`. */
  function Search(m: nat -> Option<Tag>, from: nat, n: nat): (r: Option<Tag>)
    requires Positional(m, n)
    ensures r.Some? ==> from <= r.value.start < r.value.End() <= n && m(r.value.start) == r
    ensures r.Some? ==> forall q: nat :: from <= q < r.value.start ==> m(q).None?
    ensures r.None? ==> forall q: nat :: from <= q ==> m(q).None?
    decreases n - from
  {
    if from >= n then None
    else
      match m(from)
      case Some(t) => Some(t)
      case None => Search(m, from + 1, n)
  }

  /** The hits a global search visits from `from`: each search resumes at
      the end of the previous hit. */
  function Scan(m: nat -> Option<Tag>, from: nat, n: nat): (ts: seq<Tag>)
    requires Positional(m, n) && from <= n
    ensures forall i :: 0 <= i < |ts| ==> from <= ts[i].start < ts[i].End() <= n
    ensures forall i :: 0 <= i < |ts| - 1 ==> ts[i].End() <= ts[i + 1].start
    ensures |ts| == 0 <==> Search(m, from, n).None?
    decreases n - from
  {
    match Search(m, from, n)
    case None => []
    case Some(t) => [t] + Scan(m, t.End(), n)
  }

  /** The scan skips nothing: its first hit is the first search's result,
      each later hit is what the search from the previous hit's end returns,
      and the search after the last hit finds nothing. */
  lemma {:induction false} ScanChained(m: nat -> Option<Tag>, from: nat, n: nat)
    requires Positional(m, n) && from <= n
    ensures var ts := Scan(m, from, n);
      && (|ts| > 0 ==> Search(m, from, n) == Some(ts[0]))
      && (forall i :: 0 <= i < |ts| - 1 ==> Search(m, ts[i].End(), n) == Some(ts[i + 1]))
      && (|ts| > 0 ==> Search(m, ts[|ts| - 1].End(), n).None?)
    decreases n - from
  {
    match Search(m, from, n)
    case None =>
    case Some(t) =>
      var rest := Scan(m, t.End(), n);
      assert Scan(m, from, n) == [t] + rest;
      ScanChained(m, t.End(), n);
      ScanStep(m, from, n, t, rest);
  }

  /** One step of the scan: a hit followed by the chain that resumes at its
      end is the chain from `from`. */
  lemma ScanStep(m: nat -> Option<Tag>, from: nat, n: nat, t: Tag, rest: seq<Tag>)
    requires Positional(m, n) && Search(m, from, n) == Some(t)
    requires |rest| == 0 <==> Search(m, t.End(), n).None?
    requires |rest| > 0 ==> Search(m, t.End(), n) == Some(rest[0])
    requires forall i :: 0 <= i < |rest| - 1 ==> Search(m, rest[i].End(), n) == Some(rest[i + 1])
    requires |rest| > 0 ==> Search(m, rest[|rest| - 1].End(), n).None?
    ensures var ts := [t] + rest;
      && (forall i :: 0 <= i < |ts| - 1 ==> Search(m, ts[i].End(), n) == Some(ts[i + 1]))
      && Search(m, ts[|ts| - 1].End(), n).None?
  {
    var ts := [t] + rest;
    forall i | 0 <= i < |ts| - 1
      ensures Search(m, ts[i].End(), n) == Some(ts[i + 1])
    {
      if i > 0 {
        assert ts[i] == rest[i - 1] && ts[i + 1] == rest[i];
      }
    }
    if |rest| > 0 {
      assert ts[|ts| - 1] == rest[|rest| - 1];
    }
  }

  /** Every position the scan visits is a hit of the matcher. */
  lemma {:induction false} ScanHits(m: nat -> Option<Tag>, from: nat, n: nat)
    requires Positional(m, n) && from <= n
    ensures forall i :: 0 <= i < |Scan(m, from, n)| ==> m(Scan(m, from, n)[i].start) == Some(Scan(m, from, n)[i])
    decreases n - from
  {
    var ts := Scan(m, from, n);
    if |ts| > 0 {
      var t := Search(m, from, n).value;
      ScanHits(m, t.End(), n);
      var rest := Scan(m, t.End(), n);
      assert ts == [t] + rest;
      forall i | 0 <= i < |ts|
        ensures m(ts[i].start) == Some(ts[i])
      {
        if i > 0 {
          assert ts[i] == rest[i - 1];
        }
      }
    }
  }

  /** The hand matcher as a function of the position. */
  function Matcher(s: string): nat -> Option<Tag> {
    (q: nat) => MatchAt(s, q)
  }

  lemma MatcherPositional(s: string)
    ensures Positional(Matcher(s), |s|)
  {
    forall q: nat | Matcher(s)(q).Some?
      ensures Matcher(s)(q).value.start == q && q < Matcher(s)(q).value.End() <= |s|
    {
      assert Matcher(s)(q) == MatchAt(s, q);
    }
  }

  /** `chartRegex.exec` from `lastIndex = from`. */
  function NextMatch(s: string, from: nat): (r: Option<Tag>)
    ensures r.Some? ==> from <= r.value.start < r.value.End() <= |s|
  {
    MatcherPositional(s);
    Search(Matcher(s), from, |s|)
  }

  /** The matches the `while (exec)` loop visits from `from`, in order. */
  function Matches(s: string, from: nat): (r: seq<Tag>)
    requires from <= |s|
    ensures Chain(r, from, |s|)
  {
    MatcherPositional(s);
    Scan(Matcher(s), from, |s|)
  }

  /** `exec` returns the leftmost match of the pattern at or after
      `lastIndex`, and nothing when there is none. */
  lemma NextMatchSpec(s: string, from: nat)
    ensures var r := NextMatch(s, from);
      && (r.Some? ==> from <= r.value.start && MatchAt(s, r.value.start) == r && PatternAt(s, r.value))
      && (r.Some? ==> forall q: nat :: from <= q < r.value.start ==> MatchAt(s, q).None?)
      && (r.None? ==> forall q: nat :: from <= q ==> MatchAt(s, q).None?)
  {
    MatcherPositional(s);
    var m := Matcher(s);
    var r := Search(m, from, |s|);
    assert NextMatch(s, from) == r;
    forall q: nat
      ensures m(q) == MatchAt(s, q)
    {
    }
    if r.Some? {
      MatchAtSound(s, r.value.start);
    }
  }

  /** The loop visits exactly the matches successive `exec` calls return:
      matches of the pattern, in order and without overlap, none skipped,
      and none at all exactly when the first `exec` finds nothing. */
  lemma MatchesSpec(s: string, from: nat)
    requires from <= |s|
    ensures var ts := Matches(s, from);
      && (forall i :: 0 <= i < |ts| ==> from <= ts[i].start && PatternAt(s, ts[i]))
      && (forall i :: 0 <= i < |ts| - 1 ==> ts[i].End() <= ts[i + 1].start)
      && (|ts| == 0 <==> NextMatch(s, from).None?)
      && (|ts| > 0 ==> NextMatch(s, from) == Some(ts[0]))
      && (forall i :: 0 <= i < |ts| - 1 ==> NextMatch(s, ts[i].End()) == Some(ts[i + 1]))
      && (|ts| > 0 ==> NextMatch(s, ts[|ts| - 1].End()).None?)
  {
    MatchesSound(s, from);
    MatchesChained(s, from);
  }

  /** The loop visits matches of the pattern, in order and without overlap,
      and none exactly when the first `exec` finds nothing. */
  lemma MatchesSound(s: string, from: nat)
    requires from <= |s|
    ensures var ts := Matches(s, from);
      && (forall i :: 0 <= i < |ts| ==> from <= ts[i].start && PatternAt(s, ts[i]))
      && (forall i :: 0 <= i < |ts| - 1 ==> ts[i].End() <= ts[i + 1].start)
      && (|ts| == 0 <==> NextMatch(s, from).None?)
  {
    MatcherPositional(s);
    var ts := Scan(Matcher(s), from, |s|);
    assert Matches(s, from) == ts;
    assert NextMatch(s, from) == Search(Matcher(s), from, |s|);
    ScanHits(Matcher(s), from, |s|);
    forall i | 0 <= i < |ts|
      ensures PatternAt(s, ts[i])
    {
      assert Matcher(s)(ts[i].start) == MatchAt(s, ts[i].start);
      MatchAtSound(s, ts[i].start);
    }
  }

  /** The loop's matches, read through `exec`: the first `exec` gives the
      first match, each `exec` from a match's end gives the next one, and
      the `exec` after the last match finds nothing. */
  lemma MatchesChained(s: string, from: nat)
    requires from <= |s|
    ensures var ts := Matches(s, from);
      && (|ts| > 0 ==> NextMatch(s, from) == Some(ts[0]))
      && (forall i :: 0 <= i < |ts| - 1 ==> NextMatch(s, ts[i].End()) == Some(ts[i + 1]))
      && (|ts| > 0 ==> NextMatch(s, ts[|ts| - 1].End()).None?)
  {
    MatcherPositional(s);
    ScanChained(Matcher(s), from, |s|);
    forall x: nat
      ensures NextMatch(s, x) == Search(Matcher(s), x, |s|)
    {
    }
  }

  /** The chart ids of a list of matches, in order. */
  function Values(ts: seq<Tag>): (vs: seq<nat>)
    ensures |vs| == |ts| && forall i :: 0 <= i < |ts| ==> vs[i] == ts[i].value
  {
    seq(|ts|, i requires 0 <= i < |ts| => ts[i].value)
  }

  /** `ContentSegment`. */
  datatype Segment = Markdown(text: string) | ChartRef(chartId: nat)

  /** A trimmed slice, kept when non-empty. */
  function MarkdownPiece(text: string): (r: seq<Segment>)
    ensures |r| <= 1
    ensures |r| == 1 <==> !AllSpace(text)
    ensures |r| == 1 ==> r[0] == Markdown(Trim(text)) && Trim(text) != "" && IsTrimmed(Trim(text))
  {
    var md := Trim(text);
    if md != "" then [Markdown(md)] else []
  }

  /** Where the `i`-th stretch of text outside the matches begins: the
      first at `last`, every other one at the end of the match before it. */
  function GapStart(ts: seq<Tag>, last: nat, i: nat): nat
    requires i <= |ts|
  {
    if i == 0 then last else ts[i - 1].End()
  }

  /** Whether the matches lie within `[last, n)`, in order, without overlap. */
  predicate Chain(ts: seq<Tag>, last: nat, n: nat) {
    forall i :: 0 <= i < |ts| ==> ts[i].start < ts[i].End() <= n && GapStart(ts, last, i) <= ts[i].start
  }

  /** The text between two positions as markdown: nothing when the range is
      empty or blank, otherwise one trimmed segment. */
  function Gap(content: string, from: nat, to: nat): (r: seq<Segment>)
    requires to <= |content|
    ensures |r| <= 1
    ensures |r| == 1 <==> from < to && !AllSpace(content[from..to])
    ensures |r| == 1 ==> r[0].Markdown? && r[0].text != "" && IsTrimmed(r[0].text)
    ensures |r| == 1 ==> r[0].text == Trim(content[from..to])
  {
    if from < to then MarkdownPiece(content[from..to]) else []
  }

  /** The loop body over the matches and the trailing text. */
  function Build(content: string, last: nat, ts: seq<Tag>): seq<Segment>
    requires last <= |content| && Chain(ts, last, |content|)
    decreases |ts|
  {
    if |ts| == 0 then Gap(content, last, |content|)
    else
      var t := ts[0];
      ChainTail(ts, last, |content|);
      Gap(content, last, t.start) + [ChartRef(t.value)] + Build(content, t.End(), ts[1..])
  }

  /** `parseMessageContent`. */
  function ParseMessageContent(content: string): (r: seq<Segment>)
    ensures r == [] <==> content == ""
  {
    if content == "" then []
    else
      var ts := Matches(content, 0);
      var segs := Build(content, 0, ts);
      if |segs| == 0 then [Markdown(content)] else segs
  }

  /** The chart ids of a segment list, in order. */
  function ChartIds(segs: seq<Segment>): seq<nat>
    decreases |segs|
  {
    if |segs| == 0 then []
    else (if segs[0].ChartRef? then [segs[0].chartId] else []) + ChartIds(segs[1..])
  }

  lemma {:induction false} ChartIdsAppend(a: seq<Segment>, b: seq<Segment>)
    ensures ChartIds(a + b) == ChartIds(a) + ChartIds(b)
    decreases |a|
  {
    if |a| > 0 {
      assert (a + b)[1..] == a[1..] + b;
      ChartIdsAppend(a[1..], b);
    } else {
      assert a + b == b;
    }
  }

  /** Every markdown segment is non-empty and already trimmed. */
  predicate MarkdownTrimmed(segs: seq<Segment>) {
    forall i :: 0 <= i < |segs| && segs[i].Markdown? ==> segs[i].text != "" && IsTrimmed(segs[i].text)
  }

  /** No two markdown segments are next to each other. */
  predicate NoAdjacentMarkdown(segs: seq<Segment>) {
    forall i :: 0 <= i < |segs| - 1 ==> segs[i].ChartRef? || segs[i + 1].ChartRef?
  }

  lemma ConsChartShape(before: seq<Segment>, id: nat, rest: seq<Segment>)
    requires |before| <= 1 && MarkdownTrimmed(before) && MarkdownTrimmed(rest) && NoAdjacentMarkdown(rest)
    ensures var x := before + [ChartRef(id)] + rest;
      MarkdownTrimmed(x) && NoAdjacentMarkdown(x)
  {
    var x := before + [ChartRef(id)] + rest;
    var n := |before|;
    forall i | 0 <= i < |x| && x[i].Markdown?
      ensures x[i].text != "" && IsTrimmed(x[i].text)
    {
      if i < n {
        assert x[i] == before[i];
      } else {
        assert x[i] == rest[i - n - 1];
      }
    }
    forall i | 0 <= i < |x| - 1
      ensures x[i].ChartRef? || x[i + 1].ChartRef?
    {
      if i + 1 == n || i == n {
      } else {
        assert x[i] == rest[i - n - 1] && x[i + 1] == rest[i - n];
      }
    }
  }

  lemma ChainTail(ts: seq<Tag>, last: nat, n: nat)
    requires |ts| > 0 && Chain(ts, last, n)
    ensures Chain(ts[1..], ts[0].End(), n)
  {
    forall i | 0 <= i < |ts[1..]|
      ensures ts[1..][i].start < ts[1..][i].End() <= n && (if i == 0 then ts[0].End() else ts[1..][i - 1].End()) <= ts[1..][i].start
    {
      assert ts[1..][i] == ts[i + 1];
    }
  }

  lemma ChartIdsCons(before: seq<Segment>, id: nat, rest: seq<Segment>)
    requires |before| <= 1 && forall i :: 0 <= i < |before| ==> before[i].Markdown?
    ensures ChartIds(before + [ChartRef(id)] + rest) == [id] + ChartIds(rest)
  {
    var x := [ChartRef(id)] + rest;
    assert x[1..] == rest;
    assert ChartIds(x) == [id] + ChartIds(rest);
    assert before + [ChartRef(id)] + rest == before + x;
    if |before| == 1 {
      var y := before + x;
      assert y[0] == before[0] && y[1..] == x;
      assert ChartIds(y) == ChartIds(x);
    } else {
      assert before + x == x;
    }
  }

  /** What the loop builds: one chart segment per match, in match order,
      with its decimal value; trimmed non-empty markdown between them; never
      two markdown segments in a row. */
  lemma {:induction false} BuildShape(content: string, last: nat, ts: seq<Tag>)
    requires last <= |content| && Chain(ts, last, |content|)
    ensures ChartIds(Build(content, last, ts)) == Values(ts)
    ensures MarkdownTrimmed(Build(content, last, ts))
    ensures NoAdjacentMarkdown(Build(content, last, ts))
    ensures |ts| > 0 ==> |Build(content, last, ts)| > 0
    decreases |ts|
  {
    if |ts| > 0 {
      ChainTail(ts, last, |content|);
      BuildShape(content, ts[0].End(), ts[1..]);
      BuildStep(content, last, ts);
    } else {
      PieceShape(Gap(content, last, |content|));
    }
  }

  /** One step of the loop keeps the shape. */
  lemma BuildStep(content: string, last: nat, ts: seq<Tag>)
    requires last <= |content| && Chain(ts, last, |content|) && |ts| > 0
    requires Chain(ts[1..], ts[0].End(), |content|)
    requires var rest := Build(content, ts[0].End(), ts[1..]);
      ChartIds(rest) == Values(ts[1..]) && MarkdownTrimmed(rest) && NoAdjacentMarkdown(rest)
    ensures ChartIds(Build(content, last, ts)) == Values(ts)
    ensures MarkdownTrimmed(Build(content, last, ts))
    ensures NoAdjacentMarkdown(Build(content, last, ts))
    ensures |Build(content, last, ts)| > 0
  {
    var t := ts[0];
    var before := Gap(content, last, t.start);
    var rest := Build(content, t.End(), ts[1..]);
    assert Build(content, last, ts) == before + [ChartRef(t.value)] + rest;
    PieceShape(before);
    ConsChartShape(before, t.value, rest);
    ChartIdsCons(before, t.value, rest);
    ValuesCons(ts);
  }

  lemma ValuesCons(ts: seq<Tag>)
    requires |ts| > 0
    ensures Values(ts) == [ts[0].value] + Values(ts[1..])
  {
  }

  /** At most one markdown segment: no chart ids, nothing adjacent, and
      trimmed when it is a gap. */
  lemma PieceShape(piece: seq<Segment>)
    requires |piece| <= 1
    requires |piece| == 1 ==> piece[0].Markdown? && piece[0].text != "" && IsTrimmed(piece[0].text)
    ensures ChartIds(piece) == [] && NoAdjacentMarkdown(piece) && MarkdownTrimmed(piece)
    ensures forall i :: 0 <= i < |piece| ==> piece[i].Markdown?
  {
    if |piece| == 1 {
      assert piece[1..] == [];
    }
  }

  /** The segments of `content`: empty content gives none; otherwise the
      chart segments carry the matches' values in order, and, unless the
      content is blank, every markdown segment is trimmed and non-empty and
      none follows another. */
  lemma ParseShape(content: string)
    ensures var r := ParseMessageContent(content);
      && ChartIds(r) == Values(Matches(content, 0))
      && NoAdjacentMarkdown(r)
      && (!AllSpace(content) ==> MarkdownTrimmed(r))
  {
    if content != "" {
      var ts := Matches(content, 0);
      BuildShape(content, 0, ts);
      var segs := Build(content, 0, ts);
      assert ParseMessageContent(content) == if |segs| == 0 then [Markdown(content)] else segs;
      if |segs| == 0 {
        assert segs == Gap(content, 0, |content|);
        assert content[0..|content|] == content;
        SingleSegment(Markdown(content));
      }
    }
  }

  /** Where the `i`-th stretch ends: at the next match, the last at `n`. */
  function GapEnd(ts: seq<Tag>, n: nat, i: nat): nat
    requires i <= |ts|
  {
    if i == |ts| then n else ts[i].start
  }

  /** The `|ts| + 1` stretches of `content` before, between and after the
      matches. */
  function Gaps(content: string, last: nat, ts: seq<Tag>): seq<string>
    requires last <= |content| && Chain(ts, last, |content|)
  {
    seq(|ts| + 1, i requires 0 <= i <= |ts| => content[GapStart(ts, last, i)..GapEnd(ts, |content|, i)])
  }

  /** Each text that is not blank, trimmed, in order. */
  function NonBlankTrimmed(xs: seq<string>): seq<string>
    decreases |xs|
  {
    if |xs| == 0 then []
    else (if AllSpace(xs[0]) then [] else [Trim(xs[0])]) + NonBlankTrimmed(xs[1..])
  }

  /** The texts of the markdown segments, in order. */
  function MarkdownTexts(segs: seq<Segment>): seq<string>
    decreases |segs|
  {
    if |segs| == 0 then []
    else (if segs[0].Markdown? then [segs[0].text] else []) + MarkdownTexts(segs[1..])
  }

  lemma {:induction false} MarkdownTextsAppend(a: seq<Segment>, b: seq<Segment>)
    ensures MarkdownTexts(a + b) == MarkdownTexts(a) + MarkdownTexts(b)
    decreases |a|
  {
    if |a| > 0 {
      assert (a + b)[1..] == a[1..] + b;
      MarkdownTextsAppend(a[1..], b);
    } else {
      assert a + b == b;
    }
  }

  /** The stretches after the first match are the stretches of the rest. */
  lemma GapsCons(content: string, last: nat, ts: seq<Tag>)
    requires last <= |content| && Chain(ts, last, |content|) && |ts| > 0
    requires last <= ts[0].start && Chain(ts[1..], ts[0].End(), |content|)
    ensures Gaps(content, last, ts) == [content[last..ts[0].start]] + Gaps(content, ts[0].End(), ts[1..])
  {
    var g := Gaps(content, last, ts);
    var h := Gaps(content, ts[0].End(), ts[1..]);
    forall i | 1 <= i <= |ts|
      ensures g[i] == h[i - 1]
    {
      assert GapStart(ts, last, i) == GapStart(ts[1..], ts[0].End(), i - 1);
      assert GapEnd(ts, |content|, i) == GapEnd(ts[1..], |content|, i - 1);
    }
    assert g == [g[0]] + h;
  }

  /** A gap's markdown text is the stretch trimmed, or nothing when blank. */
  lemma GapText(content: string, from: nat, to: nat)
    requires from <= to <= |content|
    ensures MarkdownTexts(Gap(content, from, to)) == NonBlankTrimmed([content[from..to]])
  {
    var g := Gap(content, from, to);
    assert [content[from..to]][1..] == [];
    if |g| == 1 {
      assert g[1..] == [];
    }
  }

  /** The markdown the loop emits is, in order, every stretch outside the
      matches that is not blank, trimmed. */
  lemma {:induction false} BuildMarkdownTexts(content: string, last: nat, ts: seq<Tag>)
    requires last <= |content| && Chain(ts, last, |content|)
    ensures MarkdownTexts(Build(content, last, ts)) == NonBlankTrimmed(Gaps(content, last, ts))
    decreases |ts|
  {
    if |ts| == 0 {
      GapText(content, last, |content|);
      assert Gaps(content, last, ts) == [content[last..|content|]];
    } else {
      ChainTail(ts, last, |content|);
      BuildMarkdownTexts(content, ts[0].End(), ts[1..]);
      BuildMarkdownStep(content, last, ts);
    }
  }

  /** One step of the loop: the gap before the first match, then the rest. */
  lemma BuildMarkdownStep(content: string, last: nat, ts: seq<Tag>)
    requires last <= |content| && Chain(ts, last, |content|) && |ts| > 0
    requires Chain(ts[1..], ts[0].End(), |content|)
    requires MarkdownTexts(Build(content, ts[0].End(), ts[1..])) == NonBlankTrimmed(Gaps(content, ts[0].End(), ts[1..]))
    ensures MarkdownTexts(Build(content, last, ts)) == NonBlankTrimmed(Gaps(content, last, ts))
  {
    var t := ts[0];
    BuildCons(content, last, ts);
    GapText(content, last, t.start);
    GapsCons(content, last, ts);
    MarkdownCombine(Gap(content, last, t.start), t.value, Build(content, t.End(), ts[1..]),
      content[last..t.start], Gaps(content, t.End(), ts[1..]));
  }

  /** The loop's output with a first match: the gap before it, its chart,
      then the output for the rest. */
  lemma BuildCons(content: string, last: nat, ts: seq<Tag>)
    requires last <= |content| && Chain(ts, last, |content|) && |ts| > 0
    requires Chain(ts[1..], ts[0].End(), |content|)
    ensures Build(content, last, ts)
         == Gap(content, last, ts[0].start) + ([ChartRef(ts[0].value)] + Build(content, ts[0].End(), ts[1..]))
  {
  }

  lemma MarkdownCombine(before: seq<Segment>, id: nat, rest: seq<Segment>, x: string, hs: seq<string>)
    requires MarkdownTexts(before) == NonBlankTrimmed([x])
    requires MarkdownTexts(rest) == NonBlankTrimmed(hs)
    ensures MarkdownTexts(before + ([ChartRef(id)] + rest)) == NonBlankTrimmed([x] + hs)
  {
    MarkdownTextsAroundChart(before, id, rest);
    NonBlankTrimmedCons(x, hs);
  }

  lemma MarkdownTextsAroundChart(before: seq<Segment>, id: nat, rest: seq<Segment>)
    ensures MarkdownTexts(before + ([ChartRef(id)] + rest)) == MarkdownTexts(before) + MarkdownTexts(rest)
  {
    var tail := [ChartRef(id)] + rest;
    MarkdownTextsAppend(before, tail);
    assert tail[1..] == rest;
  }

  lemma NonBlankTrimmedCons(x: string, h: seq<string>)
    ensures NonBlankTrimmed([x] + h) == NonBlankTrimmed([x]) + NonBlankTrimmed(h)
  {
    assert ([x] + h)[1..] == h;
    assert [x][1..] == [];
  }

  /** A stretch as the loop renders it: nothing when blank, otherwise one
      markdown segment holding it trimmed. */
  function Rendered(text: string): seq<Segment> {
    if AllSpace(text) then [] else [Markdown(Trim(text))]
  }

  /** The rendered stretches with the chart ids between them: stretch 0,
      chart 0, stretch 1, chart 1, ..., the last stretch. */
  function Interleave(gs: seq<string>, ids: seq<nat>): seq<Segment>
    requires |gs| == |ids| + 1
    decreases |ids|
  {
    if |ids| == 0 then Rendered(gs[0])
    else Rendered(gs[0]) + [ChartRef(ids[0])] + Interleave(gs[1..], ids[1..])
  }

  lemma GapRendered(content: string, from: nat, to: nat)
    requires from <= to <= |content|
    ensures Gap(content, from, to) == Rendered(content[from..to])
  {
    var g := Gap(content, from, to);
    if |g| == 1 {
      assert g == [g[0]];
    }
  }

  /** The whole layout of the loop's output: the stretches outside the
      matches, each rendered, alternating with the matches' chart ids. */
  lemma {:induction false} BuildLayout(content: string, last: nat, ts: seq<Tag>)
    requires last <= |content| && Chain(ts, last, |content|)
    ensures Build(content, last, ts) == Interleave(Gaps(content, last, ts), Values(ts))
    decreases |ts|
  {
    if |ts| == 0 {
      GapRendered(content, last, |content|);
      assert Gaps(content, last, ts) == [content[last..|content|]];
    } else {
      ChainTail(ts, last, |content|);
      BuildLayout(content, ts[0].End(), ts[1..]);
      BuildLayoutStep(content, last, ts);
    }
  }

  lemma BuildLayoutStep(content: string, last: nat, ts: seq<Tag>)
    requires last <= |content| && Chain(ts, last, |content|) && |ts| > 0
    requires Chain(ts[1..], ts[0].End(), |content|)
    requires Build(content, ts[0].End(), ts[1..]) == Interleave(Gaps(content, ts[0].End(), ts[1..]), Values(ts[1..]))
    ensures Build(content, last, ts) == Interleave(Gaps(content, last, ts), Values(ts))
  {
    var t := ts[0];
    GapRendered(content, last, t.start);
    GapsCons(content, last, ts);
    ValuesCons(ts);
    var g := Gaps(content, last, ts);
    assert g[0] == content[last..t.start] && g[1..] == Gaps(content, t.End(), ts[1..]);
  }

  /** With a tag or non-blank text the loop's output is non-empty, so it is
      the result. */
  lemma ParseIsBuild(content: string)
    ensures var ts := Matches(content, 0);
      |ts| > 0 || !AllSpace(content) ==> ParseMessageContent(content) == Build(content, 0, ts)
  {
    if content != "" {
      var ts := Matches(content, 0);
      if |ts| == 0 {
        assert Build(content, 0, ts) == Gap(content, 0, |content|);
        assert content[0..|content|] == content;
      } else {
        ChainTail(ts, 0, |content|);
        assert ChartRef(ts[0].value) in Build(content, 0, ts);
      }
    }
  }

  /** The full layout of parsed content with a tag or non-blank text. */
  lemma ParseLayout(content: string)
    ensures var ts := Matches(content, 0);
      |ts| > 0 || !AllSpace(content) ==>
        ParseMessageContent(content) == Interleave(Gaps(content, 0, ts), Values(ts))
  {
    ParseIsBuild(content);
    BuildLayout(content, 0, Matches(content, 0));
  }

  /** The markdown segments of parsed content hold, in order, the trimmed
      text of every non-blank stretch before, between and after the tags.
      Blank content without a tag is the one exception: it is returned as
      is, or as nothing when empty. */
  lemma ParseMarkdownTexts(content: string)
    ensures var ts := Matches(content, 0);
      |ts| > 0 || !AllSpace(content) ==>
        MarkdownTexts(ParseMessageContent(content)) == NonBlankTrimmed(Gaps(content, 0, ts))
    ensures var ts := Matches(content, 0);
      |ts| == 0 && AllSpace(content) ==>
        ParseMessageContent(content) == (if content == "" then [] else [Markdown(content)])
  {
    ParseIsBuild(content);
    BuildMarkdownTexts(content, 0, Matches(content, 0));
    if content != "" && |Matches(content, 0)| == 0 && AllSpace(content) {
      assert Build(content, 0, []) == Gap(content, 0, |content|);
    }
  }

  lemma SingleSegment(seg: Segment)
    requires seg.Markdown?
    ensures ChartIds([seg]) == [] && NoAdjacentMarkdown([seg])
  {
    assert [seg][1..] == [];
  }

  /** Without a tag, non-blank content becomes one markdown segment holding
      the content trimmed; blank content is kept as it is. */
  lemma ParseWithoutTags(content: string)
    requires content != "" && NextMatch(content, 0).None?
    ensures !AllSpace(content) ==> ParseMessageContent(content) == [Markdown(Trim(content))]
    ensures AllSpace(content) ==> ParseMessageContent(content) == [Markdown(content)]
  {
    MatcherPositional(content);
    assert Matches(content, 0) == Scan(Matcher(content), 0, |content|);
    assert Matches(content, 0) == [];
    var g := Gap(content, 0, |content|);
    assert Build(content, 0, []) == g;
    assert content[0..|content|] == content;
  }

  /** The values in order of first occurrence, without repeats (the
      `ids.includes` check). */
  function Dedup(xs: seq<nat>): (r: seq<nat>)
    ensures forall x :: x in r <==> x in xs
    ensures forall i, j :: 0 <= i < j < |r| ==> r[i] != r[j]
    decreases |xs|
  {
    if |xs| == 0 then []
    else
      var init := Dedup(xs[..|xs| - 1]);
      assert forall x :: x in xs <==> x in xs[..|xs| - 1] || x == xs[|xs| - 1];
      if xs[|xs| - 1] in init then init else init + [xs[|xs| - 1]]
  }

  /** The index of the first occurrence of `x` in `xs`. */
  function FirstIndex(xs: seq<nat>, x: nat): (k: nat)
    requires x in xs
    ensures k < |xs| && xs[k] == x && forall j :: 0 <= j < k ==> xs[j] != x
    decreases |xs|
  {
    if xs[0] == x then 0 else 1 + FirstIndex(xs[1..], x)
  }

  lemma FirstIndexPrefix(xs: seq<nat>, x: nat, n: nat)
    requires n <= |xs| && x in xs[..n]
    ensures FirstIndex(xs, x) == FirstIndex(xs[..n], x)
  {
    var k := FirstIndex(xs[..n], x);
    assert xs[..n][k] == xs[k];
    forall j | 0 <= j < k
      ensures xs[j] != x
    {
      assert xs[..n][j] == xs[j];
    }
  }

  lemma FirstIndexOfNew(xs: seq<nat>)
    requires |xs| > 0 && xs[|xs| - 1] !in xs[..|xs| - 1]
    ensures FirstIndex(xs, xs[|xs| - 1]) == |xs| - 1
  {
    var n := |xs| - 1;
    forall j | 0 <= j < n
      ensures xs[j] != xs[n]
    {
      assert xs[..n][j] == xs[j];
    }
  }

  /** `Dedup` keeps first-occurrence order. */
  lemma {:induction false} DedupOrder(xs: seq<nat>)
    ensures forall i, j :: 0 <= i < j < |Dedup(xs)| ==> FirstIndex(xs, Dedup(xs)[i]) < FirstIndex(xs, Dedup(xs)[j])
    decreases |xs|
  {
    if |xs| > 0 {
      var n := |xs| - 1;
      var init := xs[..n];
      DedupOrder(init);
      var d := Dedup(init);
      var r := Dedup(xs);
      if xs[n] in d {
        assert r == d;
        forall i, j | 0 <= i < j < |r|
          ensures FirstIndex(xs, r[i]) < FirstIndex(xs, r[j])
        {
          assert r[i] == d[i] && r[j] == d[j] && d[i] in d && d[j] in d;
          assert FirstIndex(init, d[i]) < FirstIndex(init, d[j]);
          FirstIndexPrefix(xs, r[i], n);
          FirstIndexPrefix(xs, r[j], n);
        }
      } else {
        assert r == d + [xs[n]];
        FirstIndexOfNew(xs);
        forall i, j | 0 <= i < j < |r|
          ensures FirstIndex(xs, r[i]) < FirstIndex(xs, r[j])
        {
          assert r[i] == d[i] && d[i] in d;
          FirstIndexPrefix(xs, r[i], n);
          if j < |d| {
            assert r[j] == d[j] && d[j] in d;
            FirstIndexPrefix(xs, r[j], n);
          }
        }
      }
    }
  }

  /** `getReferencedChartIds`. */
  function GetReferencedChartIds(content: string): (ids: seq<nat>)
    ensures forall i, j :: 0 <= i < j < |ids| ==> ids[i] != ids[j]
    ensures forall x :: x in ids <==> x in Values(Matches(content, 0))
  {
    Dedup(Values(Matches(content, 0)))
  }

  /** `hasChartPlaceholders`: a fresh search from the start finds a tag. */
  predicate HasChartPlaceholders(content: string): (b: bool)
    ensures b <==> exists q: nat :: MatchAt(content, q).Some?
  {
    NextMatchSpec(content, 0);
    NextMatch(content, 0).Some?
  }

  lemma PlaceholdersIffIds(content: string)
    ensures HasChartPlaceholders(content) <==> |GetReferencedChartIds(content)| > 0
  {
    var vs := Values(Matches(content, 0));
    if HasChartPlaceholders(content) {
      assert vs[0] in vs;
    } else {
      assert vs == [];
    }
  }

  /** The indices `k < n` whose global id `offset + k + 1` is not referenced,
      in increasing order. */
  function KeptIndices(n: nat, refs: seq<nat>, offset: int): (ks: seq<nat>)
    ensures forall j :: 0 <= j < |ks| ==> ks[j] < n
    ensures forall j, l :: 0 <= j < l < |ks| ==> ks[j] < ks[l]
    ensures forall k :: 0 <= k < n ==> (k in ks <==> offset + k + 1 !in refs)
    decreases n
  {
    if n == 0 then []
    else
      var init := KeptIndices(n - 1, refs, offset);
      if offset + (n - 1) + 1 in refs then init else init + [n - 1]
  }

  /** `getUnreferencedCharts`: the charts whose global id the content does
      not reference, in their original order. */
  function GetUnreferencedCharts(content: string, charts: seq<string>, offset: int): (r: seq<string>)
    ensures |charts| == 0 ==> r == []
    ensures var ks := KeptIndices(|charts|, GetReferencedChartIds(content), offset);
      |r| == |ks| && forall j :: 0 <= j < |ks| ==> r[j] == charts[ks[j]]
  {
    if |charts| == 0 then []
    else
      var ks := KeptIndices(|charts|, GetReferencedChartIds(content), offset);
      seq(|ks|, j requires 0 <= j < |ks| => charts[ks[j]])
  }
}

=== FILE: date_utils.dfy ===
/** The date helpers of `src/utils/date.ts`: the buckets of `formatRelative`
    over a millisecond distance, and the zero-padded layout of
    `formatForFilename`. The clock and the locale renderings are inputs. */
module DateUtils {
  import opened Wrappers
  import opened Strings

  const MsPerMinute: nat := 1000 * 60
  const MsPerHour: nat := 1000 * 60 * 60
  const MsPerDay: nat := 1000 * 60 * 60 * 24

  /** The branch of `formatRelative` a distance falls in. */
  datatype Relative =
    | JustNow
    | MinutesAgo(minutes: nat)
    | HoursAgo(hours: nat)
    | TimeOfDay
    | Yesterday
    | DaysAgo(days: nat)
    | CalendarDate

  /** `Math.abs(now - date)` on millisecond timestamps. */
  function Distance(now: int, date: int): (d: nat)
    ensures d == now - date || d == date - now
  {
    if now >= date then now - date else date - now
  }

  /** The cascade of tests on the floored minute, hour and day counts. */
  function Classify(diff: nat): Relative {
    var days := diff / MsPerDay;
    var hours := diff / MsPerHour;
    var minutes := diff / MsPerMinute;
    if minutes < 1 then JustNow
    else if minutes < 60 then MinutesAgo(minutes)
    else if hours < 24 then HoursAgo(hours)
    else if days == 0 then TimeOfDay
    else if days == 1 then Yesterday
    else if days < 7 then DaysAgo(days)
    else CalendarDate
  }

  /** `"<n> <unit>"`, with an `s` unless `n` is 1, then `" ago"`. */
  function Counted(n: nat, unit: string): string {
    NatToString(n) + " " + unit + (if n != 1 then "s" else "") + " ago"
  }

  /** The text of each branch; `timeText` and `dateText` stand for the
      locale's `toLocaleTimeString` and `toLocaleDateString` of the date. */
  function Render(k: Relative, timeText: string, dateText: string): string {
    match k
    case JustNow => "Just now"
    case MinutesAgo(m) => Counted(m, "minute")
    case HoursAgo(h) => Counted(h, "hour")
    case TimeOfDay => timeText
    case Yesterday => "Yesterday"
    case DaysAgo(d) => Counted(d, "day")
    case CalendarDate => dateText
  }

  /** `formatRelative` at clock reading `now` for the date `date`. */
  function FormatRelative(now: int, date: int, timeText: string, dateText: string): string {
    Render(Classify(Distance(now, date)), timeText, dateText)
  }

  /** Each bucket is a band of distances, independent of the divisions:
      under a minute, under an hour, under a day, under two days, under a
      week, and the rest; the count in a bucket is the floored quotient. */
  lemma ClassifyBands(diff: nat)
    ensures Classify(diff) == JustNow <==> diff < MsPerMinute
    ensures Classify(diff).MinutesAgo? <==> MsPerMinute <= diff < MsPerHour
    ensures Classify(diff).HoursAgo? <==> MsPerHour <= diff < MsPerDay
    ensures Classify(diff) == Yesterday <==> MsPerDay <= diff < 2 * MsPerDay
    ensures Classify(diff).DaysAgo? <==> 2 * MsPerDay <= diff < 7 * MsPerDay
    ensures Classify(diff) == CalendarDate <==> 7 * MsPerDay <= diff
    ensures Classify(diff).MinutesAgo? ==>
      var m := Classify(diff).minutes; 1 <= m < 60 && m * MsPerMinute <= diff < (m + 1) * MsPerMinute
    ensures Classify(diff).HoursAgo? ==>
      var h := Classify(diff).hours; 1 <= h < 24 && h * MsPerHour <= diff < (h + 1) * MsPerHour
    ensures Classify(diff).DaysAgo? ==>
      var d := Classify(diff).days; 2 <= d < 7 && d * MsPerDay <= diff < (d + 1) * MsPerDay
  {
    TimeOfDayUnreachable(diff);
  }

  /** The `diffDays === 0` branch is dead: 24 hours or more is at least a
      day. */
  lemma TimeOfDayUnreachable(diff: nat)
    ensures Classify(diff) != TimeOfDay
  {
    if diff / MsPerHour >= 24 {
      assert diff >= 24 * MsPerHour;
      assert diff / MsPerDay >= 1;
    }
  }

  /** The text depends only on the distance, so a date as far in the future
      reads like one as far in the past. */
  lemma FormatRelativeSymmetric(date: int, ahead: nat, timeText: string, dateText: string)
    ensures FormatRelative(date + ahead, date, timeText, dateText) == FormatRelative(date - ahead, date, timeText, dateText)
  {
  }

  /** Under a minute reads `Just now`; from one to 59 minutes it reads
      `"m minute(s) ago"`, singular exactly when m is 1. */
  lemma FormatRelativeMinutes(now: int, date: int, timeText: string, dateText: string)
    ensures Distance(now, date) < MsPerMinute ==> FormatRelative(now, date, timeText, dateText) == "Just now"
    ensures MsPerMinute <= Distance(now, date) < MsPerHour ==>
      var m := Distance(now, date) / MsPerMinute;
      && 1 <= m < 60
      && FormatRelative(now, date, timeText, dateText) == NatToString(m) + (if m == 1 then " minute ago" else " minutes ago")
      && (m == 1 <==> Distance(now, date) < 2 * MsPerMinute)
  {
    var diff := Distance(now, date);
    ClassifyBands(diff);
    if MsPerMinute <= diff < MsPerHour {
      var m := diff / MsPerMinute;
      assert m * MsPerMinute <= diff < (m + 1) * MsPerMinute;
      assert NatToString(m) + " " + "minute" + (if m != 1 then "s" else "") + " ago"
          == NatToString(m) + (if m == 1 then " minute ago" else " minutes ago");
    }
  }

  /** From one to 23 hours it reads `"h hour(s) ago"`. */
  lemma FormatRelativeHours(now: int, date: int, timeText: string, dateText: string)
    requires MsPerHour <= Distance(now, date) < MsPerDay
    ensures var h := Distance(now, date) / MsPerHour;
      && 1 <= h < 24
      && FormatRelative(now, date, timeText, dateText) == NatToString(h) + (if h == 1 then " hour ago" else " hours ago")
  {
    var diff := Distance(now, date);
    ClassifyBands(diff);
    var h := diff / MsPerHour;
    assert NatToString(h) + " " + "hour" + (if h != 1 then "s" else "") + " ago"
        == NatToString(h) + (if h == 1 then " hour ago" else " hours ago");
  }

  /** One day reads `Yesterday`; two to six days `"n days ago"`, never
      singular; a week or more the locale's date. */
  lemma FormatRelativeDays(now: int, date: int, timeText: string, dateText: string)
    requires MsPerDay <= Distance(now, date)
    ensures Distance(now, date) < 2 * MsPerDay ==> FormatRelative(now, date, timeText, dateText) == "Yesterday"
    ensures 2 * MsPerDay <= Distance(now, date) < 7 * MsPerDay ==>
      var d := Distance(now, date) / MsPerDay;
      2 <= d <= 6 && FormatRelative(now, date, timeText, dateText) == NatToString(d) + " days ago"
    ensures 7 * MsPerDay <= Distance(now, date) ==> FormatRelative(now, date, timeText, dateText) == dateText
  {
    var diff := Distance(now, date);
    ClassifyBands(diff);
    if 2 * MsPerDay <= diff < 7 * MsPerDay {
      var d := diff / MsPerDay;
      assert NatToString(d) + " " + "day" + "s" + " ago" == NatToString(d) + " days ago";
    }
  }

  /** `padStart(len, fill)`: `fill` repeated in front of `s` up to `len`
      characters; a longer `s` is left alone. */
  function PadStart(s: string, len: nat, fill: char): (r: string)
    ensures |r| == if |s| >= len then |s| else len
    ensures r[|r| - |s|..] == s
    ensures forall i :: 0 <= i < |r| - |s| ==> r[i] == fill
  {
    if |s| >= len then s else seq(len - |s|, _ => fill) + s
  }

  /** The `pad` helper: a number's decimal text padded to two digits. */
  function Pad(n: nat): (r: string)
    ensures AllDigits(r)
  {
    var s := NatToString(n);
    var r := PadStart(s, 2, '0');
    assert forall i :: |r| - |s| <= i < |r| ==> r[i] == s[i - (|r| - |s|)];
    r
  }

  /** A leading zero does not change the parsed value. */
  lemma {:induction false} DigitsValueLeadingZero(s: string)
    requires AllDigits(s)
    ensures DigitsValue("0" + s) == DigitsValue(s)
    decreases |s|
  {
    if |s| > 0 {
      var t := "0" + s;
      assert t[..|t| - 1] == "0" + s[..|s| - 1];
      DigitsValueLeadingZero(s[..|s| - 1]);
    }
  }

  /** Below 100, `pad` gives exactly two digits that parse back to the
      number; from 100 on it is the plain decimal text. */
  lemma PadRoundTrip(n: nat)
    ensures n < 100 ==> |Pad(n)| == 2 && DigitsValue(Pad(n)) == n
    ensures n >= 100 ==> Pad(n) == NatToString(n)
  {
    var s := NatToString(n);
    DigitsValueOfNatToString(n);
    if n < 10 {
      assert Pad(n) == "0" + s;
      DigitsValueLeadingZero(s);
    } else if n < 100 {
      assert n / 10 < 10;
      assert |s| == 2;
    } else {
      assert n / 10 >= 10;
      assert |s| >= 3;
    }
  }

  /** The calendar fields a `Date` reports, with `month0` 0-based as
      `getMonth()` gives it. */
  datatype Stamp = Stamp(year: nat, month0: nat, day: nat, hours: nat, minutes: nat, seconds: nat)

  /** `formatForFilename`: `Y-MM-DD_HH-mm-ss`, the month shifted to 1-based. */
  function FormatForFilename(d: Stamp): string {
    DateGroup(d) + "_" + TimeGroup(d)
  }

  function DateGroup(d: Stamp): string {
    NatToString(d.year) + "-" + Pad(d.month0 + 1) + "-" + Pad(d.day)
  }

  function TimeGroup(d: Stamp): string {
    Pad(d.hours) + "-" + Pad(d.minutes) + "-" + Pad(d.seconds)
  }

  /** The fields as a `Date` holds them. */
  predicate ValidStamp(d: Stamp) {
    d.month0 < 12 && 1 <= d.day <= 31 && d.hours < 24 && d.minutes < 60 && d.seconds < 60
  }

  /** A non-empty run of decimal digits, as `parseInt` reads it whole. */
  predicate Numeral(s: string) {
    |s| > 0 && AllDigits(s)
  }

  /** The three numbers of a group `x-y-z` of digit runs. */
  function ParseGroup(s: string): Option<(nat, nat, nat)> {
    var parts := Split(s, '-');
    if |parts| == 3 && Numeral(parts[0]) && Numeral(parts[1]) && Numeral(parts[2]) then
      Some((DigitsValue(parts[0]), DigitsValue(parts[1]), DigitsValue(parts[2])))
    else None
  }

  /** Reads a file-name stamp back into its fields. */
  function ParseFilenameStamp(s: string): Option<Stamp> {
    StampOfHalves(Split(s, '_'), ParseGroup)
  }

  /** The stamp from a date half and a time half, each read by `group`. */
  function StampOfHalves(halves: seq<string>, group: string -> Option<(nat, nat, nat)>): Option<Stamp> {
    if |halves| != 2 then None else StampOf(group(halves[0]), group(halves[1]))
  }

  /** The stamp with the date group `y-m-d` (month 1-based) and the time
      group `h-m-s`. */
  function StampOf(date: Option<(nat, nat, nat)>, time: Option<(nat, nat, nat)>): Option<Stamp> {
    if date.Some? && time.Some? && date.value.1 >= 1 then
      Some(Stamp(date.value.0, date.value.1 - 1, date.value.2, time.value.0, time.value.1, time.value.2))
    else None
  }

  lemma DigitsHaveNoSeparator(s: string, sep: char)
    requires AllDigits(s) && !IsDigit(sep)
    ensures sep !in s
  {
    assert forall k :: 0 <= k < |s| ==> s[k] != sep;
  }

  /** Three digit runs joined with `-` split back into themselves. */
  lemma SplitThree(a: string, b: string, c: string)
    requires AllDigits(a) && AllDigits(b) && AllDigits(c)
    ensures Split(a + "-" + b + "-" + c, '-') == [a, b, c]
  {
    var parts := [a, b, c];
    DigitsHaveNoSeparator(a, '-');
    DigitsHaveNoSeparator(b, '-');
    DigitsHaveNoSeparator(c, '-');
    JoinThree(a, b, c, "-");
    SplitJoin(parts, '-');
  }

  lemma NoUnderscoreInGroup(a: string, b: string, c: string)
    requires AllDigits(a) && AllDigits(b) && AllDigits(c)
    ensures '_' !in a + "-" + b + "-" + c
  {
    DigitsHaveNoSeparator(a, '_');
    DigitsHaveNoSeparator(b, '_');
    DigitsHaveNoSeparator(c, '_');
  }

  /** Three digit runs joined with `-` parse back to their values. */
  lemma ParseGroupOfJoin(a: string, b: string, c: string)
    requires |a| > 0 && |b| > 0 && |c| > 0 && AllDigits(a) && AllDigits(b) && AllDigits(c)
    ensures ParseGroup(a + "-" + b + "-" + c) == Some((DigitsValue(a), DigitsValue(b), DigitsValue(c)))
  {
    SplitThree(a, b, c);
  }

  /** A valid stamp's file name parses back to the same fields, the month
      included. */
  lemma FilenameRoundTrip(d: Stamp)
    requires ValidStamp(d)
    ensures ParseFilenameStamp(FormatForFilename(d)) == Some(d)
  {
    DateGroupParses(d);
    TimeGroupParses(d);
    SplitHalves(DateGroup(d), TimeGroup(d));
  }

  lemma DateGroupParses(d: Stamp)
    requires ValidStamp(d)
    ensures '_' !in DateGroup(d)
    ensures ParseGroup(DateGroup(d)) == Some((d.year, d.month0 + 1, d.day))
  {
    var y := NatToString(d.year);
    var m := Pad(d.month0 + 1);
    var dd := Pad(d.day);
    DigitsValueOfNatToString(d.year);
    assert AllDigits(y) && |y| > 0;
    PadRoundTrip(d.month0 + 1);
    PadRoundTrip(d.day);
    ParseGroupOfJoin(y, m, dd);
    NoUnderscoreInGroup(y, m, dd);
    assert DateGroup(d) == y + "-" + m + "-" + dd;
  }

  lemma TimeGroupParses(d: Stamp)
    requires ValidStamp(d)
    ensures '_' !in TimeGroup(d)
    ensures ParseGroup(TimeGroup(d)) == Some((d.hours, d.minutes, d.seconds))
  {
    PadRoundTrip(d.hours);
    PadRoundTrip(d.minutes);
    PadRoundTrip(d.seconds);
    ParseGroupOfJoin(Pad(d.hours), Pad(d.minutes), Pad(d.seconds));
    NoUnderscoreInGroup(Pad(d.hours), Pad(d.minutes), Pad(d.seconds));
  }

  lemma SplitHalves(a: string, b: string)
    requires '_' !in a && '_' !in b
    ensures Split(a + "_" + b, '_') == [a, b]
  {
    JoinTwo(a, b, "_");
    assert forall i :: 0 <= i < |[a, b]| ==> '_' !in [a, b][i];
    SplitJoin([a, b], '_');
  }
}

=== FILE: seqs.dfy ===
/** Sequence searches and edits the stores use: `Array.prototype.findIndex`
    and `splice(i, 1)`. */
module Seqs {
  import opened Wrappers

  /** `findIndex`: the least index whose element satisfies `p`, or `None`
      (JavaScript's `-1`). */
  function FindFirst<T>(s: seq<T>, p: T -> bool): (r: Option<nat>)
    ensures r.Some? ==> r.value < |s| && p(s[r.value])
    ensures r.Some? ==> forall j :: 0 <= j < r.value ==> !p(s[j])
    ensures r.None? <==> forall j :: 0 <= j < |s| ==> !p(s[j])
    decreases |s|
  {
    if |s| == 0 then None
    else if p(s[0]) then Some(0)
    else
      match FindFirst(s[1..], p)
      case None => None
      case Some(k) => Some(k + 1)
  }

  /** `splice(i, 1)`: the element at `i` removed, the others in order. */
  function RemoveAt<T>(s: seq<T>, i: nat): (r: seq<T>)
    requires i < |s|
    ensures |r| == |s| - 1
    ensures forall j :: 0 <= j < i ==> r[j] == s[j]
    ensures forall j :: i <= j < |r| ==> r[j] == s[j + 1]
  {
    s[..i] + s[i + 1..]
  }

  lemma AppendAssoc<T>(a: seq<T>, b: seq<T>, c: seq<T>)
    ensures a + b + c == a + (b + c)
  {
  }
}

=== FILE: store_stream.dfy ===
/** The chat store's request cycle (`sendMessageToAPI` and its stream loop in
    `src/stores/chat.ts`). The loop keeps the running text in
    `responseContent` and copies it into the placeholder after every chunk;
    the placeholder starts with `''` and nothing else writes its text during
    the loop, so the fold below keeps the text in the message itself. */
module StoreStream {
  import opened Wrappers
  import opened Strings
  import opened ChatTypes
  import opened Stream
  import opened ChatStore
  import ChatComponent

  /** The text `responseContent += content` appends: JavaScript renders an
      absent `content` as `undefined`. */
  function ChunkPiece(content: Option<string>): (r: string)
    ensures content.Some? ==> r == content.value
    ensures content.None? ==> r == "undefined"
  {
    match content
    case Some(s) => s
    case None => "undefined"
  }

  /** The store's tool input: an array joined with `", "`, otherwise
      `JSON.stringify(input)`, which yields `undefined` for an absent input. */
  function StoreInput(v: Json, stringify: Json -> string): (r: Option<string>)
    ensures r.None? <==> v == JUndefined
    ensures v.JArray? ==> r == Some(JoinElements(v.items, ", "))
    ensures !v.JArray? && v != JUndefined ==> r == Some(Serialize(stringify, v))
  {
    match v
    case JUndefined => None
    case JArray(items) => Some(JoinElements(items, ", "))
    case _ => Some(Serialize(stringify, v))
  }

  /** The tool a `tool_start` record appends in the store: the bare `tool`
      field as name (possibly undefined), and `reasoning || ''`. */
  function StoreTool(p: Payload, stringify: Json -> string): (t: Tool)
    ensures t.name == p.tool && t.input == StoreInput(p.input, stringify)
    ensures Present(p.reasoning) ==> t.reasoning == p.reasoning.value
    ensures !Present(p.reasoning) ==> t.reasoning == ""
  {
    Tool(p.tool, StoreInput(p.input, stringify), TextOr(p.reasoning, ""))
  }

  /** The per-record step of the store's loop. Only `tool_start` and `chunk`
      records act; the expand flag is set when the tool list reaches length
      one. */
  function StoreEvent(m: Message, p: Payload, stringify: Json -> string): (r: Message)
    ensures r.id == m.id && r.role == m.role && r.isLoading == m.isLoading
    ensures r.charts == m.charts && r.timestamp == m.timestamp
    ensures IsToolStart(p) ==> r.tools == Some(ToolsOf(m) + [StoreTool(p, stringify)]) && r.content == m.content
    ensures IsToolStart(p) ==> r.thinkingExpanded == (if |ToolsOf(m)| == 0 then Some(true) else m.thinkingExpanded)
    ensures IsChunk(p) ==> r == m.(content := m.content + ChunkPiece(p.content))
    ensures !IsToolStart(p) && !IsChunk(p) ==> r == m
  {
    if IsToolStart(p) then
      var tools := ToolsOf(m) + [StoreTool(p, stringify)];
      m.(tools := Some(tools), thinkingExpanded := if |tools| == 1 then Some(true) else m.thinkingExpanded)
    else if IsChunk(p) then
      m.(content := m.content + ChunkPiece(p.content))
    else m
  }

  function StoreReduce(m: Message, ps: seq<Payload>, stringify: Json -> string): (r: Message)
    ensures r.id == m.id && r.role == m.role && r.isLoading == m.isLoading
    ensures r.charts == m.charts && r.timestamp == m.timestamp
    ensures m.content <= r.content
    decreases |ps|
  {
    if |ps| == 0 then m
    else StoreEvent(StoreReduce(m, ps[..|ps| - 1], stringify), ps[|ps| - 1], stringify)
  }

  // Reference accumulations for the store's loop.

  function StoreChunkText(ps: seq<Payload>): string
    decreases |ps|
  {
    if |ps| == 0 then ""
    else StoreChunkText(ps[..|ps| - 1]) + (if IsChunk(ps[|ps| - 1]) then ChunkPiece(ps[|ps| - 1].content) else "")
  }

  function StoreTools(ps: seq<Payload>, stringify: Json -> string): seq<Tool>
    decreases |ps|
  {
    if |ps| == 0 then []
    else StoreTools(ps[..|ps| - 1], stringify) + (if IsToolStart(ps[|ps| - 1]) then [StoreTool(ps[|ps| - 1], stringify)] else [])
  }

  /** There is a tool exactly when there is a `tool_start` record. */
  lemma {:induction false} StoreToolsNonEmpty(ps: seq<Payload>, stringify: Json -> string)
    ensures |StoreTools(ps, stringify)| > 0 <==> HasToolStart(ps)
    decreases |ps|
  {
    if |ps| > 0 {
      var init := ps[..|ps| - 1];
      StoreToolsNonEmpty(init, stringify);
      HasToolStartSnoc(ps);
    }
  }

  lemma HasToolStartSnoc(ps: seq<Payload>)
    requires |ps| > 0
    ensures HasToolStart(ps) <==> HasToolStart(ps[..|ps| - 1]) || IsToolStart(ps[|ps| - 1])
  {
    var init := ps[..|ps| - 1];
    if HasToolStart(init) {
      var i :| 0 <= i < |init| && IsToolStart(init[i]);
      assert ps[i] == init[i];
    }
    if HasToolStart(ps) && !IsToolStart(ps[|ps| - 1]) {
      var i :| 0 <= i < |ps| && IsToolStart(ps[i]);
      assert init[i] == ps[i];
    }
  }

  /** What the store's loop does to the placeholder: the text is the
      initial text followed by every chunk's piece in arrival order (an
      absent `content` contributing `undefined`); the tools are appended in
      order; the expand flag is set only when a tool lands in an empty list;
      nothing else changes. */
  lemma {:induction false} StoreReduceSpec(m: Message, ps: seq<Payload>, stringify: Json -> string)
    ensures var r := StoreReduce(m, ps, stringify);
      && r.id == m.id && r.role == m.role && r.isLoading == m.isLoading
      && r.charts == m.charts && r.timestamp == m.timestamp
      && r.content == m.content + StoreChunkText(ps)
      && ToolsOf(r) == ToolsOf(m) + StoreTools(ps, stringify)
      && (HasToolStart(ps) ==> r.tools.Some?)
      && (!HasToolStart(ps) ==> r.tools == m.tools)
      && r.thinkingExpanded == (if |ToolsOf(m)| == 0 && HasToolStart(ps) then Some(true) else m.thinkingExpanded)
    decreases |ps|
  {
    if |ps| > 0 {
      var init := ps[..|ps| - 1];
      StoreReduceSpec(m, init, stringify);
      StoreToolsNonEmpty(init, stringify);
      HasToolStartSnoc(ps);
    }
  }

  /** The two reducers agree on the text exactly when no chunk lacks its
      `content`: the component appends `''` where the store appends
      `undefined`. */
  lemma {:induction false} ChunkTextsAgree(ps: seq<Payload>)
    requires forall i :: 0 <= i < |ps| && IsChunk(ps[i]) ==> ps[i].content.Some?
    ensures StoreChunkText(ps) == ChatComponent.ChunkText(ps)
    decreases |ps|
  {
    if |ps| > 0 {
      var init := ps[..|ps| - 1];
      assert forall i :: 0 <= i < |init| ==> init[i] == ps[i];
      ChunkTextsAgree(init);
    }
  }

  /** A single chunk without `content` shows the difference. */
  lemma ChunkTextsDiffer(p: Payload)
    requires IsChunk(p) && p.content.None?
    ensures StoreChunkText([p]) == "undefined" && ChatComponent.ChunkText([p]) == ""
  {
    assert [p][..0] == [];
  }

  /** The request body: `model_id` only when a model is selected. */
  function StoreRequest(query: string, conversationId: string, selectedModel: string): (b: ChatRequest)
    ensures b.query == query && b.conversationId == conversationId
    ensures b.modelId.Some? <==> selectedModel != ""
    ensures b.modelId.Some? ==> b.modelId.value == selectedModel
  {
    ChatRequest(query, conversationId, if selectedModel != "" then Some(selectedModel) else None)
  }

  /** The placeholder pushed once the response passes its checks. */
  function Placeholder(id: string): Message {
    Message(id, Assistant, "", Some([]), None, Some(false), Some(true), None)
  }

  /** The state when the request goes out: a fresh conversation when none is
      set, and a live controller. */
  function Started(st: StoreState, uuid: string): (r: StoreState)
    ensures r.conversationId == (if Present(st.conversationId) then st.conversationId else Some(uuid))
    ensures r.messages == (if Present(st.conversationId) then st.messages else [])
    ensures r.hasController
    ensures r == st.(messages := r.messages, conversationId := r.conversationId, hasController := true)
  {
    (if !Present(st.conversationId) then ResetConversation(st, uuid) else st).(hasController := true)
  }

  /** The request the store sends for `userMessage`. */
  function SentRequest(st: StoreState, userMessage: string, uuid: string): (b: ChatRequest)
    ensures b.conversationId == (if Present(st.conversationId) then st.conversationId.value else uuid)
    ensures b.modelId.Some? <==> st.selectedModel != ""
  {
    StoreRequest(userMessage, Started(st, uuid).conversationId.value, st.selectedModel)
  }

  /** The `catch` block: an `AbortError` is silent, anything else is shown. */
  function Fail(st: StoreState, aborted: bool, message: string): (r: StoreState)
    ensures aborted ==> r == st
    ensures !aborted ==> r == st.(errorMessage := "Error: " + message)
  {
    if aborted then st else st.(errorMessage := "Error: " + message)
  }

  /** The end of a complete stream: the placeholder stops loading, an
      untitled chat with exactly one user message is named, and the chat is
      saved. */
  function Complete(st: StoreState, now: string, saveUuid: string): (r: StoreState)
    requires |st.messages| > 0
    ensures r.messages == st.messages[|st.messages| - 1 := st.messages[|st.messages| - 1].(isLoading := Some(false))]
    ensures r.errorMessage == st.errorMessage && r.conversationId == st.conversationId
  {
    SaveCurrentChat(NameIfFirst(FinishLast(st)), now, saveUuid)
  }

  /** `messages[assistantIndex].isLoading = false`. */
  function FinishLast(st: StoreState): (r: StoreState)
    requires |st.messages| > 0
    ensures r == st.(messages := r.messages)
    ensures r.messages == st.messages[|st.messages| - 1 := st.messages[|st.messages| - 1].(isLoading := Some(false))]
  {
    var last := |st.messages| - 1;
    st.(messages := st.messages[last := st.messages[last].(isLoading := Some(false))])
  }

  /** An untitled chat with exactly one user message is named after it. */
  function NameIfFirst(st: StoreState): (r: StoreState)
    ensures r == st.(currentChatTitle := r.currentChatTitle)
    ensures st.currentChatTitle != "" ==> r == st
    ensures st.currentChatTitle == "" && CountUsers(st.messages) == 1 ==> r.currentChatTitle == GenerateChatTitle(st.messages)
  {
    if st.currentChatTitle == "" && CountUsers(st.messages) == 1 then st.(currentChatTitle := GenerateChatTitle(st.messages)) else st
  }

  /** Whether the response passed both checks, so that a placeholder exists. */
  predicate Accepted(x: Exchange) {
    x.Responded? && x.hasBody && x.ok
  }

  /** The `catch` block for a response that never got a placeholder. */
  function EarlyFailure(st: StoreState, x: Exchange): (r: StoreState)
    requires !Accepted(x)
    ensures r.messages == st.messages && r.chatHistory == st.chatHistory && r.conversationId == st.conversationId
    ensures x.Rejected? && x.aborted ==> r.errorMessage == st.errorMessage
    ensures x.Rejected? && !x.aborted ==> r.errorMessage == "Error: " + x.message
    ensures x.Responded? && !x.hasBody ==> r.errorMessage == "Error: No response body"
    ensures x.Responded? && x.hasBody && !x.ok ==> r.errorMessage == "Error: API Error: " + IntToString(x.status)
  {
    match x
    case Rejected(aborted, message) => Fail(st, aborted, message)
    case Responded(hasBody, _, status, _, _) =>
      if !hasBody then Fail(st, false, "No response body")
      else Fail(st, false, "API Error: " + IntToString(status))
  }

  /** An accepted response: the placeholder is pushed, the stream folded into
      it, and the end handled. */
  function Respond(st: StoreState, placeholderId: string, ps: seq<Payload>, end: StreamEnd,
                   stringify: Json -> string, now: string, saveUuid: string): (r: StoreState)
    ensures |r.messages| == |st.messages| + 1
    ensures r.messages[..|st.messages|] == st.messages
    ensures r.messages[|st.messages|] == StoreReduce(Placeholder(placeholderId), ps, stringify).(isLoading := Some(!end.Finished?))
    ensures r.conversationId == st.conversationId
    ensures end.Finished? || end.aborted ==> r.errorMessage == st.errorMessage
    ensures end.Interrupted? && !end.aborted ==> r.errorMessage == "Error: " + end.message
  {
    var folded := StoreReduce(Placeholder(placeholderId), ps, stringify);
    StoreReduceSpec(Placeholder(placeholderId), ps, stringify);
    var streaming := st.(messages := st.messages + [folded], isTyping := false);
    assert streaming.messages[..|st.messages|] == st.messages;
    match end
    case Finished => Complete(streaming, now, saveUuid)
    case Interrupted(aborted, message) => Fail(streaming, aborted, message)
  }

  /** The `try` block and its `catch`, before `finally`. */
  function Attempt(
    st: StoreState, placeholderId: string, x: Exchange,
    parse: string -> Option<Payload>, stringify: Json -> string, now: string, saveUuid: string): StoreState
  {
    if !Accepted(x) then EarlyFailure(st, x)
    else Respond(st, placeholderId, Payloads(x.received, parse), x.end, stringify, now, saveUuid)
  }

  /** The `finally` block. */
  function Settle(st: StoreState): (r: StoreState)
    ensures !r.isLoading && !r.isTyping && !r.hasController
    ensures r.messages == st.messages && r.errorMessage == st.errorMessage && r.chatHistory == st.chatHistory
  {
    st.(isLoading := false, isTyping := false, hasController := false)
  }

  /** `sendMessageToAPI(userMessage)`: whatever happens, the store is left
      idle with a conversation id. `uuid` is the conversation id used if
      none is set, `placeholderId` the `generateId()` value, `now` and
      `saveUuid` the values the final save reads. */
  function SendMessageToAPI(
    st: StoreState, uuid: string, placeholderId: string, x: Exchange,
    parse: string -> Option<Payload>, stringify: Json -> string, now: string, saveUuid: string): (r: StoreState)
    ensures !r.isLoading && !r.isTyping && !r.hasController
    ensures r.conversationId == Started(st, uuid).conversationId
  {
    Settle(Attempt(Started(st, uuid), placeholderId, x, parse, stringify, now, saveUuid))
  }

  /** No placeholder is pushed unless the response has a body and an ok
      status; such a failure is reported with its cause unless aborted. */
  lemma SendEarlyFailure(
    st: StoreState, uuid: string, placeholderId: string, x: Exchange,
    parse: string -> Option<Payload>, stringify: Json -> string, now: string, saveUuid: string)
    requires !Accepted(x)
    ensures var r := SendMessageToAPI(st, uuid, placeholderId, x, parse, stringify, now, saveUuid);
      && r.messages == Started(st, uuid).messages
      && r.chatHistory == st.chatHistory
      && (x.Rejected? && x.aborted ==> r.errorMessage == st.errorMessage)
      && (x.Rejected? && !x.aborted ==> r.errorMessage == "Error: " + x.message)
      && (x.Responded? && !x.hasBody ==> r.errorMessage == "Error: No response body")
      && (x.Responded? && x.hasBody && !x.ok ==> r.errorMessage == "Error: API Error: " + IntToString(x.status))
  {
  }

  /** Once accepted, exactly one placeholder is appended and holds the fold
      of the stream. It stops loading only when the stream completes: an
      interrupted stream leaves it loading although the store is idle. */
  lemma SendPlaceholderLifecycle(
    st: StoreState, uuid: string, placeholderId: string, x: Exchange,
    parse: string -> Option<Payload>, stringify: Json -> string, now: string, saveUuid: string)
    requires Accepted(x)
    ensures var r := SendMessageToAPI(st, uuid, placeholderId, x, parse, stringify, now, saveUuid);
      var before := Started(st, uuid).messages;
      var ps := Payloads(x.received, parse);
      var a := r.messages[|before|];
      && |r.messages| == |before| + 1
      && r.messages[..|before|] == before
      && a.id == placeholderId && a.role == Assistant
      && a.content == StoreChunkText(ps)
      && ToolsOf(a) == StoreTools(ps, stringify)
      && a.thinkingExpanded == Some(HasToolStart(ps))
      && a.isLoading == Some(!x.end.Finished?)
      && (x.end.Interrupted? && !x.end.aborted ==> r.errorMessage == "Error: " + x.end.message)
  {
    StoreReduceSpec(Placeholder(placeholderId), Payloads(x.received, parse), stringify);
  }

  /** `sendMessageToAPI` with the evident intent of its `finally` block: an
      interrupted stream also clears the placeholder's loading flag, as the
      component does. */
  function SendMessageToAPICorrected(
    st: StoreState, uuid: string, placeholderId: string, x: Exchange,
    parse: string -> Option<Payload>, stringify: Json -> string, now: string, saveUuid: string): (r: StoreState)
    ensures !r.isLoading && !r.isTyping && !r.hasController
    ensures r.conversationId == Started(st, uuid).conversationId
  {
    var before := Started(st, uuid);
    var after := Attempt(before, placeholderId, x, parse, stringify, now, saveUuid);
    var cleared :=
      if Accepted(x) && |after.messages| > |before.messages|
      then after.(messages := after.messages[|before.messages| := after.messages[|before.messages|].(isLoading := Some(false))])
      else after;
    Settle(cleared)
  }

  /** With the correction no placeholder is left loading, whatever the
      outcome. */
  lemma CorrectedSendClearsPlaceholder(
    st: StoreState, uuid: string, placeholderId: string, x: Exchange,
    parse: string -> Option<Payload>, stringify: Json -> string, now: string, saveUuid: string)
    requires Accepted(x)
    ensures var r := SendMessageToAPICorrected(st, uuid, placeholderId, x, parse, stringify, now, saveUuid);
      var before := Started(st, uuid).messages;
      && |r.messages| == |before| + 1
      && r.messages[..|before|] == before
      && r.messages[|before|].id == placeholderId
      && r.messages[|before|].isLoading == Some(false)
      && !r.isLoading
  {
    SendPlaceholderLifecycle(st, uuid, placeholderId, x, parse, stringify, now, saveUuid);
    var s1 := Started(st, uuid);
    var after := Attempt(s1, placeholderId, x, parse, stringify, now, saveUuid);
    assert Settle(after) == SendMessageToAPI(st, uuid, placeholderId, x, parse, stringify, now, saveUuid);
  }
}

=== FILE: stream.dfy ===
/** The line framing shared by the three streaming loops (`ChatComponent.tsx`,
    `src/stores/chat.ts`, `src/api/chat.ts`) and the shape of one request's
    transport outcome.

    A response body arrives as a sequence of already-decoded reads. Each read
    is split on `'\n'` on its own: no partial line is carried from one read to
    the next. A line is acted on when it is not blank and starts, untrimmed,
    with `data:`; the rest of the line, trimmed, goes to `JSON.parse`, which is
    the parameter `parse`. A parse failure drops that one line, and so does
    the record `null` (see `Decode`). */
module Stream {
  import opened Wrappers
  import opened Strings
  import opened ChatTypes
  import opened Seqs

  const DataPrefix: string := "data:"

  /** The line filter `!line.trim() || !line.startsWith('data:')`, negated. */
  predicate IsDataLine(line: string) {
    Trim(line) != "" && StartsWith(line, DataPrefix)
  }

  /** The blank-line test is subsumed by the prefix test. */
  lemma BlankTestSubsumed(line: string)
    ensures IsDataLine(line) <==> StartsWith(line, DataPrefix)
  {
    if StartsWith(line, DataPrefix) {
      assert line[0] == 'd' && !IsSpace(line[0]);
      assert !AllSpace(line);
    }
  }

  /** `line.substring(5).trim()`: the text handed to `JSON.parse`. */
  function RecordText(line: string): string
    requires IsDataLine(line)
  {
    Trim(line[|DataPrefix|..])
  }

  /** The one record `JSON.parse` accepts whose `.type` cannot be read. */
  const NullRecord: string := "null"

  /** A data line whose record is `null`. */
  predicate IsNullLine(line: string) {
    IsDataLine(line) && RecordText(line) == NullRecord
  }

  /** A record as the store and the API use it. `JSON.parse` accepts `null`,
      but the `.type` read that follows throws on it inside the same per-line
      `try`, so that line is dropped like one that does not parse. Every other
      record is whatever `parse` makes of it. */
  function Decode(text: string, parse: string -> Option<Payload>): Option<Payload> {
    if text == NullRecord then None else parse(text)
  }

  /** What one line contributes: its payload, or nothing when the line is
      skipped, does not parse, or holds `null`. */
  function LinePayload(line: string, parse: string -> Option<Payload>): (r: seq<Payload>)
    ensures |r| <= 1
    ensures |r| == 1 <==> IsDataLine(line) && RecordText(line) != NullRecord && parse(RecordText(line)).Some?
    ensures |r| == 1 ==> r[0] == parse(RecordText(line)).value
    ensures IsNullLine(line) ==> r == []
  {
    if IsDataLine(line) then
      match Decode(RecordText(line), parse)
      case Some(p) => [p]
      case None => []
    else []
  }

  /** The payloads of a sequence of lines, in line order. */
  function LinePayloads(lines: seq<string>, parse: string -> Option<Payload>): (r: seq<Payload>)
    ensures |r| <= |lines|
    decreases |lines|
  {
    if |lines| == 0 then []
    else LinePayloads(lines[..|lines| - 1], parse) + LinePayload(lines[|lines| - 1], parse)
  }

  /** The payloads of a whole response, read after read. */
  function Payloads(received: seq<string>, parse: string -> Option<Payload>): seq<Payload>
    decreases |received|
  {
    if |received| == 0 then []
    else Payloads(received[..|received| - 1], parse) + LinePayloads(Split(received[|received| - 1], '\n'), parse)
  }

  lemma {:induction false} LinePayloadsAppend(a: seq<string>, b: seq<string>, parse: string -> Option<Payload>)
    ensures LinePayloads(a + b, parse) == LinePayloads(a, parse) + LinePayloads(b, parse)
    decreases |b|
  {
    if |b| == 0 {
      assert a + b == a;
    } else {
      var b' := b[..|b| - 1];
      assert (a + b)[..|a + b| - 1] == a + b';
      LinePayloadsAppend(a, b', parse);
    }
  }

  lemma LinePayloadsSingle(line: string, parse: string -> Option<Payload>)
    ensures LinePayloads([line], parse) == LinePayload(line, parse)
  {
    assert [line][..0] == [];
  }

  /** Lines are processed in order, and a skipped line contributes nothing:
      a blank line, a line without the `data:` prefix, a line whose record
      does not parse and a `null` record are each dropped without affecting
      the others. */
  lemma DroppedLineIsolated(a: seq<string>, line: string, b: seq<string>, parse: string -> Option<Payload>)
    requires !IsDataLine(line) || Decode(RecordText(line), parse).None?
    ensures LinePayloads(a + [line] + b, parse) == LinePayloads(a, parse) + LinePayloads(b, parse)
  {
    LinePayloadsAppend(a + [line], b, parse);
    LinePayloadsAppend(a, [line], parse);
    LinePayloadsSingle(line, parse);
  }

  /** A `null` record is dropped whatever `parse` makes of it. */
  lemma NullLineDropped(a: seq<string>, line: string, b: seq<string>, parse: string -> Option<Payload>)
    requires IsNullLine(line)
    ensures LinePayloads(a + [line] + b, parse) == LinePayloads(a, parse) + LinePayloads(b, parse)
  {
    DroppedLineIsolated(a, line, b, parse);
  }

  /** A line whose record parses contributes exactly that payload, in place. */
  lemma ParsedLineKept(a: seq<string>, line: string, b: seq<string>, parse: string -> Option<Payload>)
    requires IsDataLine(line) && Decode(RecordText(line), parse).Some?
    ensures LinePayloads(a + [line] + b, parse)
         == LinePayloads(a, parse) + [Decode(RecordText(line), parse).value] + LinePayloads(b, parse)
  {
    LinePayloadsAppend(a + [line], b, parse);
    LinePayloadsAppend(a, [line], parse);
    LinePayloadsSingle(line, parse);
  }

  /** Reads are framed independently: the payloads of a response are the
      payloads of its reads, concatenated in arrival order. */
  lemma {:induction false} PayloadsAppend(a: seq<string>, b: seq<string>, parse: string -> Option<Payload>)
    ensures Payloads(a + b, parse) == Payloads(a, parse) + Payloads(b, parse)
    decreases |b|
  {
    if |b| == 0 {
      assert a + b == a;
    } else {
      var b' := b[..|b| - 1];
      var ab := a + b;
      assert ab[..|ab| - 1] == a + b';
      assert ab[|ab| - 1] == b[|b| - 1];
      PayloadsAppend(a, b', parse);
      PayloadsUnfold(ab, parse);
      PayloadsUnfold(b, parse);
      AppendAssoc(Payloads(a, parse), Payloads(b', parse), LinePayloads(Split(b[|b| - 1], '\n'), parse));
    }
  }

  lemma PayloadsUnfold(r: seq<string>, parse: string -> Option<Payload>)
    requires |r| > 0
    ensures Payloads(r, parse) == Payloads(r[..|r| - 1], parse) + LinePayloads(Split(r[|r| - 1], '\n'), parse)
  {
  }

  /** No line is carried over between reads: a record cut after `data` is
      lost, although the same text in one read yields its payload. */
  lemma SplitRecordLost(rest: string, parse: string -> Option<Payload>)
    requires '\n' !in rest
    requires Decode(Trim(rest), parse).Some?
    ensures Payloads([DataPrefix + rest], parse) == [Decode(Trim(rest), parse).value]
    ensures Payloads(["data", ":" + rest], parse) == []
  {
    WholeRecordKept(rest, parse);
    CutRecordDropped(rest, parse);
  }

  lemma WholeRecordKept(rest: string, parse: string -> Option<Payload>)
    requires '\n' !in rest
    requires Decode(Trim(rest), parse).Some?
    ensures Payloads([DataPrefix + rest], parse) == [Decode(Trim(rest), parse).value]
  {
    var line := DataPrefix + rest;
    NotInConcat('\n', DataPrefix, rest);
    assert line[..|DataPrefix|] == DataPrefix;
    assert line[|DataPrefix|..] == rest;
    BlankTestSubsumed(line);
    OneLineRead(line, parse);
  }

  lemma CutRecordDropped(rest: string, parse: string -> Option<Payload>)
    requires '\n' !in rest
    ensures Payloads(["data", ":" + rest], parse) == []
  {
    PrefixWordDropped(parse);
    SuffixDropped(rest, parse);
    TwoReads("data", ":" + rest, parse);
  }

  lemma SuffixDropped(rest: string, parse: string -> Option<Payload>)
    requires '\n' !in rest
    ensures Payloads([":" + rest], parse) == []
  {
    var second := ":" + rest;
    NotInConcat('\n', ":", rest);
    assert !StartsWith(second, DataPrefix) by {
      assert second[0] == ':';
    }
    OneLineRead(second, parse);
  }

  lemma PrefixWordDropped(parse: string -> Option<Payload>)
    ensures Payloads(["data"], parse) == []
  {
    assert !IsDataLine("data");
    OneLineRead("data", parse);
  }

  lemma TwoReads(x: string, y: string, parse: string -> Option<Payload>)
    ensures Payloads([x, y], parse) == Payloads([x], parse) + Payloads([y], parse)
  {
    PayloadsAppend([x], [y], parse);
    assert [x] + [y] == [x, y];
  }

  /** A read holding one line yields what that line yields. */
  lemma OneLineRead(line: string, parse: string -> Option<Payload>)
    requires '\n' !in line
    ensures Payloads([line], parse) == LinePayload(line, parse)
  {
    SplitNoSep(line, '\n');
    PayloadsUnfold([line], parse);
    assert [line][..0] == [];
    LinePayloadsSingle(line, parse);
  }

  /** Some read of the response holds a `null` record. */
  predicate HasNullRecord(received: seq<string>) {
    exists k, j :: 0 <= k < |received| && 0 <= j < |Split(received[k], '\n')| && IsNullLine(Split(received[k], '\n')[j])
  }

  lemma NullTrimmed()
    ensures Trim(" null") == NullRecord
  {
    var s := " null";
    assert IsSpace(s[0]) && !IsSpace(s[1]) && !IsSpace(s[4]);
    assert LeadingSpaces(s) == 1;
    assert TrailingEnd(s) == 5;
    assert s[1..5] == NullRecord;
  }

  /** A read holding only the record `null` holds a `null` record and yields
      nothing. */
  lemma NullRead(parse: string -> Option<Payload>)
    ensures HasNullRecord(["data: null"])
    ensures Payloads(["data: null"], parse) == []
  {
    var line := "data: null";
    NullLine();
    NoNewline();
    OneLineRead(line, parse);
    SplitNoSep(line, '\n');
    assert IsNullLine(Split(["data: null"][0], '\n')[0]);
  }

  lemma NullLine()
    ensures IsNullLine("data: null")
  {
    var line := "data: null";
    assert line[..|DataPrefix|] == DataPrefix;
    BlankTestSubsumed(line);
    assert line[|DataPrefix|..] == " null";
    NullTrimmed();
  }

  lemma NoNewline()
    ensures '\n' !in "data: null"
  {
  }

  /** How the transport ended after the response started: the reader
      reported `done`, or a read rejected (an abort is an `AbortError`). */
  datatype StreamEnd = Finished | Interrupted(aborted: bool, message: string)

  /** One request's transport outcome, as the three callers observe it:
      `fetch` itself rejected, or it resolved to a response with a body flag,
      an `ok` flag, a status, the reads delivered, and how reading ended. */
  datatype Exchange =
    | Rejected(aborted: bool, message: string)
    | Responded(hasBody: bool, ok: bool, status: int, received: seq<string>, end: StreamEnd)
}

=== FILE: strings.dfy ===
/** Character classes and string primitives shared by every module:
    JavaScript's whitespace set (used alike by `String.prototype.trim` and the
    regex class `\s`), the ASCII word class `\w`, ASCII case mapping,
    single-character `split`/`join`, and decimal rendering of integers. */
module Strings {

  /** The JavaScript WhiteSpace and LineTerminator code points. */
  predicate IsSpace(c: char) {
    || c == ' ' || c == '\t' || c == '\n' || c == '\r'
    || c == '\U{000B}' || c == '\U{000C}'
    || c == '\U{00A0}' || c == '\U{1680}'
    || ('\U{2000}' <= c <= '\U{200A}')
    || c == '\U{2028}' || c == '\U{2029}' || c == '\U{202F}'
    || c == '\U{205F}' || c == '\U{3000}' || c == '\U{FEFF}'
  }

  predicate IsDigit(c: char) {
    '0' <= c <= '9'
  }

  predicate IsLowerAscii(c: char) {
    'a' <= c <= 'z'
  }

  predicate IsUpperAscii(c: char) {
    'A' <= c <= 'Z'
  }

  /** The regex class `\w` (without the `u` flag). */
  predicate IsWordChar(c: char) {
    IsLowerAscii(c) || IsUpperAscii(c) || IsDigit(c) || c == '_'
  }

  predicate AllSpace(s: string) {
    forall i :: 0 <= i < |s| ==> IsSpace(s[i])
  }

  function LowerChar(c: char): (r: char)
    ensures IsUpperAscii(c) ==> IsLowerAscii(r)
    ensures !IsUpperAscii(c) ==> r == c
    ensures IsWordChar(r) <==> IsWordChar(c)
    ensures IsSpace(r) <==> IsSpace(c)
  {
    if IsUpperAscii(c) then (c as int + 32) as char else c
  }

  function UpperChar(c: char): (r: char)
    ensures IsLowerAscii(c) ==> IsUpperAscii(r)
    ensures !IsLowerAscii(c) ==> r == c
    ensures IsWordChar(r) <==> IsWordChar(c)
    ensures r == '-' <==> c == '-'
  {
    if IsLowerAscii(c) then (c as int - 32) as char else c
  }

  /** `toLowerCase`, restricted to the ASCII alphabet. */
  function Lower(s: string): (r: string)
    ensures |r| == |s|
    ensures forall i :: 0 <= i < |s| ==> r[i] == LowerChar(s[i])
  {
    seq(|s|, i requires 0 <= i < |s| => LowerChar(s[i]))
  }

  /** `toUpperCase`, restricted to the ASCII alphabet. */
  function Upper(s: string): (r: string)
    ensures |r| == |s|
    ensures forall i :: 0 <= i < |s| ==> r[i] == UpperChar(s[i])
  {
    seq(|s|, i requires 0 <= i < |s| => UpperChar(s[i]))
  }

  function StartsWith(s: string, prefix: string): bool {
    |prefix| <= |s| && s[..|prefix|] == prefix
  }

  /** The number of whitespace characters `s` starts with. */
  function LeadingSpaces(s: string): (n: nat)
    ensures n <= |s|
    ensures forall i :: 0 <= i < n ==> IsSpace(s[i])
    ensures n < |s| ==> !IsSpace(s[n])
    decreases |s|
  {
    if |s| > 0 && IsSpace(s[0]) then 1 + LeadingSpaces(s[1..]) else 0
  }

  /** The length of `s` without the whitespace it ends with. */
  function TrailingEnd(s: string): (e: nat)
    ensures e <= |s|
    ensures forall i :: e <= i < |s| ==> IsSpace(s[i])
    ensures e > 0 ==> !IsSpace(s[e - 1])
    decreases |s|
  {
    if |s| > 0 && IsSpace(s[|s| - 1]) then TrailingEnd(s[..|s| - 1]) else |s|
  }

  /** `String.prototype.trim`: the text between the leading and the trailing
      whitespace, empty when there is nothing else. */
  function Trim(s: string): (r: string)
    ensures |r| <= |s|
    ensures |r| > 0 ==> !IsSpace(r[0]) && !IsSpace(r[|r| - 1])
    ensures r == "" <==> AllSpace(s)
  {
    var a := LeadingSpaces(s);
    var e := TrailingEnd(s);
    if a < e then
      assert !IsSpace(s[a]);
      s[a..e]
    else
      assert forall i :: 0 <= i < |s| ==> IsSpace(s[i]);
      ""
  }

  /** `trim` takes a slice: whitespace before it, whitespace after it. */
  lemma TrimSlice(s: string) returns (k: nat)
    ensures k + |Trim(s)| <= |s| && Trim(s) == s[k..k + |Trim(s)|]
    ensures AllSpace(s[..k]) && AllSpace(s[k + |Trim(s)|..])
  {
    var a := LeadingSpaces(s);
    var e := TrailingEnd(s);
    if a < e {
      k := a;
      var head, tail := s[..a], s[e..];
      forall i | 0 <= i < |head|
        ensures IsSpace(head[i])
      {
        assert head[i] == s[i];
      }
      forall i | 0 <= i < |tail|
        ensures IsSpace(tail[i])
      {
        assert tail[i] == s[e + i];
      }
    } else {
      k := 0;
      assert Trim(s) == "";
      assert s[0..0] == "" && s[..0] == "" && s[0..] == s;
    }
  }

  /** Whether `s` is its own trim: no leading and no trailing whitespace. */
  predicate IsTrimmed(s: string) {
    |s| == 0 || (!IsSpace(s[0]) && !IsSpace(s[|s| - 1]))
  }

  lemma TrimOfTrimmed(s: string)
    requires IsTrimmed(s)
    ensures Trim(s) == s
  {
  }

  function Count(s: string, c: char): (n: nat)
    ensures n <= |s|
    ensures n == 0 <==> c !in s
  {
    if |s| == 0 then 0 else (if s[0] == c then 1 else 0) + Count(s[1..], c)
  }

  lemma {:induction false} CountAppend(a: string, b: string, c: char)
    ensures Count(a + b, c) == Count(a, c) + Count(b, c)
  {
    if |a| > 0 {
      assert (a + b)[1..] == a[1..] + b;
      CountAppend(a[1..], b, c);
    } else {
      assert a + b == b;
    }
  }

  lemma NotInConcat(c: char, a: string, b: string)
    requires c !in a && c !in b
    ensures c !in a + b
  {
  }

  /** `parts.join(sep)`. */
  function Join(parts: seq<string>, sep: string): string
    decreases |parts|
  {
    if |parts| == 0 then ""
    else if |parts| == 1 then parts[0]
    else parts[0] + sep + Join(parts[1..], sep)
  }

  lemma JoinTwo(a: string, b: string, sep: string)
    ensures Join([a, b], sep) == a + sep + b
  {
    assert [a, b][1..] == [b];
  }

  lemma JoinThree(a: string, b: string, c: string, sep: string)
    ensures Join([a, b, c], sep) == a + sep + b + sep + c
  {
    var parts := [a, b, c];
    assert parts[1..] == [b, c] && [b, c][1..] == [c];
    assert Join([b, c], sep) == b + sep + c;
    assert Join(parts, sep) == a + sep + (b + sep + c);
  }

  /** `s.split(sep)` for a one-character separator: never empty, and the
      pieces joined back with the separator give `s` again. */
  function Split(s: string, sep: char): (parts: seq<string>)
    ensures |parts| == Count(s, sep) + 1
    ensures forall i :: 0 <= i < |parts| ==> sep !in parts[i]
    ensures Join(parts, [sep]) == s
    decreases |s|
  {
    if |s| == 0 then [""]
    else
      var rest := Split(s[1..], sep);
      if s[0] == sep then
        SplitAtSep(s, sep, rest);
        [""] + rest
      else
        SplitAtChar(s, sep, rest);
        [[s[0]] + rest[0]] + rest[1..]
  }

  /** A leading separator starts a new, empty piece. */
  lemma SplitAtSep(s: string, sep: char, rest: seq<string>)
    requires |s| > 0 && s[0] == sep
    requires |rest| == Count(s[1..], sep) + 1
    requires forall i :: 0 <= i < |rest| ==> sep !in rest[i]
    requires Join(rest, [sep]) == s[1..]
    ensures var parts := [""] + rest;
      && |parts| == Count(s, sep) + 1
      && (forall i :: 0 <= i < |parts| ==> sep !in parts[i])
      && Join(parts, [sep]) == s
  {
    var parts := [""] + rest;
    SeparatorCounted(s, sep);
    JoinEmptyHead(rest, sep);
    assert s == [sep] + s[1..];
    forall i | 0 <= i < |parts|
      ensures sep !in parts[i]
    {
      if i > 0 {
        assert parts[i] == rest[i - 1];
      }
    }
  }

  lemma SeparatorCounted(s: string, sep: char)
    requires |s| > 0 && s[0] == sep
    ensures Count(s, sep) == 1 + Count(s[1..], sep)
  {
  }

  /** An empty first piece contributes only its separator. */
  lemma JoinEmptyHead(rest: seq<string>, sep: char)
    requires |rest| >= 1
    ensures Join([""] + rest, [sep]) == [sep] + Join(rest, [sep])
  {
    assert ([""] + rest)[1..] == rest;
  }

  /** Any other leading character joins the first piece. */
  lemma SplitAtChar(s: string, sep: char, rest: seq<string>)
    requires |s| > 0 && s[0] != sep
    requires |rest| == Count(s[1..], sep) + 1
    requires forall i :: 0 <= i < |rest| ==> sep !in rest[i]
    requires Join(rest, [sep]) == s[1..]
    ensures var parts := [[s[0]] + rest[0]] + rest[1..];
      && |parts| == Count(s, sep) + 1
      && (forall i :: 0 <= i < |parts| ==> sep !in parts[i])
      && Join(parts, [sep]) == s
  {
    var head := [s[0]] + rest[0];
    var parts := [head] + rest[1..];
    assert |parts| == Count(s, sep) + 1 by {
      assert Count(s, sep) == Count(s[1..], sep);
    }
    assert Join(parts, [sep]) == s by {
      JoinNewHead(rest, head, sep);
      assert s == [s[0]] + s[1..];
    }
    assert sep !in head by {
      assert forall k :: 0 <= k < |rest[0]| ==> head[k + 1] == rest[0][k];
    }
    forall i | 0 <= i < |parts|
      ensures sep !in parts[i]
    {
      if i > 0 {
        assert parts[i] == rest[i];
      }
    }
  }

  /** Replacing the first piece by one that extends it at the front extends
      the joined text the same way. */
  lemma JoinNewHead(rest: seq<string>, head: string, sep: char)
    requires |rest| >= 1 && |head| >= 1 && head[1..] == rest[0]
    ensures Join([head] + rest[1..], [sep]) == [head[0]] + Join(rest, [sep])
  {
    var parts := [head] + rest[1..];
    assert parts[1..] == rest[1..];
    assert head == [head[0]] + rest[0];
    if |rest| > 1 {
      assert Join(rest, [sep]) == rest[0] + [sep] + Join(rest[1..], [sep]);
      assert Join(parts, [sep]) == head + [sep] + Join(rest[1..], [sep]);
    }
  }

  /** Joining pieces that do not contain the separator and splitting again
      gives the pieces back. */
  lemma {:induction false} SplitJoin(parts: seq<string>, sep: char)
    requires |parts| >= 1
    requires forall i :: 0 <= i < |parts| ==> sep !in parts[i]
    ensures Split(Join(parts, [sep]), sep) == parts
    decreases |parts|, |parts[0]|
  {
    var s := Join(parts, [sep]);
    if |parts| == 1 {
      SplitNoSep(parts[0], sep);
    } else if |parts[0]| == 0 {
      assert s == [sep] + Join(parts[1..], [sep]);
      assert s[1..] == Join(parts[1..], [sep]);
      SplitJoin(parts[1..], sep);
      assert Split(s, sep) == [""] + Split(s[1..], sep);
      assert parts == [""] + parts[1..];
    } else {
      var p0 := parts[0];
      var shorter := [p0[1..]] + parts[1..];
      assert shorter[1..] == parts[1..];
      assert s == [p0[0]] + Join(shorter, [sep]);
      assert s[1..] == Join(shorter, [sep]);
      assert p0[0] != sep;
      assert sep !in p0[1..] by {
        assert forall k :: 0 <= k < |p0[1..]| ==> p0[1..][k] == p0[k + 1];
      }
      assert forall i :: 1 <= i < |shorter| ==> shorter[i] == parts[i];
      SplitJoin(shorter, sep);
      var rest := Split(s[1..], sep);
      assert Split(s, sep) == [[p0[0]] + rest[0]] + rest[1..];
      assert [p0[0]] + p0[1..] == p0;
      assert parts == [p0] + parts[1..];
    }
  }

  lemma {:induction false} SplitNoSep(s: string, sep: char)
    requires sep !in s
    ensures Split(s, sep) == [s]
    decreases |s|
  {
    if |s| > 0 {
      SplitNoSep(s[1..], sep);
      assert [s[0]] + s[1..] == s;
    }
  }

  /** The decimal digit for `d` in 0..9. */
  function DigitChar(d: nat): (c: char)
    requires d < 10
    ensures IsDigit(c)
  {
    ('0' as int + d) as char
  }

  /** `Number.prototype.toString()` for a non-negative integer. */
  function NatToString(n: nat): (s: string)
    ensures |s| >= 1
    ensures forall i :: 0 <= i < |s| ==> IsDigit(s[i])
    ensures n < 10 <==> |s| == 1
    ensures n >= 10 ==> s[0] != '0'
    decreases n
  {
    if n < 10 then [DigitChar(n)] else NatToString(n / 10) + [DigitChar(n % 10)]
  }

  /** `Number.prototype.toString()` for an integer, with a leading `-` when negative. */
  function IntToString(n: int): (s: string)
    ensures |s| >= 1
    ensures n >= 0 ==> s == NatToString(n)
    ensures n < 0 ==> s == "-" + NatToString(-n)
  {
    if n >= 0 then NatToString(n) else "-" + NatToString(-n)
  }

  predicate AllDigits(s: string) {
    forall i :: 0 <= i < |s| ==> IsDigit(s[i])
  }

  /** `parseInt(s, 10)` on a non-empty run of decimal digits. */
  function DigitsValue(s: string): nat
    requires AllDigits(s)
    decreases |s|
  {
    if |s| == 0 then 0
    else DigitsValue(s[..|s| - 1]) * 10 + (s[|s| - 1] as int - '0' as int)
  }

  /** Decimal rendering and digit parsing are inverse. */
  lemma {:induction false} DigitsValueOfNatToString(n: nat)
    ensures DigitsValue(NatToString(n)) == n
    decreases n
  {
    var s := NatToString(n);
    if n >= 10 {
      DigitsValueOfNatToString(n / 10);
      assert s[..|s| - 1] == NatToString(n / 10);
    }
  }

  lemma NatToStringInjective(a: nat, b: nat)
    requires NatToString(a) == NatToString(b)
    ensures a == b
  {
    DigitsValueOfNatToString(a);
    DigitsValueOfNatToString(b);
  }
}

=== FILE: text_utils.dfy ===
/** The string helpers of `TextUtils` (`src/utils/text.ts`): truncation,
    capitalisation, kebab-case titles, search normalisation, slugs, previews
    and word counts. Regex replacements are written out as a filter and a
    run-collapsing pass over characters. */
module TextUtils {
  import opened Wrappers
  import opened Strings
  import opened Seqs
  import ChatStore

  const DefaultSuffix: string := "..."
  const DefaultPreviewLength: int := 100

  function Max(a: int, b: int): int {
    if a >= b then a else b
  }

  /** `substring(0, end)`: a negative end counts as 0, one past the length as
      the length. */
  function PrefixClamped(s: string, end: int): (r: string)
    ensures |r| == (if end <= 0 then 0 else if end >= |s| then |s| else end)
    ensures r == s[..|r|]
  {
    if end <= 0 then "" else if end >= |s| then s else s[..end]
  }

  /** `truncate(text, maxLength, suffix)`: text that fits is kept; longer
      text is cut so that, with the suffix, it is `maxLength` long, or just the
      suffix when the suffix alone is longer. */
  function Truncate(text: string, maxLength: int, suffix: string): (r: string)
    ensures |text| <= maxLength ==> r == text
    ensures |text| > maxLength ==> |r| == Max(maxLength, |suffix|)
    ensures |text| > maxLength ==> |suffix| <= |r| && r == text[..|r| - |suffix|] + suffix
  {
    if |text| <= maxLength then text
    else PrefixClamped(text, maxLength - |suffix|) + suffix
  }

  /** With a suffix that fits, the result always fits. */
  lemma TruncateFits(text: string, maxLength: int, suffix: string)
    requires |suffix| <= maxLength
    ensures |Truncate(text, maxLength, suffix)| <= maxLength
  {
  }

  /** With a suffix that fits, truncating twice is truncating once. */
  lemma TruncateIdempotent(text: string, maxLength: int, suffix: string)
    requires |suffix| <= maxLength
    ensures Truncate(Truncate(text, maxLength, suffix), maxLength, suffix) == Truncate(text, maxLength, suffix)
  {
  }

  /** The store's `truncateText(text, n)` appends the ellipsis after `n`
      characters; `truncate(text, n + 3)` agrees with it except on texts of
      length `n + 1` to `n + 3`, which it keeps whole. */
  lemma TruncationsAgree(text: string, n: nat)
    ensures |text| <= n || |text| > n + 3 ==> ChatStore.TruncateText(text, n) == Truncate(text, n + 3, DefaultSuffix)
    ensures n < |text| <= n + 3 ==> Truncate(text, n + 3, DefaultSuffix) == text
    ensures n < |text| <= n + 3 ==> |ChatStore.TruncateText(text, n)| == n + 3
  {
  }

  /** `capitalize`: the first character upper-cased, the rest unchanged. */
  function Capitalize(text: string): (r: string)
    ensures |r| == |text|
    ensures |text| > 0 ==> r[0] == UpperChar(text[0])
    ensures forall i :: 1 <= i < |text| ==> r[i] == text[i]
  {
    if |text| == 0 then "" else [UpperChar(text[0])] + text[1..]
  }

  lemma CapitalizeIdempotent(text: string)
    ensures Capitalize(Capitalize(text)) == Capitalize(text)
  {
  }

  /** `map(capitalize)`. */
  function CapitalizeAll(parts: seq<string>): (r: seq<string>)
    ensures |r| == |parts| && forall i :: 0 <= i < |parts| ==> r[i] == Capitalize(parts[i])
  {
    seq(|parts|, i requires 0 <= i < |parts| => Capitalize(parts[i]))
  }

  /** `kebabToTitle`: split on `-`, capitalise each part, join with spaces. */
  function KebabToTitle(text: string): string {
    Join(CapitalizeAll(Split(text, '-')), " ")
  }

  /** The character-wise reading of `kebabToTitle`: every `-` becomes a
      space, a character at the start or right after a `-` is upper-cased,
      and every other character is kept. */
  function TitleChar(text: string, i: nat): char
    requires i < |text|
  {
    if text[i] == '-' then ' '
    else if i == 0 || text[i - 1] == '-' then UpperChar(text[i])
    else text[i]
  }

  lemma {:induction false} JoinCapitalized(parts: seq<string>)
    requires |parts| >= 1 && forall i :: 0 <= i < |parts| ==> '-' !in parts[i]
    ensures var j := Join(parts, "-");
      && |Join(CapitalizeAll(parts), " ")| == |j|
      && forall i :: 0 <= i < |j| ==> Join(CapitalizeAll(parts), " ")[i] == TitleChar(j, i)
    decreases |parts|
  {
    var p0 := parts[0];
    if |parts| == 1 {
      assert Join(parts, "-") == p0;
      assert Join(CapitalizeAll(parts), " ") == Capitalize(p0);
    } else {
      var rest := parts[1..];
      JoinCapitalized(rest);
      var jr := Join(rest, "-");
      var cr := Join(CapitalizeAll(rest), " ");
      var j := Join(parts, "-");
      assert j == p0 + "-" + jr;
      assert CapitalizeAll(parts)[1..] == CapitalizeAll(rest);
      var c := Join(CapitalizeAll(parts), " ");
      assert c == Capitalize(p0) + " " + cr;
      TitleCharsCons(p0, jr, cr);
    }
  }

  /** Putting a part without `-` in front keeps the character-wise reading. */
  lemma TitleCharsCons(p0: string, jr: string, cr: string)
    requires '-' !in p0
    requires |cr| == |jr| && forall k :: 0 <= k < |jr| ==> cr[k] == TitleChar(jr, k)
    ensures var j := p0 + "-" + jr; var c := Capitalize(p0) + " " + cr;
      |c| == |j| && forall i :: 0 <= i < |j| ==> c[i] == TitleChar(j, i)
  {
    var j := p0 + "-" + jr;
    var c := Capitalize(p0) + " " + cr;
    forall i | 0 <= i < |j|
      ensures c[i] == TitleChar(j, i)
    {
      if i < |p0| {
        assert j[i] == p0[i] && c[i] == Capitalize(p0)[i];
        if i > 0 {
          assert j[i - 1] == p0[i - 1];
        }
      } else if i > |p0| {
        var k := i - |p0| - 1;
        assert j[i] == jr[k] && c[i] == cr[k];
        if k > 0 {
          assert j[i - 1] == jr[k - 1];
        }
      }
    }
  }

  /** `kebabToTitle` agrees with its character-wise reading, so it keeps the
      length and leaves no `-`. */
  lemma KebabToTitleCharwise(text: string)
    ensures |KebabToTitle(text)| == |text|
    ensures forall i :: 0 <= i < |text| ==> KebabToTitle(text)[i] == TitleChar(text, i)
    ensures '-' !in KebabToTitle(text)
  {
    JoinCapitalized(Split(text, '-'));
    var r := KebabToTitle(text);
    forall i | 0 <= i < |r|
      ensures r[i] != '-'
    {
      assert r[i] == TitleChar(text, i);
    }
  }

  /** For input without spaces, splitting the title on spaces gives back the
      capitalised kebab parts: one title word per `-`-separated part. */
  lemma KebabToTitleParts(text: string)
    requires ' ' !in text
    ensures Split(KebabToTitle(text), ' ') == CapitalizeAll(Split(text, '-'))
    ensures |Split(KebabToTitle(text), ' ')| == |Split(text, '-')|
  {
    var parts := Split(text, '-');
    var caps := CapitalizeAll(parts);
    forall i | 0 <= i < |caps|
      ensures ' ' !in caps[i]
    {
      JoinContains(parts, "-", i);
      CapitalizeNoSpace(parts[i], text);
    }
    SplitJoin(caps, ' ');
    assert " " == [' '];
  }

  lemma {:induction false} JoinContains(parts: seq<string>, sep: string, i: nat)
    requires i < |parts|
    ensures forall c :: c in parts[i] ==> c in Join(parts, sep)
    decreases |parts|
  {
    if |parts| > 1 {
      assert Join(parts, sep) == parts[0] + sep + Join(parts[1..], sep);
      if i > 0 {
        JoinContains(parts[1..], sep, i - 1);
      }
    }
  }

  lemma CapitalizeNoSpace(part: string, text: string)
    requires ' ' !in text && forall c :: c in part ==> c in text
    ensures ' ' !in Capitalize(part)
  {
    var r := Capitalize(part);
    forall i | 0 <= i < |r|
      ensures r[i] != ' '
    {
      assert part[i] in part;
    }
  }

  /** `replace(/[^...]/g, '')`: the characters `keep` accepts, in order. */
  function Filter(s: string, keep: char -> bool): (r: string)
    ensures |r| <= |s|
    ensures forall i :: 0 <= i < |r| ==> keep(r[i]) && r[i] in s
    ensures (forall i :: 0 <= i < |s| ==> keep(s[i])) ==> r == s
    decreases |s|
  {
    if |s| == 0 then ""
    else
      var rest := Filter(s[1..], keep);
      assert forall c :: c in rest ==> c in s;
      (if keep(s[0]) then [s[0]] else "") + rest
  }

  /** `replace(/[...]+/g, rep)` for a class `run` containing `rep`: every
      maximal run of class characters becomes one `rep`. `inRun` says the
      text before `s` ended inside a run. */
  function CollapseRuns(s: string, run: char -> bool, rep: char, inRun: bool): (r: string)
    requires run(rep)
    ensures |r| <= |s|
    ensures forall i :: 0 <= i < |r| ==> (run(r[i]) ==> r[i] == rep) && (r[i] == rep || r[i] in s)
    ensures forall i :: 0 <= i < |r| - 1 ==> !(run(r[i]) && run(r[i + 1]))
    ensures inRun && |r| > 0 ==> !run(r[0])
    decreases |s|
  {
    if |s| == 0 then ""
    else
      if run(s[0]) then
        var rest := CollapseRuns(s[1..], run, rep, true);
        assert forall c :: c in rest && c != rep ==> c in s;
        (if inRun then "" else [rep]) + rest
      else
        var rest := CollapseRuns(s[1..], run, rep, false);
        assert forall c :: c in rest && c != rep ==> c in s;
        [s[0]] + rest
  }

  /** Text already collapsed — its class characters are all `rep` and never
      adjacent — is left as it is. */
  lemma {:induction false} CollapseFixedPoint(s: string, run: char -> bool, rep: char, inRun: bool)
    requires run(rep)
    requires forall i :: 0 <= i < |s| ==> (run(s[i]) ==> s[i] == rep)
    requires forall i :: 0 <= i < |s| - 1 ==> !(run(s[i]) && run(s[i + 1]))
    requires inRun && |s| > 0 ==> !run(s[0])
    ensures CollapseRuns(s, run, rep, inRun) == s
    decreases |s|
  {
    if |s| > 0 {
      CollapseFixedPoint(s[1..], run, rep, run(s[0]));
      assert [s[0]] + s[1..] == s;
    }
  }

  lemma LowerFixedPoint(s: string)
    requires forall i :: 0 <= i < |s| ==> !IsUpperAscii(s[i])
    ensures Lower(s) == s
  {
  }

  lemma TrimKeepsNoUpper(s: string)
    requires forall i :: 0 <= i < |s| ==> !IsUpperAscii(s[i])
    ensures forall c :: c in Trim(s) ==> !IsUpperAscii(c)
  {
    var t := Trim(s);
    var k := TrimSlice(s);
    forall c | c in t
      ensures !IsUpperAscii(c)
    {
      var i :| 0 <= i < |t| && t[i] == c;
      assert c == s[k + i];
    }
  }

  predicate IsSearchChar(c: char) {
    c == ' ' || IsLowerAscii(c) || IsDigit(c) || c == '_'
  }

  predicate KeepForSearch(c: char) {
    IsWordChar(c) || IsSpace(c)
  }

  /** `normalizeForSearch`: lower-case, trim, drop every character that is
      neither a word character nor whitespace, and turn each whitespace run
      into one space. */
  function NormalizeForSearch(text: string): (r: string)
    ensures forall i :: 0 <= i < |r| ==> IsSearchChar(r[i])
    ensures forall i :: 0 <= i < |r| - 1 ==> !(r[i] == ' ' && r[i + 1] == ' ')
  {
    var lowered := Lower(text);
    var trimmed := Trim(lowered);
    LoweredTrimNoUpper(text);
    var filtered := Filter(trimmed, KeepForSearch);
    CollapsedSearchChars(trimmed);
    CollapseRuns(filtered, IsSpace, ' ', false)
  }

  lemma LoweredTrimNoUpper(text: string)
    ensures forall c :: c in Trim(Lower(text)) ==> !IsUpperAscii(c)
  {
    var lowered := Lower(text);
    assert forall i :: 0 <= i < |lowered| ==> !IsUpperAscii(lowered[i]);
    TrimKeepsNoUpper(lowered);
  }

  lemma CollapsedSearchChars(trimmed: string)
    requires forall c :: c in trimmed ==> !IsUpperAscii(c)
    ensures var r := CollapseRuns(Filter(trimmed, KeepForSearch), IsSpace, ' ', false);
      && (forall i :: 0 <= i < |r| ==> IsSearchChar(r[i]))
      && (forall i :: 0 <= i < |r| - 1 ==> !(r[i] == ' ' && r[i + 1] == ' '))
  {
    var filtered := Filter(trimmed, KeepForSearch);
    var r := CollapseRuns(filtered, IsSpace, ' ', false);
    forall i | 0 <= i < |r|
      ensures IsSearchChar(r[i])
    {
      if r[i] != ' ' {
        assert r[i] in filtered;
        var j :| 0 <= j < |filtered| && filtered[j] == r[i];
        assert r[i] in trimmed;
      }
    }
  }

  /** Normalised text: search characters only, single spaces, trimmed. */
  predicate IsNormalized(s: string) {
    && (forall i :: 0 <= i < |s| ==> IsSearchChar(s[i]))
    && (forall i :: 0 <= i < |s| - 1 ==> !(s[i] == ' ' && s[i + 1] == ' '))
    && IsTrimmed(s)
  }

  lemma SearchCharsSpaces(s: string)
    requires forall i :: 0 <= i < |s| ==> IsSearchChar(s[i])
    requires forall i :: 0 <= i < |s| - 1 ==> !(s[i] == ' ' && s[i + 1] == ' ')
    ensures forall i :: 0 <= i < |s| ==> (IsSpace(s[i]) ==> s[i] == ' ')
    ensures forall i :: 0 <= i < |s| - 1 ==> !(IsSpace(s[i]) && IsSpace(s[i + 1]))
    ensures forall i :: 0 <= i < |s| ==> !IsUpperAscii(s[i]) && KeepForSearch(s[i])
  {
  }

  /** Normalising a second time only trims: a character dropped next to a
      space the first time can leave a space at either end. */
  lemma NormalizeTwice(text: string)
    ensures NormalizeForSearch(NormalizeForSearch(text)) == Trim(NormalizeForSearch(text))
  {
    NormalizeOfSearchText(NormalizeForSearch(text));
  }

  /** Normalised text is a fixed point. */
  lemma NormalizeFixedPoint(s: string)
    requires IsNormalized(s)
    ensures NormalizeForSearch(s) == s
  {
    NormalizeOfSearchText(s);
    TrimOfTrimmed(s);
  }

  /** On search characters with single spaces, normalising only trims. */
  lemma NormalizeOfSearchText(s: string)
    requires forall i :: 0 <= i < |s| ==> IsSearchChar(s[i])
    requires forall i :: 0 <= i < |s| - 1 ==> !(s[i] == ' ' && s[i + 1] == ' ')
    ensures NormalizeForSearch(s) == Trim(s)
  {
    SearchCharsSpaces(s);
    LowerFixedPoint(s);
    var t := Trim(s);
    TrimOfSearchText(s);
    SearchCharsSpaces(t);
    assert Filter(t, KeepForSearch) == t;
    CollapseFixedPoint(t, IsSpace, ' ', false);
  }

  lemma TrimOfSearchText(s: string)
    requires forall i :: 0 <= i < |s| ==> IsSearchChar(s[i])
    requires forall i :: 0 <= i < |s| - 1 ==> !(s[i] == ' ' && s[i + 1] == ' ')
    ensures var t := Trim(s);
      && (forall i :: 0 <= i < |t| ==> IsSearchChar(t[i]))
      && (forall i :: 0 <= i < |t| - 1 ==> !(t[i] == ' ' && t[i + 1] == ' '))
  {
    var t := Trim(s);
    var k := TrimSlice(s);
    assert forall i :: 0 <= i < |t| ==> t[i] == s[k + i];
  }

  /** The normalisation is not idempotent: `"a !"` normalises to `"a "`,
      which normalises to `"a"`. */
  lemma NormalizeNotIdempotent()
    ensures NormalizeForSearch("a !") == "a "
    ensures NormalizeForSearch("a ") == "a"
  {
    NormalizeBang();
    NormalizeTrailingSpace();
  }

  lemma NormalizeBang()
    ensures NormalizeForSearch("a !") == "a "
  {
    assert Lower("a !") == "a !";
    assert Trim("a !") == "a !";
    var f := Filter("a !", KeepForSearch);
    assert f == "a " by {
      assert Filter("!", KeepForSearch) == "";
      assert Filter(" !", KeepForSearch) == " ";
    }
    assert CollapseRuns(" ", IsSpace, ' ', false) == " ";
  }

  lemma NormalizeTrailingSpace()
    ensures NormalizeForSearch("a ") == "a"
  {
    assert Lower("a ") == "a ";
    assert Trim("a ") == "a";
    assert Filter("a", KeepForSearch) == "a";
    assert CollapseRuns("a", IsSpace, ' ', false) == "a";
  }

  predicate IsSlugChar(c: char) {
    IsLowerAscii(c) || IsDigit(c) || c == '-'
  }

  predicate KeepForSlug(c: char) {
    IsWordChar(c) || IsSpace(c) || c == '-'
  }

  predicate SlugRun(c: char) {
    IsSpace(c) || c == '_' || c == '-'
  }

  /** `replace(/^-+/, '')`. */
  function DropLeadingDashes(s: string): (r: string)
    ensures |r| <= |s| && r == s[|s| - |r|..]
    ensures |r| > 0 ==> r[0] != '-'
    ensures |s| > 0 && s[0] != '-' ==> r == s
    decreases |s|
  {
    if |s| > 0 && s[0] == '-' then DropLeadingDashes(s[1..]) else s
  }

  /** `replace(/-+$/, '')`. */
  function DropTrailingDashes(s: string): (r: string)
    ensures |r| <= |s| && r == s[..|r|]
    ensures |r| > 0 ==> r[|r| - 1] != '-'
    ensures |s| > 0 && s[|s| - 1] != '-' ==> r == s
    decreases |s|
  {
    if |s| > 0 && s[|s| - 1] == '-' then DropTrailingDashes(s[..|s| - 1]) else s
  }

  /** `replace(/^-+|-+$/g, '')`: the dash runs at both ends removed. */
  function StripDashes(s: string): (r: string)
    ensures |r| > 0 ==> r[0] != '-' && r[|r| - 1] != '-'
  {
    var a := DropLeadingDashes(s);
    var r := DropTrailingDashes(a);
    assert |r| > 0 ==> r[0] == a[0];
    r
  }

  /** `slugify`: every result is a slug. */
  function Slugify(text: string): (r: string)
    ensures IsSlug(r)
  {
    var lowered := Lower(text);
    var trimmed := Trim(lowered);
    var filtered := Filter(trimmed, KeepForSlug);
    LoweredTrimNoUpper(text);
    CollapsedSlugChars(trimmed);
    StripKeepsSlug(CollapseRuns(filtered, SlugRun, '-', false));
    StripDashes(CollapseRuns(filtered, SlugRun, '-', false))
  }

  /** A slug: lower-case letters, digits and single inner dashes. */
  predicate IsSlug(s: string) {
    SlugBody(s) && (|s| > 0 ==> s[0] != '-' && s[|s| - 1] != '-')
  }

  /** Slug characters with no two dashes in a row. */
  predicate SlugBody(s: string) {
    && (forall i :: 0 <= i < |s| ==> IsSlugChar(s[i]))
    && (forall i :: 0 <= i < |s| - 1 ==> !(s[i] == '-' && s[i + 1] == '-'))
  }

  lemma SlugBodySuffix(x: string, k: nat)
    requires SlugBody(x) && k <= |x|
    ensures SlugBody(x[k..])
  {
    var y := x[k..];
    assert forall i :: 0 <= i < |y| ==> y[i] == x[k + i];
  }

  lemma SlugBodyPrefix(x: string, e: nat)
    requires SlugBody(x) && e <= |x|
    ensures SlugBody(x[..e])
  {
    var y := x[..e];
    assert forall i :: 0 <= i < |y| ==> y[i] == x[i];
  }

  lemma CollapsedSlugChars(trimmed: string)
    requires forall c :: c in trimmed ==> !IsUpperAscii(c)
    ensures SlugBody(CollapseRuns(Filter(trimmed, KeepForSlug), SlugRun, '-', false))
  {
    var filtered := Filter(trimmed, KeepForSlug);
    var r := CollapseRuns(filtered, SlugRun, '-', false);
    forall i | 0 <= i < |r|
      ensures IsSlugChar(r[i])
    {
      if r[i] != '-' {
        assert r[i] in filtered;
        var j :| 0 <= j < |filtered| && filtered[j] == r[i];
        assert r[i] in trimmed;
      }
    }
  }

  /** Removing the end dashes of slug characters without a double dash
      leaves a slug. */
  lemma StripKeepsSlug(x: string)
    requires SlugBody(x)
    ensures IsSlug(StripDashes(x))
  {
    var a := DropLeadingDashes(x);
    SlugBodySuffix(x, |x| - |a|);
    SlugBodyPrefix(a, |DropTrailingDashes(a)|);
  }

  /** A slug is its own slug. */
  lemma SlugFixedPoint(s: string)
    requires IsSlug(s)
    ensures Slugify(s) == s
  {
    LowerFixedPoint(s);
    assert Lower(s) == s;
    TrimOfTrimmed(s);
    assert Trim(s) == s;
    assert Filter(s, KeepForSlug) == s;
    SlugCollapsed(s);
    assert CollapseRuns(s, SlugRun, '-', false) == s;
    assert DropLeadingDashes(s) == s;
    assert DropTrailingDashes(s) == s;
  }

  lemma SlugCollapsed(s: string)
    requires IsSlug(s)
    ensures CollapseRuns(s, SlugRun, '-', false) == s
  {
    assert forall i :: 0 <= i < |s| ==> (SlugRun(s[i]) ==> s[i] == '-');
    CollapseFixedPoint(s, SlugRun, '-', false);
  }

  lemma SlugifyIdempotent(text: string)
    ensures Slugify(Slugify(text)) == Slugify(text)
  {
    SlugFixedPoint(Slugify(text));
  }

  predicate IsSentenceEnd(c: char) {
    c == '.' || c == '!' || c == '?'
  }

  /** `text.split(/[.!?]+/)[0]`: the text before the first sentence end. */
  function FirstSentence(text: string): (r: string)
    ensures |r| <= |text| && r == text[..|r|]
    ensures forall i :: 0 <= i < |r| ==> !IsSentenceEnd(r[i])
    ensures |r| < |text| ==> IsSentenceEnd(text[|r|])
  {
    match FindFirst(text, IsSentenceEnd)
    case None => text
    case Some(k) => text[..k]
  }

  /** `extractPreview(text, maxLength)`: the trimmed first sentence when it
      is non-empty and fits, otherwise the trimmed text truncated. */
  function ExtractPreview(text: string, maxLength: int): (r: string)
    ensures Trim(FirstSentence(text)) != "" && |Trim(FirstSentence(text))| <= maxLength ==>
      r == Trim(FirstSentence(text))
    ensures maxLength >= |DefaultSuffix| ==> |r| <= maxLength
    ensures |Trim(text)| <= maxLength ==> r == Trim(text) || r == Trim(FirstSentence(text))
    ensures !(Trim(FirstSentence(text)) != "" && |Trim(FirstSentence(text))| <= maxLength) ==>
      r == Truncate(Trim(text), maxLength, DefaultSuffix)
  {
    var first := Trim(FirstSentence(text));
    if first != "" && |first| <= maxLength then first
    else Truncate(Trim(text), maxLength, DefaultSuffix)
  }

  /** `s.split(/\s+/)`: the pieces between whitespace runs; a leading or
      trailing run gives an empty piece at that end. Built one character at a
      time. */
  function SplitSpaceRuns(s: string): (parts: seq<string>)
    ensures SplitsRuns(s, parts)
    decreases |s|
  {
    if |s| == 0 then [""]
    else
      var init := SplitSpaceRuns(s[..|s| - 1]);
      var c := s[|s| - 1];
      var m := |init| - 1;
      if IsSpace(c) then
        SplitSpaceStep(s, init);
        if |s| >= 2 && IsSpace(s[|s| - 2]) then init else init + [""]
      else
        SplitWordStep(s, init);
        init[..m] + [init[m] + [c]]
  }

  /** What `split(/\s+/)` yields on `s`: at least one piece, none holding
      whitespace, the last empty exactly when `s` is empty or ends in
      whitespace, and as many non-empty pieces as `s` has runs of
      non-whitespace. */
  predicate SplitsRuns(s: string, parts: seq<string>) {
    && |parts| >= 1
    && (forall i :: 0 <= i < |parts| ==> SpaceFree(parts[i]))
    && (parts[|parts| - 1] == "" <==> |s| == 0 || IsSpace(s[|s| - 1]))
    && NonEmptyCount(parts) == Runs(s)
  }

  /** A whitespace character closes the current piece, once per run. */
  lemma SplitSpaceStep(s: string, init: seq<string>)
    requires |s| > 0 && IsSpace(s[|s| - 1]) && SplitsRuns(s[..|s| - 1], init)
    ensures SplitsRuns(s, if |s| >= 2 && IsSpace(s[|s| - 2]) then init else init + [""])
  {
    var n := |s| - 1;
    if n >= 1 {
      assert s[..n][n - 1] == s[n - 1];
    }
    if !(n >= 1 && IsSpace(s[n - 1])) {
      NonEmptyCountSnoc(init, "");
      SpaceFreeSnoc(init);
    }
  }

  /** A non-whitespace character grows the last piece. */
  lemma SplitWordStep(s: string, init: seq<string>)
    requires |s| > 0 && !IsSpace(s[|s| - 1]) && SplitsRuns(s[..|s| - 1], init)
    ensures var m := |init| - 1; SplitsRuns(s, init[..m] + [init[m] + [s[|s| - 1]]])
  {
    var n := |s| - 1;
    var m := |init| - 1;
    var grown := init[..m] + [init[m] + [s[n]]];
    if n >= 1 {
      assert s[..n][n - 1] == s[n - 1];
    }
    NonEmptyCountExtendLast(init, grown, s[n]);
    SpaceFreeGrown(init, grown, s[n]);
  }

  predicate SpaceFree(w: string) {
    forall k :: 0 <= k < |w| ==> !IsSpace(w[k])
  }

  lemma SpaceFreeSnoc(parts: seq<string>)
    requires forall i :: 0 <= i < |parts| ==> SpaceFree(parts[i])
    ensures forall i :: 0 <= i < |parts| + 1 ==> SpaceFree((parts + [""])[i])
  {
  }

  lemma SpaceFreeGrown(parts: seq<string>, grown: seq<string>, c: char)
    requires |parts| >= 1 && grown == parts[..|parts| - 1] + [parts[|parts| - 1] + [c]]
    requires forall i :: 0 <= i < |parts| ==> SpaceFree(parts[i])
    requires !IsSpace(c)
    ensures forall i :: 0 <= i < |grown| ==> SpaceFree(grown[i])
  {
    var m := |parts| - 1;
    assert SpaceFree(parts[m]);
    forall i | 0 <= i < |grown|
      ensures SpaceFree(grown[i])
    {
      if i < m {
        assert grown[i] == parts[i];
      }
    }
  }

  /** `filter(word => word.length > 0).length`. */
  function NonEmptyCount(parts: seq<string>): (n: nat)
    ensures n <= |parts|
    decreases |parts|
  {
    if |parts| == 0 then 0
    else NonEmptyCount(parts[..|parts| - 1]) + (if parts[|parts| - 1] != "" then 1 else 0)
  }

  /** `wordCount`: the number of whitespace-separated runs. */
  function WordCount(text: string): (r: nat)
    ensures r == Runs(text)
  {
    RunsOfTrim(text);
    NonEmptyCount(SplitSpaceRuns(Trim(text)))
  }

  /** `isNotEmpty`. */
  predicate IsNotEmpty(text: string): (b: bool)
    ensures b <==> exists i :: 0 <= i < |text| && !IsSpace(text[i])
  {
    |Trim(text)| > 0
  }

  /** The number of maximal runs of non-whitespace: the positions holding a
      non-space that starts the text or follows a space. */
  function Runs(s: string): nat
    decreases |s|
  {
    if |s| == 0 then 0
    else
      var n := |s| - 1;
      Runs(s[..n]) + (if !IsSpace(s[n]) && (n == 0 || IsSpace(s[n - 1])) then 1 else 0)
  }

  lemma NonEmptyCountSnoc(parts: seq<string>, x: string)
    ensures NonEmptyCount(parts + [x]) == NonEmptyCount(parts) + (if x != "" then 1 else 0)
  {
    assert (parts + [x])[..|parts|] == parts;
  }

  /** Growing the last piece by a character counts it once it is non-empty. */
  lemma NonEmptyCountExtendLast(parts: seq<string>, grown: seq<string>, c: char)
    requires |parts| >= 1 && grown == parts[..|parts| - 1] + [parts[|parts| - 1] + [c]]
    ensures NonEmptyCount(grown) == NonEmptyCount(parts) + (if parts[|parts| - 1] == "" then 1 else 0)
  {
    var m := |parts| - 1;
    NonEmptyCountSnoc(parts[..m], parts[m] + [c]);
    NonEmptyCountSnoc(parts[..m], parts[m]);
    assert parts[..m] + [parts[m]] == parts;
  }

  lemma {:induction false} RunsAppendSpaces(a: string, sp: string)
    requires AllSpace(sp)
    ensures Runs(a + sp) == Runs(a)
    decreases |sp|
  {
    if |sp| == 0 {
      assert a + sp == a;
    } else {
      var x := a + sp;
      assert x[..|x| - 1] == a + sp[..|sp| - 1];
      RunsAppendSpaces(a, sp[..|sp| - 1]);
    }
  }

  lemma {:induction false} RunsPrependSpaces(sp: string, b: string)
    requires AllSpace(sp)
    ensures Runs(sp + b) == Runs(b)
    decreases |b|
  {
    if |b| == 0 {
      assert sp + b == [] + sp;
      RunsAppendSpaces([], sp);
    } else {
      var x := sp + b;
      var n := |b| - 1;
      assert x[..|x| - 1] == sp + b[..n];
      RunsPrependSpaces(sp, b[..n]);
      if n > 0 {
        assert x[|x| - 2] == b[n - 1];
      }
    }
  }

  /** Trimming does not change the number of runs. */
  lemma RunsOfTrim(s: string)
    ensures Runs(Trim(s)) == Runs(s)
  {
    var k := TrimSlice(s);
    RunsOfSlice(s, k, k + |Trim(s)|);
  }

  /** Cutting whitespace off both ends keeps the runs. */
  lemma RunsOfSlice(s: string, k: nat, e: nat)
    requires k <= e <= |s| && AllSpace(s[..k]) && AllSpace(s[e..])
    ensures Runs(s[k..e]) == Runs(s)
  {
    var pre, mid, post := s[..k], s[k..e], s[e..];
    ThreeSlices(s, k, e);
    RunsAppendSpaces(mid, post);
    RunsPrependSpaces(pre, mid + post);
  }

  lemma ThreeSlices(s: string, k: nat, e: nat)
    requires k <= e <= |s|
    ensures s == s[..k] + (s[k..e] + s[e..])
  {
  }

  lemma {:induction false} RunsZeroIffAllSpace(s: string)
    ensures Runs(s) == 0 <==> AllSpace(s)
    decreases |s|
  {
    if |s| > 0 {
      var n := |s| - 1;
      RunsZeroIffAllSpace(s[..n]);
      assert forall i :: 0 <= i < n ==> s[..n][i] == s[i];
    }
  }

  /** Some word is counted exactly when the text is not blank. */
  lemma WordCountPositiveIffNotEmpty(text: string)
    ensures WordCount(text) > 0 <==> IsNotEmpty(text)
  {
    RunsZeroIffAllSpace(text);
  }
}

=== FILE: ui_store.dfy ===
/** The UI-preference store (`src/stores/ui.ts`): five persisted preferences,
    the mobile flag, and the snapshot last written to storage. The window
    width and the colour-scheme query are inputs; storage is the `stored`
    field, written by every action that calls `saveUIState`. */
module UiStore {
  import opened Wrappers

  /** Below this width the layout is the mobile one. */
  const MobileBreakpoint: int := 768

  datatype Theme = Light | Dark | System

  /** The persisted `UIState` record. */
  datatype Snapshot = Snapshot(
    sidebarOpen: bool,
    theme: Theme,
    compactMode: bool,
    showThinking: bool,
    lastActiveChat: Option<string>)

  /** The store's state and what storage holds. */
  datatype Ui = Ui(
    sidebarOpen: bool,
    theme: Theme,
    compactMode: bool,
    showThinking: bool,
    lastActiveChat: Option<string>,
    isMobile: bool,
    stored: Option<Snapshot>)

  /** The preferences used when nothing has been saved. */
  const Defaults: Snapshot := Snapshot(true, System, false, true, None)

  /** The store as created, before `initialize`, with storage as given. */
  function Fresh(stored: Option<Snapshot>): (u: Ui)
    ensures Prefs(u) == Defaults && !u.isMobile && u.stored == stored
  {
    Ui(true, System, false, true, None, false, stored)
  }

  /** The five persisted fields of the state. */
  function Prefs(u: Ui): Snapshot {
    Snapshot(u.sidebarOpen, u.theme, u.compactMode, u.showThinking, u.lastActiveChat)
  }

  /** Storage holds exactly the current preferences. */
  predicate Persisted(u: Ui) {
    u.stored == Some(Prefs(u))
  }

  /** `saveUIState`: writes the five preferences, nothing else changes. */
  function SaveUIState(u: Ui): (r: Ui)
    ensures Persisted(r) && Prefs(r) == Prefs(u) && r.isMobile == u.isMobile
  {
    u.(stored := Some(Prefs(u)))
  }

  /** `loadUIState` given what the storage read returned: a snapshot
      replaces the five preferences; none leaves the state alone. */
  function LoadUIState(u: Ui, saved: Option<Snapshot>): (r: Ui)
    ensures saved.Some? ==> Prefs(r) == saved.value
    ensures saved.None? ==> r == u
    ensures r.isMobile == u.isMobile && r.stored == u.stored
  {
    match saved
    case None => u
    case Some(s) => u.(sidebarOpen := s.sidebarOpen, theme := s.theme, compactMode := s.compactMode,
                       showThinking := s.showThinking, lastActiveChat := s.lastActiveChat)
  }

  /** What the storage read returns: the stored snapshot, or the defaults
      passed to it when nothing is stored. */
  function ReadStorage(u: Ui): Option<Snapshot> {
    Some(if u.stored.Some? then u.stored.value else Defaults)
  }

  /** A save followed by a load into any state restores the saved
      preferences there and leaves that state's mobile flag alone. */
  lemma SaveLoadRoundTrip(u: Ui, v: Ui)
    requires v.stored == SaveUIState(u).stored
    ensures Prefs(LoadUIState(v, ReadStorage(v))) == Prefs(u)
    ensures LoadUIState(v, ReadStorage(v)).isMobile == v.isMobile
  {
  }

  /** With nothing stored, loading gives the defaults. */
  lemma LoadWithoutSnapshot(u: Ui)
    requires u.stored.None?
    ensures Prefs(LoadUIState(u, ReadStorage(u))) == Defaults
  {
  }

  function ToggleSidebar(u: Ui): (r: Ui)
    ensures r.sidebarOpen == !u.sidebarOpen && Persisted(r)
    ensures Prefs(r).(sidebarOpen := u.sidebarOpen) == Prefs(u) && r.isMobile == u.isMobile
  {
    SaveUIState(u.(sidebarOpen := !u.sidebarOpen))
  }

  function CloseSidebar(u: Ui): (r: Ui)
    ensures !r.sidebarOpen && Persisted(r)
    ensures Prefs(r).(sidebarOpen := u.sidebarOpen) == Prefs(u) && r.isMobile == u.isMobile
  {
    SaveUIState(u.(sidebarOpen := false))
  }

  function OpenSidebar(u: Ui): (r: Ui)
    ensures r.sidebarOpen && Persisted(r)
    ensures Prefs(r).(sidebarOpen := u.sidebarOpen) == Prefs(u) && r.isMobile == u.isMobile
  {
    SaveUIState(u.(sidebarOpen := true))
  }

  /** `setTheme`; the re-styling by `applyTheme` is outside the state. */
  function SetTheme(u: Ui, theme: Theme): (r: Ui)
    ensures r.theme == theme && Persisted(r)
    ensures Prefs(r).(theme := u.theme) == Prefs(u) && r.isMobile == u.isMobile
  {
    SaveUIState(u.(theme := theme))
  }

  function ToggleCompactMode(u: Ui): (r: Ui)
    ensures r.compactMode == !u.compactMode && Persisted(r)
    ensures Prefs(r).(compactMode := u.compactMode) == Prefs(u) && r.isMobile == u.isMobile
  {
    SaveUIState(u.(compactMode := !u.compactMode))
  }

  function ToggleShowThinking(u: Ui): (r: Ui)
    ensures r.showThinking == !u.showThinking && Persisted(r)
    ensures Prefs(r).(showThinking := u.showThinking) == Prefs(u) && r.isMobile == u.isMobile
  {
    SaveUIState(u.(showThinking := !u.showThinking))
  }

  function SetLastActiveChat(u: Ui, chatId: Option<string>): (r: Ui)
    ensures r.lastActiveChat == chatId && Persisted(r)
    ensures Prefs(r).(lastActiveChat := u.lastActiveChat) == Prefs(u) && r.isMobile == u.isMobile
  {
    SaveUIState(u.(lastActiveChat := chatId))
  }

  /** Toggling twice restores the preferences; on a state whose storage is
      current it restores the state itself. */
  lemma TogglesAreInvolutions(u: Ui)
    ensures ToggleSidebar(ToggleSidebar(u)) == SaveUIState(u)
    ensures ToggleCompactMode(ToggleCompactMode(u)) == SaveUIState(u)
    ensures ToggleShowThinking(ToggleShowThinking(u)) == SaveUIState(u)
    ensures Persisted(u) ==> ToggleSidebar(ToggleSidebar(u)) == u
  {
  }

  /** Closing and opening are idempotent, and opening after closing
      restores an open sidebar. */
  lemma CloseOpenIdempotent(u: Ui)
    ensures CloseSidebar(CloseSidebar(u)) == CloseSidebar(u)
    ensures OpenSidebar(OpenSidebar(u)) == OpenSidebar(u)
    ensures u.sidebarOpen && Persisted(u) ==> OpenSidebar(CloseSidebar(u)) == u
  {
  }

  /** `updateMobileState` at window width `width`: it records whether the
      layout is mobile and closes the sidebar only when a desktop layout
      turns mobile with the sidebar open. It does not save. */
  function UpdateMobileState(u: Ui, width: int): (r: Ui)
    ensures r.isMobile <==> width < MobileBreakpoint
    ensures r.sidebarOpen <==> u.sidebarOpen && !(!u.isMobile && width < MobileBreakpoint)
    ensures r.stored == u.stored
    ensures Prefs(r).(sidebarOpen := u.sidebarOpen) == Prefs(u)
  {
    var wasMobile := u.isMobile;
    var u1 := u.(isMobile := width < MobileBreakpoint);
    if !wasMobile && u1.isMobile && u1.sidebarOpen then u1.(sidebarOpen := false) else u1
  }

  /** The resize handler never opens the sidebar, and while the layout stays
      mobile it leaves a sidebar the user opened alone. */
  lemma UpdateMobileNeverOpens(u: Ui, width: int)
    ensures UpdateMobileState(u, width).sidebarOpen ==> u.sidebarOpen
    ensures u.isMobile ==> UpdateMobileState(u, width).sidebarOpen == u.sidebarOpen
    ensures UpdateMobileState(UpdateMobileState(u, width), width) == UpdateMobileState(u, width)
  {
  }

  /** A sidebar closed by the resize handler is not written to storage, so a
      reload brings it back open. */
  lemma MobileCloseNotPersisted(u: Ui, width: int)
    requires Persisted(u) && u.sidebarOpen && !u.isMobile && width < MobileBreakpoint
    ensures !UpdateMobileState(u, width).sidebarOpen
    ensures var v := UpdateMobileState(u, width); LoadUIState(v, ReadStorage(v)).sidebarOpen
  {
  }

  /** `shouldAutoCloseSidebar`: only on a mobile layout. */
  function ShouldAutoCloseSidebar(u: Ui): bool {
    u.isMobile
  }

  /** `handleChatNavigation`: closes (and saves) on a mobile layout. */
  function HandleChatNavigation(u: Ui): (r: Ui)
    ensures u.isMobile ==> r == CloseSidebar(u)
    ensures !u.isMobile ==> r == u
  {
    if ShouldAutoCloseSidebar(u) then CloseSidebar(u) else u
  }

  /** Navigation leaves the sidebar closed exactly when the layout is
      mobile or it was already closed. */
  lemma NavigationClosesIffMobile(u: Ui)
    ensures !HandleChatNavigation(u).sidebarOpen <==> u.isMobile || !u.sidebarOpen
    ensures HandleChatNavigation(u).isMobile == u.isMobile
  {
  }

  /** `effectiveTheme` given whether the system prefers dark. */
  function EffectiveTheme(theme: Theme, prefersDark: bool): (t: Theme)
    ensures t != System
    ensures theme != System ==> t == theme
    ensures theme == System ==> (t == Dark <==> prefersDark)
  {
    if theme == System then (if prefersDark then Dark else Light) else theme
  }

  /** `initialize`: load the saved preferences, then read the width. */
  function Initialize(u: Ui, width: int): (r: Ui)
    ensures r.isMobile <==> width < MobileBreakpoint
    ensures r.stored == u.stored
  {
    UpdateMobileState(LoadUIState(u, ReadStorage(u)), width)
  }

  /** A fresh store starting on a desktop layout comes up with the saved
      preferences, or the defaults when there are none. */
  lemma InitializeRestores(stored: Option<Snapshot>, width: int)
    requires width >= MobileBreakpoint
    ensures Prefs(Initialize(Fresh(stored), width)) == (if stored.Some? then stored.value else Defaults)
  {
  }

  /** Starting on a mobile layout the sidebar always comes up closed, even
      when it was saved open. */
  lemma InitializeOnMobileCloses(stored: Option<Snapshot>, width: int)
    requires width < MobileBreakpoint
    ensures !Initialize(Fresh(stored), width).sidebarOpen
    ensures Prefs(Initialize(Fresh(stored), width)).(sidebarOpen := true)
         == (if stored.Some? then stored.value else Defaults).(sidebarOpen := true)
  {
  }
}

=== FILE: wrappers.dfy ===
/** Optional values, standing in for JavaScript's `undefined`/`null` and for
    the "no match" result of a search. */
module Wrappers {

  datatype Option<+T> = None | Some(value: T) {

    /** The value, or `default` when absent. */
    function GetOr(default: T): T {
      match this
      case Some(v) => v
      case None => default
    }
  }
}
